=== FILE: README.md ===
# Weather app: a Dafny model of its rules

The weather app tracks named locations and fetches their current weather and
five-day forecast from OpenWeatherMap. It has two parts:

- a Spring backend, with a location store, a snapshot history, a preference
  record, a scheduled sync, a per-client rate limiter and an exception-to-HTTP
  mapping;
- a React frontend, with a dashboard, a forecast modal, an add-location modal
  and client-side formatting.

This project models the rules of both parts as pure Dafny functions over
immutable values, and proves what those rules promise.

The backend modules are:

- `WeatherService`: country-code normalisation, add, update and delete of
  locations, the weather fetch, the snapshot mapping and the weather-drift
  test.
- `ForecastService`: the forecast JSON to DTO mapping.
- `UserPreferencesService`: the preference record.
- `WeatherSyncScheduler`: the sync loop.
- `RateLimitFilter`: the rate limiter.
- `ExceptionHandler`: the mapping from exceptions to HTTP responses.
- `Units`: the units enum.
- `Json`: the untyped `Map<String, Object>` that the REST client returns.

The frontend modules are:

- `WeatherClient`: the formatters and geocoding in `weatherService.js`.
- `AddLocationModal`, `DashboardOverview`, `ForecastModal` and
  `WeatherDashboard`: the components of the same names.

`ForecastPipeline` follows one forecast entry from the backend's mapping to
the precipitation slot of the forecast card.

`Wrappers` (Option and Result), `Text` (trimming, ASCII case mapping and
decimal rendering) and `Seqs` (`filter` on sequences) are shared helpers.

Everything outside the program is a function-valued parameter. That covers:

- the OpenWeatherMap provider;
- the JavaScript number and date parsers;
- `toFixed`, `toLocaleString` and date-fns formatting;
- the clock.

An exception becomes an `Err` value, and each asynchronous handler is split
into a start step and a completion step.

## Model

| member | source | states |
|---|---|---|
| Units.FromString | backend/src/main/java/com/uzwide/WeatherApp/dto/request/Units.java:11-13 | accepts a string exactly when its upper-cased form names one of the three constants, and then returns that constant |
| Units.ExactlyThreeConstants | backend/src/main/java/com/uzwide/WeatherApp/dto/request/Units.java:5-8 | METRIC, STANDARD and IMPERIAL are the only units, and their names are distinct |
| Units.FromStringAcceptsExactlyNames | backend/src/main/java/com/uzwide/WeatherApp/dto/request/Units.java:11-13 | parsing succeeds if and only if some unit's name equals the upper-cased input |
| Units.FromStringOfName | backend/src/main/java/com/uzwide/WeatherApp/dto/request/Units.java:11-13 | a unit's name, upper or lower case, parses back to that unit |
| Units.FromStringCaseInsensitive | backend/src/main/java/com/uzwide/WeatherApp/dto/request/Units.java:11-13 | two inputs that differ only in letter case parse to the same outcome |
| Units.QueryParam | backend/src/main/java/com/uzwide/WeatherApp/service/WeatherService.java:153 | the lower-cased unit name sent to the provider parses back to the same unit |
| WeatherService.LookupCountryName | backend/src/main/java/com/uzwide/WeatherApp/service/WeatherService.java:270-277 | a country name matches case-insensitively; it fails with the invalid-country message exactly when no entry's English name matches |
| WeatherService.NormalizeCountryCode | backend/src/main/java/com/uzwide/WeatherApp/service/WeatherService.java:260-278 | a null or blank country is refused as required, and every failure is an IllegalArgumentException |
| WeatherService.TwoLetterCodesBypassTheList | backend/src/main/java/com/uzwide/WeatherApp/service/WeatherService.java:265-267 | a trimmed two-character input is upper-cased and accepted whatever the country list holds |
| WeatherService.NormalizedCodeHasTwoCharacters | backend/src/main/java/com/uzwide/WeatherApp/service/WeatherService.java:260-278 | with a well-formed country list, every accepted country comes out as a two-character code |
| WeatherService.NormalizeFailsExactly | backend/src/main/java/com/uzwide/WeatherApp/service/WeatherService.java:260-278 | normalisation fails exactly for a blank input, or for a non-two-character input that names no listed country |
| WeatherService.CountryNameExample | backend/src/test/java/com/uzwide/WeatherApp/service/WeatherServiceTest.java:83-99 | "South Africa" normalises to "ZA" |
| WeatherService.UnknownCountryExample | backend/src/test/java/com/uzwide/WeatherApp/service/WeatherServiceTest.java:102-111 | an unknown country name is refused |
| WeatherService.UnmatchedNameRefused | backend/src/main/java/com/uzwide/WeatherApp/service/WeatherService.java:260-278 | a non-blank name that trims to a length other than two, and whose length differs from every listed English name, is refused as an invalid country |
| WeatherService.DriftSymmetricAndIrreflexive | backend/src/main/java/com/uzwide/WeatherApp/service/WeatherService.java:229-239 | drift is symmetric, never holds between a snapshot and itself, and never holds when the previous snapshot lacks temperature, humidity or pressure |
| WeatherService.DriftThresholdsInclusive | backend/src/main/java/com/uzwide/WeatherApp/service/WeatherService.java:35-37 | a change of exactly 8 degrees, 30 humidity points or 20 hPa counts as drift; smaller changes in all three do not |
| WeatherService.MapToWeatherSnapshot | backend/src/main/java/com/uzwide/WeatherApp/service/WeatherService.java:185-227 | a reply maps exactly when each group present has the expected types; the four main readings, the two wind fields and the cloudiness are present exactly when their group is; wind without "deg" has direction 0, a reply without "visibility" gets 10000, and no or an empty "weather" list leaves the texts null |
| WeatherService.SnapshotDefaults | backend/src/main/java/com/uzwide/WeatherApp/service/WeatherService.java:185-227 | the empty reply maps to a snapshot with no readings and visibility 10000, and a wind-only reply without "deg" to direction 0 |
| WeatherService.MapMain | backend/src/main/java/com/uzwide/WeatherApp/service/WeatherService.java:191-197 | the "main" group maps exactly when it is an object whose temperature, feels-like, humidity and pressure are numbers |
| WeatherService.MapWind | backend/src/main/java/com/uzwide/WeatherApp/service/WeatherService.java:200-204 | the "wind" group maps exactly when it is an object with a numeric speed and a numeric "deg" when present; a missing "deg" reads 0 |
| WeatherService.MapCondition | backend/src/main/java/com/uzwide/WeatherApp/service/WeatherService.java:207-215 | the "weather" list maps exactly when it is a list whose first element, if any, has string-or-null texts; an empty list gives no condition |
| WeatherService.StorableNeedsEveryGroup | backend/src/main/java/com/uzwide/WeatherApp/service/WeatherService.java:185-227 | only a reply carrying the main, wind and clouds groups and a non-empty weather list maps to a snapshot the table accepts |
| WeatherService.LatestSnapshot | backend/src/main/java/com/uzwide/WeatherApp/service/WeatherService.java:159-160 | the result belongs to the location, comes from the history, and no later entry of the history belongs to that location; nothing is found only when the location has no snapshot |
| WeatherService.EmptyReplyRejectedAtSave | backend/src/main/java/com/uzwide/WeatherApp/service/WeatherService.java:161-180 | a reply with none of the groups maps to a snapshot of nulls, which the snapshot table refuses, so the fetch fails with a WeatherApiException |
| WeatherService.FetchAndSaveWeatherData | backend/src/main/java/com/uzwide/WeatherApp/service/WeatherService.java:146-182 | success appends exactly the new snapshot, which has every reading present and its texts within their column widths, and changes nothing else; a mapped snapshot the table refuses fails the fetch; every failure is a WeatherApiException |
| WeatherService.AddLocation | backend/src/main/java/com/uzwide/WeatherApp/service/WeatherService.java:50-82 | an added location carries the normalised country and the next id, and the store gains exactly that location; the only failures are a bad country, a duplicate, and the rollback of an add whose initial snapshot the table refused |
| WeatherService.WithInitialWeather | backend/src/main/java/com/uzwide/WeatherApp/service/WeatherService.java:74-79 | the initial fetch never changes the saved locations or the next id; a failed fetch leaves the store exactly as saved, and a successful one appends one storable snapshot of the new location |
| WeatherService.AddLocationOutcome | backend/src/main/java/com/uzwide/WeatherApp/service/WeatherService.java:50-82 | adding fails as a duplicate exactly when the name and normalised country are taken, and with the rollback exception when the initial snapshot is refused; otherwise the location is stored under a fresh id with favourite defaulting to false |
| WeatherService.AddLocationIgnoresFetchFailure | backend/src/main/java/com/uzwide/WeatherApp/service/WeatherService.java:74-79 | a fetch that fails before the snapshot save does not change whether adding succeeds, nor the stored location |
| WeatherService.AddLocationWithoutRollback | backend/src/main/java/com/uzwide/WeatherApp/service/WeatherService.java:50-82 | unless the initial save is refused, an add succeeds exactly when the country normalises and the name and country are free, and stores the location built from the request |
| WeatherService.AddLocationRollsBackRejectedSave | backend/src/main/java/com/uzwide/WeatherApp/service/WeatherService.java:50-82 | the add ends with the rollback exception exactly when the table refused the new location's initial snapshot: the swallowed exception has already marked the transaction rollback-only |
| WeatherService.AddLocationKeepsSnapshotsAttached | backend/src/main/java/com/uzwide/WeatherApp/service/WeatherService.java:50-82 | after a successful add every stored snapshot still refers to a stored location |
| WeatherService.AddLocationPreservesInvariants | backend/src/main/java/com/uzwide/WeatherApp/service/WeatherService.java:51-82 | adding keeps ids consistent and (name, country) unique |
| WeatherService.InsertKeepsInvariants | backend/src/main/java/com/uzwide/WeatherApp/service/WeatherService.java:51-82 | saving under the next id a location whose (name, country) is free keeps ids consistent and (name, country) unique |
| WeatherService.UpdateLocation | backend/src/main/java/com/uzwide/WeatherApp/service/WeatherService.java:123-135 | update fails with "Location not found with id: " and the id exactly when the id is unknown |
| WeatherService.UpdateLocationOnlyTouchesTwoFields | backend/src/main/java/com/uzwide/WeatherApp/service/WeatherService.java:127-132 | only a non-null display name and favourite flag are written; an all-null update changes nothing, and repeating an update changes nothing more |
| WeatherService.UpdateLocationPreservesInvariants | backend/src/main/java/com/uzwide/WeatherApp/service/WeatherService.java:123-135 | updating keeps ids consistent and (name, country) unique |
| WeatherService.DeleteLocation | backend/src/main/java/com/uzwide/WeatherApp/service/WeatherService.java:137-144 | delete fails with not-found exactly for an unknown id, and with the foreign-key violation exactly for a location that still has snapshots; otherwise it removes that id and leaves every other location and every snapshot as it was |
| WeatherService.DeleteLocationPreservesInvariants | backend/src/main/java/com/uzwide/WeatherApp/service/WeatherService.java:139-144 | deleting keeps the invariants and frees the location's name and country |
| WeatherService.DeleteKeepsSnapshotsAttached | backend/src/main/java/com/uzwide/WeatherApp/service/WeatherService.java:137-144 | a delete that succeeds leaves no snapshot without its location |
| WeatherService.RefreshWeather | backend/src/main/java/com/uzwide/WeatherApp/service/WeatherService.java:112-120 | an unknown id gives LocationNotFound; a known id either appends one storable snapshot of that location or fails with a WeatherApiException, which is what a refused save gives |
| WeatherService.RefreshKeepsSnapshotsAttached | backend/src/main/java/com/uzwide/WeatherApp/service/WeatherService.java:112-120 | a refresh only appends snapshots of stored locations, so every snapshot keeps its location |
| ExceptionHandler.Handle | backend/src/main/java/com/uzwide/WeatherApp/exception/GlobalExceptionHandler.java:53-63 | only validation failures give the field-to-message map, whose keys are exactly the failing fields |
| ExceptionHandler.StatusClassification | backend/src/main/java/com/uzwide/WeatherApp/exception/GlobalExceptionHandler.java:20-96 | each exception maps to one status: 404 not found, 409 duplicate, 503 provider, 400 validation or illegal argument, 500 anything else |
| ExceptionHandler.OwnMessagePassedThrough | backend/src/main/java/com/uzwide/WeatherApp/exception/GlobalExceptionHandler.java:20-40 | not-found, duplicate and illegal-argument errors carry their own message to the client |
| ExceptionHandler.InternalTextHidden | backend/src/main/java/com/uzwide/WeatherApp/exception/GlobalExceptionHandler.java:42-51 | provider and unexpected errors always show the same fixed text, whatever their internal message |
| ExceptionHandler.CollectFieldErrorsLastWins | backend/src/main/java/com/uzwide/WeatherApp/exception/GlobalExceptionHandler.java:56-61 | the error map has one key per failing field, holding the message of that field's last error |
| ExceptionHandler.RepeatedFieldErrorAbsorbed | backend/src/main/java/com/uzwide/WeatherApp/exception/GlobalExceptionHandler.java:56-61 | repeating the last field error does not change the map |
| ForecastService.MapItems | backend/src/main/java/com/uzwide/WeatherApp/service/ForecastService.java:99-105 | the item list maps element by element, and fails exactly when some element fails |
| ForecastService.MapMain | backend/src/main/java/com/uzwide/WeatherApp/service/ForecastService.java:119-133 | the "main" group maps exactly when it is an object whose six required readings are numbers and whose defaulted ones are numbers when present |
| ForecastService.MapWeatherList | backend/src/main/java/com/uzwide/WeatherApp/service/ForecastService.java:135-147 | the "weather" list maps element by element and fails exactly when some element is not an object with a numeric id and string-or-null texts |
| ForecastService.MapWind | backend/src/main/java/com/uzwide/WeatherApp/service/ForecastService.java:149-159 | the "wind" group maps exactly when it is an object with a numeric speed, and numeric direction and gust when present |
| ForecastService.RainGroup | backend/src/main/java/com/uzwide/WeatherApp/service/ForecastService.java:177-183 | an absent "rain" group gives no volume; a present one must be an object, and its volume is "3h" or 0 |
| ForecastService.MapToForecastItem | backend/src/main/java/com/uzwide/WeatherApp/service/ForecastService.java:111-186 | an entry maps exactly when it is an object with a numeric "dt", and every other present field has its expected type; "visibility" and "pop" default to 0, and each group is present exactly when its key is |
| ForecastService.MapCity | backend/src/main/java/com/uzwide/WeatherApp/service/ForecastService.java:85-96 | the city maps exactly when it is an object with a numeric id, string-or-null name and country, and numeric defaulted fields; absent ones read 0 |
| ForecastService.MapToForecastApiResponse | backend/src/main/java/com/uzwide/WeatherApp/service/ForecastService.java:76-108 | a reply maps exactly when it is an object with a numeric "cnt" and well-typed optional parts; "message" defaults to 0, and the list, when present, maps entry by entry in order |
| ForecastService.MapToForecastDto | backend/src/main/java/com/uzwide/WeatherApp/service/ForecastService.java:194-217 | the forecast time is the provider's seconds times 1000, and the precipitation probability passes through |
| ForecastService.ForecastDtoNullRules | backend/src/main/java/com/uzwide/WeatherApp/service/ForecastService.java:194-217 | the readings, wind fields, cloudiness and rain volume are null exactly when their group is absent; condition, description and icon are null exactly when the weather list is absent or empty or the first element's text is null, and otherwise are that element's texts |
| ForecastService.MapToForecastDtoList | backend/src/main/java/com/uzwide/WeatherApp/service/ForecastService.java:188-192 | a reply without a list fails; otherwise there is one DTO per item, in order |
| ForecastService.ForecastItemDefaults | backend/src/main/java/com/uzwide/WeatherApp/service/ForecastService.java:111-186 | an item holding only "dt" has null readings, probability 0 and no rain; wind without "deg" points to 0; rain without "3h" has volume 0 |
| ForecastService.FetchForecast | backend/src/main/java/com/uzwide/WeatherApp/service/ForecastService.java:50-73 | every failure of the forecast fetch is a WeatherApiException |
| ForecastService.GetForecast | backend/src/main/java/com/uzwide/WeatherApp/service/ForecastService.java:42-47 | an unknown location gives "Location not found"; a known one fails only with a WeatherApiException |
| ForecastService.UnknownLocationFetchesNothing | backend/src/main/java/com/uzwide/WeatherApp/service/ForecastService.java:42-47 | for an unknown location the provider's answer makes no difference |
| ForecastService.ForecastOnePerEntry | backend/src/test/java/com/uzwide/WeatherApp/service/ForecastServiceTest.java:113-135 | a provider list of well-formed items gives exactly one forecast per entry |
| UserPreferencesService.CreateDefaultPreferences | backend/src/main/java/com/uzwide/WeatherApp/service/UserPreferencesService.java:50-56 | defaults are METRIC, 30 minutes and auto-refresh off, and they are saved as a new row |
| UserPreferencesService.FirstOrCreate | backend/src/main/java/com/uzwide/WeatherApp/service/UserPreferencesService.java:25-26 | the first row is used when one exists; otherwise exactly one default row is created |
| UserPreferencesService.Merge | backend/src/main/java/com/uzwide/WeatherApp/service/UserPreferencesService.java:36-44 | each non-null field of the request overwrites its field, and null fields keep the stored value |
| UserPreferencesService.UpdateUserPreferences | backend/src/main/java/com/uzwide/WeatherApp/service/UserPreferencesService.java:31-48 | the update returns the stored first row, and does not add a row when one exists |
| UserPreferencesService.DefaultsWhenMissing | backend/src/main/java/com/uzwide/WeatherApp/service/UserPreferencesService.java:24-27 | reading with no stored row yields METRIC, 30 and auto-refresh off, and stores that row |
| UserPreferencesService.GetReturnsFirstRow | backend/src/main/java/com/uzwide/WeatherApp/service/UserPreferencesService.java:24-28 | reading returns the first row unchanged, and a second read returns the same |
| UserPreferencesService.UpdateOverwritesOnlyGivenFields | backend/src/main/java/com/uzwide/WeatherApp/service/UserPreferencesService.java:36-44 | after an update the stored row holds the given fields and keeps the others |
| UserPreferencesService.AllNullUpdateIsIdentity | backend/src/main/java/com/uzwide/WeatherApp/service/UserPreferencesService.java:36-44 | an update with every field null leaves the table unchanged |
| UserPreferencesService.UpdateIdempotent | backend/src/main/java/com/uzwide/WeatherApp/service/UserPreferencesService.java:31-48 | applying the same update twice gives the same table and answer as applying it once |
| UserPreferencesService.OperationsPreserveValid | backend/src/main/java/com/uzwide/WeatherApp/service/UserPreferencesService.java:24-56 | reading and updating keep the row ids increasing and below the next id |
| WeatherSyncScheduler.SyncUnits | backend/src/main/java/com/uzwide/WeatherApp/scheduler/WeatherSyncScheduler.java:32 | the sync uses the preferred units, or METRIC when none is set |
| WeatherSyncScheduler.RefreshOutcomeIgnoresSnapshots | backend/src/main/java/com/uzwide/WeatherApp/scheduler/WeatherSyncScheduler.java:37-44 | whether a refresh succeeds depends only on the stored locations, not on the snapshots already saved |
| WeatherSyncScheduler.SyncAllLocations | backend/src/main/java/com/uzwide/WeatherApp/scheduler/WeatherSyncScheduler.java:25-47 | with auto-refresh not exactly true nothing is read or called; otherwise every location is refreshed once, in order, a failure never stops the loop, and the success count is the number of refreshes that succeeded, each adding one snapshot |
| RateLimitFilter.FirstSplitPiece | backend/src/main/java/com/uzwide/WeatherApp/filter/RateLimitFilter.java:50 | `split(",")[0]` has no element exactly when the header holds only commas; otherwise it is the text before the first comma |
| RateLimitFilter.ClientKey | backend/src/main/java/com/uzwide/WeatherApp/filter/RateLimitFilter.java:47-53 | there is no key exactly when the forwarded header is present and holds only commas; without a usable header the key is the remote address; otherwise it is the trimmed first entry |
| RateLimitFilter.FilterCrashesOnCommaHeader | backend/src/main/java/com/uzwide/WeatherApp/filter/RateLimitFilter.java:23-53 | the filter lets an exception escape exactly for a comma-only forwarded header, and then changes no log |
| RateLimitFilter.ForwardedHeaderDecidesKey | backend/src/main/java/com/uzwide/WeatherApp/filter/RateLimitFilter.java:47-53 | two requests with the same usable forwarded header share a key whatever their remote addresses |
| RateLimitFilter.Evict | backend/src/main/java/com/uzwide/WeatherApp/filter/RateLimitFilter.java:31-33 | eviction drops a prefix of the log, every dropped entry is older than the window, and the first kept one is not |
| RateLimitFilter.EvictionBoundary | backend/src/main/java/com/uzwide/WeatherApp/filter/RateLimitFilter.java:18 | an entry exactly 60000 ms old stays in the window; one a millisecond older is evicted |
| RateLimitFilter.EvictIsWindow | backend/src/main/java/com/uzwide/WeatherApp/filter/RateLimitFilter.java:31-33 | on a time-ordered log, eviction keeps exactly the entries inside the window |
| RateLimitFilter.DoFilter | backend/src/main/java/com/uzwide/WeatherApp/filter/RateLimitFilter.java:23-45 | a request is rejected with 429 exactly when 60 or more entries remain after eviction; a passed request is logged; other clients' logs never change |
| RateLimitFilter.Admit | backend/src/main/java/com/uzwide/WeatherApp/filter/RateLimitFilter.java:30-44 | for one client, the request is refused with 429 exactly when 60 or more entries survive eviction, and only a passed request adds its time to the log; a log of at most 60 entries stays at most 60, whatever the clock |
| RateLimitFilter.DoFilterKeepsBound | backend/src/main/java/com/uzwide/WeatherApp/filter/RateLimitFilter.java:30-44 | no client's log ever holds more than 60 entries, with no assumption about the clock |
| RateLimitFilter.AdmitsIffWindowNotFull | backend/src/main/java/com/uzwide/WeatherApp/filter/RateLimitFilter.java:35-44 | with a well-kept log, a request passes if and only if fewer than 60 of its client's requests fall in the window |
| RateLimitFilter.DoFilterPreservesGood | backend/src/main/java/com/uzwide/WeatherApp/filter/RateLimitFilter.java:23-45 | with non-decreasing clock readings, every client's log stays time-ordered and holds at most 60 entries |
| WeatherClient.FormatTemperature | frontend/src/services/weatherService.js:150-163 | a missing temperature shows "N/A"; otherwise the rounded value with °F for IMPERIAL, K for STANDARD and °C for any other unit |
| WeatherClient.FormatWindSpeed | frontend/src/services/weatherService.js:166-178 | a missing speed shows "N/A"; otherwise the rounded value in mph for IMPERIAL and m/s for every other unit |
| WeatherClient.FormatPressure | frontend/src/services/weatherService.js:181-184 | a missing pressure shows "N/A"; otherwise the value in hPa |
| WeatherClient.FormatHumidity | frontend/src/services/weatherService.js:187-190 | a missing humidity shows "N/A"; otherwise the value with a percent sign |
| WeatherClient.FormatVisibility | frontend/src/services/weatherService.js:193-204 | a missing visibility shows "N/A"; otherwise miles to one decimal for IMPERIAL and kilometres to one decimal for any other unit |
| WeatherClient.FormattersTellUnitsApart | frontend/src/services/weatherService.js:150-178 | a present reading never shows "N/A", and its suffix tells the unit systems apart |
| WeatherClient.TemperatureExample | frontend/src/services/weatherService.test.js:109 | 24.6 in METRIC shows as "25°C" |
| WeatherClient.WindSpeedExample | frontend/src/services/weatherService.test.js:110 | 12.2 in IMPERIAL shows as "12 mph" |
| WeatherClient.PlainFormatExamples | frontend/src/services/weatherService.test.js:111-113 | 1012 shows as "1012 hPa", 80 as "80%", and 5000 m in METRIC as five kilometres |
| WeatherClient.DisplayLabel | frontend/src/services/weatherService.js:47 | the label is name and country separated by ", ", with a non-empty state between them |
| WeatherClient.Shape | frontend/src/services/weatherService.js:42-48 | a result keeps the provider's name, country and coordinates and carries the composed label |
| WeatherClient.DisplayLabelExample | frontend/src/services/weatherService.test.js:55-89 | London, England, GB gets all three parts; an empty state is skipped |
| WeatherClient.DisplayLabelFrames | frontend/src/services/weatherService.js:47 | the label starts with the name and ends with the country |
| WeatherClient.SearchLocations | frontend/src/services/weatherService.js:26-53 | without an API key no request is made; the request asks for five matches; every failure reads "Failed to search locations" |
| WeatherClient.SearchMapsOneToOne | frontend/src/services/weatherService.js:42-48 | a successful search gives one shaped result per provider entry, in order |
| WeatherClient.ReverseGeocode | frontend/src/services/weatherService.js:55-87 | without a key nothing is asked; the request asks for one match; the answer is the first entry shaped, or null for an empty, missing or failed reply |
| AddLocationModal.SelectedPosition | frontend/src/components/AddLocationModal.jsx:86-93 | a position exists exactly when both fields parse and lie within ±90 and ±180 |
| AddLocationModal.ManualCountry | frontend/src/components/AddLocationModal.jsx:275-279 | an empty country becomes "XX"; otherwise the trimmed, upper-cased entry is accepted exactly when it has two characters |
| AddLocationModal.BlankCountryRefused | frontend/src/components/AddLocationModal.jsx:275-279 | a country of spaces only is not replaced by "XX" and is refused |
| AddLocationModal.FirstFilled | frontend/src/components/AddLocationModal.jsx:281-288 | the first non-blank of two trimmed fields is used, else the fallback |
| AddLocationModal.ValidateManual | frontend/src/components/AddLocationModal.jsx:261-288 | a non-numeric coordinate gives the numeric message; an accepted draft carries the parsed coordinates, the checked country and names chosen display-first and name-first |
| AddLocationModal.ValidationAgreesWithSelectedPosition | frontend/src/components/AddLocationModal.jsx:86-93 | submission passes the coordinate checks exactly when the map has a selected position, at that position |
| AddLocationModal.SubmittedNamesNotBlank | frontend/src/components/AddLocationModal.jsx:281-288 | a submitted location never has a blank name or display name |
| AddLocationModal.FirstFilledNotBlank | frontend/src/components/AddLocationModal.jsx:281-288 | whichever of the two trimmed names or the fallback is picked, it is not blank when the fallback is not |
| AddLocationModal.CoordinatesNotBlank | frontend/src/components/AddLocationModal.jsx:281-288 | both coordinate fallbacks contain a visible character |
| AddLocationModal.ManualSubmit | frontend/src/components/AddLocationModal.jsx:261-300 | an invalid draft only shows its message and sends nothing; a valid one marks the modal submitting and sends the validated location |
| AddLocationModal.Reset | frontend/src/components/AddLocationModal.jsx:128-147 | reset clears the draft, results, messages and flags, and recentres the map |
| AddLocationModal.ManualSubmitDone | frontend/src/components/AddLocationModal.jsx:301-308 | success resets the modal and notifies the parent; failure shows the rejected call's own message (the client rethrows the request error unchanged) or the fallback; submitting ends either way |
| AddLocationModal.ManualRoundTrip | frontend/src/components/AddLocationModal.jsx:261-308 | a valid draft sent and accepted leaves the modal reset and the parent notified |
| AddLocationModal.SearchStart | frontend/src/components/AddLocationModal.jsx:154-158 | a blank query does nothing; otherwise the trimmed query is searched with loading on and the error cleared |
| AddLocationModal.SearchDone | frontend/src/components/AddLocationModal.jsx:159-168 | results are shown on success; a failure shows its message or the fallback; loading ends either way |
| AddLocationModal.AddResultStart | frontend/src/components/AddLocationModal.jsx:171-181 | picking a search result sends its name, country, coordinates and label as a non-favourite |
| AddLocationModal.AddResultDone | frontend/src/components/AddLocationModal.jsx:182-187 | success resets the modal and notifies the parent; failure shows the message or "Failed to add location" |
| AddLocationModal.InputChange | frontend/src/components/AddLocationModal.jsx:190-197 | typing clears the error; blanking the query hides and clears shown results; otherwise results stay |
| AddLocationModal.UpdateManualField | frontend/src/components/AddLocationModal.jsx:199-203 | editing one field sets it, leaves the others, and clears the error and the info message |
| AddLocationModal.Hydrate | frontend/src/components/AddLocationModal.jsx:205-219 | an unresolved lookup only sets the hint; coordinates are never changed by the lookup |
| AddLocationModal.HydrateFillsOnlyEmptyFields | frontend/src/components/AddLocationModal.jsx:212-217 | a resolved lookup fills name, display name and country only where they are empty, and touches nothing else |
| AddLocationModal.MapSelect | frontend/src/components/AddLocationModal.jsx:221-230 | a map click writes the coordinates to six decimals, recentres the map, clears the error and looks up that point |
| AddLocationModal.MapSelectionSurvivesLookup | frontend/src/components/AddLocationModal.jsx:221-230 | the lookup started by a map click never overwrites the clicked coordinates |
| AddLocationModal.LocateStart | frontend/src/components/AddLocationModal.jsx:232-239 | without geolocation the device message is shown; otherwise locating starts with the error cleared |
| AddLocationModal.LocateCycle | frontend/src/components/AddLocationModal.jsx:232-253 | without geolocation nothing is requested and the draft stays; otherwise, however the browser answers, locating ends and only a position changes the draft, and only its coordinates, both written with `fixed(…, 6)` |
| AddLocationModal.Located | frontend/src/components/AddLocationModal.jsx:241-245 | a device position is handled like a map click and ends locating |
| AddLocationModal.LocateFailed | frontend/src/components/AddLocationModal.jsx:246-253 | code 1 shows the permission message, any other code the unavailable message; locating ends |
| WeatherDashboard.PartitionCoversInput | frontend/src/components/WeatherDashboard.jsx:15-16 | favourites and the rest are disjoint and together hold every location exactly as often as the input does |
| WeatherDashboard.PartitionKeepsOrder | frontend/src/components/WeatherDashboard.jsx:15-16 | both lists keep the input order, shown by splitting over concatenation |
| WeatherDashboard.Render | frontend/src/components/WeatherDashboard.jsx:20-68 | the favourites section shows exactly when some location is a favourite; the empty state shows exactly when there are no locations; otherwise the grid shows the non-favourites |
| WeatherDashboard.AllFavouritesShowEmptyGrid | frontend/src/components/WeatherDashboard.jsx:20-68 | when every location is a favourite, all appear in the favourites section and the grid is empty |
| ForecastModal.GroupDatesInFirstOccurrenceOrder | frontend/src/components/ForecastModal.jsx:26-33 | grouping lists each day once, in order of first occurrence, and keeps every entry |
| ForecastModal.GroupsHoldTheirDates | frontend/src/components/ForecastModal.jsx:26-33 | each day's group holds exactly the entries on that day, in input order, and is never empty |
| ForecastModal.EveryEntryHasGroup | frontend/src/components/ForecastModal.jsx:26-33 | every entry's day heads some group |
| ForecastModal.FetchStart | frontend/src/components/ForecastModal.jsx:19-20 | a fetch starts with loading on and the error cleared |
| ForecastModal.FetchCycle | frontend/src/components/ForecastModal.jsx:18-41 | a whole fetch always ends loading; a rejected request keeps the previous entries and groups and shows the failure text; a fully printable reply replaces the groups and clears an earlier error |
| ForecastModal.FetchDone | frontend/src/components/ForecastModal.jsx:21-41 | a failed fetch shows "Failed to fetch forecast data"; a reply is stored and grouped by day; loading ends either way |
| ForecastModal.PrecipitationLine | frontend/src/components/ForecastModal.jsx:116-120 | a null probability renders nothing, a probability of exactly 0 renders the bare text "0", and any other probability renders the rounded percentage |
| ForecastModal.RainSlotText | frontend/src/components/ForecastModal.jsx:116-120 | the three outcomes render as the empty text, "0", and the number with a percent sign, and no two of them look alike |
| ForecastPipeline.MissingPopShowsBareZero | backend/src/main/java/com/uzwide/WeatherApp/service/ForecastService.java:117 | a forecast entry without "pop" is stored with probability 0, and so reaches the card as the bare "0" |
| ForecastPipeline.PresentPopShowsPercent | frontend/src/components/ForecastModal.jsx:116-120 | an entry with a present, non-zero "pop" reaches the card as the rounded percentage of that value |
| ForecastModal.PrecipitationPercentBounded | frontend/src/components/ForecastModal.jsx:118 | a probability between 0 and 1 shows between 0% and 100% |
| DashboardOverview.Count | frontend/src/components/DashboardOverview.jsx:18-28 | the total is the number of locations, and the favourite, synced and stale counts never exceed it |
| DashboardOverview.CountsAreAdditive | frontend/src/components/DashboardOverview.jsx:20-28 | each count over two joined lists is the sum of the counts over each |
| DashboardOverview.SingleLocationCounts | frontend/src/components/DashboardOverview.jsx:7-28 | a temperature of zero counts as synced; only a true favourite flag counts; a location is stale unless its timestamp parses and is at most three hours old |
| DashboardOverview.StalenessBoundary | frontend/src/components/DashboardOverview.jsx:5-27 | an update exactly three hours old is not stale; one a millisecond older is |
| DashboardOverview.StaleAndFreshPartition | frontend/src/components/DashboardOverview.jsx:22-28 | stale locations and fresh locations together make up the whole list |
| DashboardOverview.Timestamps | frontend/src/components/DashboardOverview.jsx:30-32 | the timestamps kept are non-empty and are exactly those of locations with a truthy `lastUpdated` |
| DashboardOverview.LatestIndex | frontend/src/components/DashboardOverview.jsx:33-38 | the reduce yields nothing exactly for an empty list, and otherwise an element of it |
| DashboardOverview.LatestIsEarliestMaximum | frontend/src/components/DashboardOverview.jsx:33-38 | when all timestamps parse, the latest sync is a maximum, and ties keep the earlier element |
| DashboardOverview.InvalidFirstTimestampSticks | frontend/src/components/DashboardOverview.jsx:33-38 | an invalid first timestamp is never replaced, because every comparison with it is false |
| DashboardOverview.EffectiveLastSync | frontend/src/components/DashboardOverview.jsx:40 | no last sync exactly when `lastSyncAt` is falsy and no location has a timestamp; otherwise a non-empty time taken from `lastSyncAt` or a location |
| DashboardOverview.NeverSynced | frontend/src/components/DashboardOverview.jsx:40-191 | "Never" is shown exactly when there is no truthy `lastSyncAt` and no location timestamp |
| DashboardOverview.Coverage | frontend/src/components/DashboardOverview.jsx:83 | coverage is exactly "0%" for no locations, and otherwise the rounded percentage with a percent sign |
| DashboardOverview.CoverageBounds | frontend/src/components/DashboardOverview.jsx:83 | the percentage lies in 0 to 100: 100 when all locations are synced, 0 when none are |
| DashboardOverview.Health | frontend/src/components/DashboardOverview.jsx:41 | health is "DEGRADED" exactly when there is an error, else "UP" |
| DashboardOverview.Metrics | frontend/src/components/DashboardOverview.jsx:85-110 | the coverage metrics are good exactly when all locations are synced; refreshes are always good; staleness is good exactly when nothing is stale |
| DashboardOverview.EmptyListMetricsGood | frontend/src/components/DashboardOverview.jsx:85-110 | with no locations every metric is good |
| DashboardOverview.Insert | frontend/src/components/DashboardOverview.jsx:76 | inserting adds the location to the sorted run without losing or duplicating any |
| DashboardOverview.SortByRecency | frontend/src/components/DashboardOverview.jsx:76 | sorting is a permutation of its input |
| DashboardOverview.SortIsNewestFirst | frontend/src/components/DashboardOverview.jsx:76 | when every timestamp parses, the sorted feed is newest first |
| DashboardOverview.RecentLocations | frontend/src/components/DashboardOverview.jsx:74-77 | the feed has min(5, number with a timestamp) entries, all from the list and all with a timestamp |
| DashboardOverview.RecentAreMostRecent | frontend/src/components/DashboardOverview.jsx:74-77 | when every timestamp parses, no location left out of the feed is more recent than one in it |
| DashboardOverview.RecentActivity | frontend/src/components/DashboardOverview.jsx:74-81 | there is one activity line per feed location, in feed order, each timed by the relative formatter; a feed time that does not parse makes the render crash instead |
| DashboardOverview.ActivityNamesLocation | frontend/src/components/DashboardOverview.jsx:79 | a line names the display name when it is non-empty, else the location name |
| DashboardOverview.Render | frontend/src/components/DashboardOverview.jsx:74-145 | the spinner shows exactly while loading with no locations; the render crashes exactly when a feed location's time does not parse; the refresh button is disabled exactly while refreshing or without a callback |
| DashboardOverview.ValidTimesNeverCrash | frontend/src/components/DashboardOverview.jsx:74-81 | when every location timestamp parses, the render never crashes |
| DashboardOverview.LoneBadTimeCrashes | frontend/src/components/DashboardOverview.jsx:74-81 | a single location whose timestamp does not parse heads the feed, so the render crashes |
| DashboardOverview.NonArrayIsEmpty | frontend/src/components/DashboardOverview.jsx:18 | a non-array `locations` renders exactly like an empty list |
| DashboardOverview.RefreshCalls | frontend/src/components/DashboardOverview.jsx:121-145 | a click calls `onRefreshAll` at most once, and does so exactly when a callback exists and no refresh is running |

## Where the tests and the code disagree

The model follows the code in both cases below.

- `UserPreferencesServiceTest.java` expects that reading with no stored row
  saves nothing. `createDefaultPreferences` (UserPreferencesService.java:55)
  does save the defaults, and `CreateDefaultPreferences` models that save.
- `weatherService.test.js:109` expects the mis-encoded text `'25Â°C'`. The
  formatter produces `°C`, and `TemperatureExample` states `"25°C"`.

## Left out

- Network, caching and the database engine are left out. The
  OpenWeatherMap calls, axios, Spring's `RestTemplate`, the JPA repositories
  and `@Cacheable`/`@CacheEvict` are not modelled. Provider replies are
  function parameters. The repositories are immutable `Store` and `Table`
  values, and a failed operation aborts with no partial write.
- The database constraints are modelled where they change an outcome. The
  `weather_snapshots` columns refuse nulls and over-long texts (`Storable`).
  Their `location_id` foreign key refuses the delete of a location that still
  has snapshots. That assumes the schema generated from the entity mapping,
  which declares no cascade. A hand-written schema with `ON DELETE CASCADE`
  is not modelled.
- `@Transactional` is modelled only as the outcome of `addLocation`. A
  refused snapshot save marks the shared transaction rollback-only. The
  exception is swallowed, and the commit then fails, so the add returns
  `Unexpected(RolledBack)` and stores nothing. The exact exception text and
  the flush timing of the JPA provider are not modelled.
- `WeatherService.AddLocation` and `WeatherService.UpdateLocation` do not
  model the `locations` column widths: 100 characters for the name and the
  display name, 2 for the country. A longer name would be refused by the
  database with a 500 answer, and the model accepts it.
- `ForecastService.MapToForecastDto`: the DTO's `forecastTime` is a
  `LocalDateTime` built with `LocalDateTime.ofInstant` in the server's
  default time zone. The model keeps the epoch milliseconds it is built
  from. Time zones and calendar conversion are not modelled.
- The forecast mapping records only whether a field fails, not whether the
  failure is a NullPointerException or a ClassCastException. Both become the
  same WeatherApiException.
- Concurrency is left out. The `ConcurrentHashMap` and deque of the rate
  limiter are modelled as one sequential map. Interleavings of concurrent
  requests are not modelled.
- Clocks, date parsing, `toFixed`, `toLocaleString`, date-fns formatting and
  `parseFloat` are parameters. Their own behaviour is outside the model.
- `ForecastModal.GroupByDate`: the grouping order is first occurrence. That
  agrees with `Object.entries` only while no date key looks like an array
  index. `yyyy-MM-dd` keys never do, so this is no restriction in practice.
- `DashboardOverview.SortByRecency`: the feed order is proved only when every
  timestamp parses. With an invalid date, the comparator returns `NaN`, and
  `Array.prototype.sort` gives an implementation-defined order. The model uses
  one stable insertion sort there.
- Numbers use unbounded integers and exact reals. Java `int`/`long`
  overflow, IEEE-754 rounding and the exact bits of `Math.round` on
  non-representable values are not modelled.
- `AddLocationModal.UpdateManualField` stores the country as typed. The
  country input upper-cases it on every keystroke, so the draft the user
  sees differs. The submitted request is the same, because `ManualCountry`
  upper-cases the country anyway.
- `Units.FromString`, `Units.FromStringOfName` and `Units.QueryParam` assume a
  JVM default locale that maps the case of ASCII letters as `Locale.ROOT`
  does. `Units.fromString` and the two `units.name().toLowerCase()` calls use
  the default locale; under a Turkish or Azeri one, "imperial" upper-cases to
  "İMPERİAL" and is refused, and the provider is sent "ımperıal".
- Letter case is mapped for ASCII only. Java and JavaScript full Unicode case
  mapping, and UTF-16 string lengths, are not modelled.
- The JDK's ISO country list is a parameter, as is its `getDisplayCountry`.
- `WeatherService.LatestSnapshot` takes the last appended snapshot of a
  location as its latest. The source orders by fetch time, which agrees as
  long as the clock never runs backwards.
- Leaflet map lifecycle and the react-icons glyphs are left out. The close
  button's `closeModal` is modelled by `AddLocationModal.Reset`, its
  `resetModalState` half; the parent's `onClose` callback is left out. So are
  the presentational and tooling components (`WeatherCard.jsx`,
  `UnitsSelector.jsx`, `Navigation.jsx`, `ApiTester.jsx`,
  `ApiDocumentation.jsx`) and the controllers' routing, bean validation and
  CORS set-up.
- The `RateLimitFilter` response body is a fixed constant. The servlet writer
  and its `IOException` are not modelled.
- `WeatherSyncScheduler.SyncAllLocations` takes the preferences and the
  ordered location ids as inputs. `findAllOrdered` and the Spring scheduling
  trigger are not part of this model, and log lines are not modelled.

=== FILE: add_location.dfy ===
/** The frontend's `AddLocationModal`: the draft of a location being added
    by search, map click, device position or typed coordinates, and the
    handlers that move it along. Each asynchronous handler is split into the
    step that runs before its `await` (returning the request it sends) and
    the step that runs when the answer arrives. Number parsing
    (`Number.parseFloat` followed by `Number.isFinite`) is the `parse`
    parameter and `toFixed` is the `fixed` parameter. */
module AddLocationModal {
  import opened Wrappers
  import opened Text
  import opened WeatherClient

  const NumericMessage := "Enter valid numeric latitude and longitude."
  const RangeMessage := "Latitude must be between -90 and 90, and longitude between -180 and 180."
  const CountryMessage := "Country must be a 2-letter code (or leave it blank to use XX)."
  const ManualAddFailed := "Failed to add location from coordinates."
  const AddFailed := "Failed to add location"
  const SearchFailedMessage := "Failed to search locations"
  const NotResolvedInfo := "Coordinates selected. Enter a location name/country if needed."
  const ResolvedInfo := "Location details were auto-filled from the selected coordinates."
  const NoGeolocation := "Current location is unavailable on this device. Enter coordinates manually."
  const PermissionDenied := "Permission denied. Enable location permission or enter coordinates manually."
  const PositionUnavailable := "Could not get current location. Enter coordinates manually."
  const UnknownCountry := "XX"
  const DefaultCenter: (real, real) := (20.0, 0.0)

  /** The `manualLocation` draft: everything is text as typed. */
  datatype Draft = Draft(displayName: string, name: string, country: string, latitude: string, longitude: string)

  const EmptyDraft := Draft("", "", "", "", "")

  datatype Mode = SearchMode | CoordinatesMode

  /** The modal's state hooks (the map objects and the online flag are
      not modelled). */
  datatype ModalState = ModalState(
    cityName: string,
    mode: Mode,
    loading: bool,
    manualSubmitting: bool,
    locating: bool,
    searchResults: seq<GeoResult>,
    showResults: bool,
    mapCenter: (real, real),
    draft: Draft,
    error: Option<string>,
    info: string)

  /** The state `resetModalState` restores, which is also the initial one. */
  const Initial := ModalState("", SearchMode, false, false, false, [], false, DefaultCenter, EmptyDraft, None, "")

  /** The body `weatherService.addLocation` posts. */
  datatype LocationRequest = LocationRequest(
    name: string, country: string, latitude: real, longitude: real, displayName: string, isFavorite: bool)

  /** How an `addLocation` call ended: resolved, or rejected with an error
      whose message may be empty. */
  datatype AddOutcome = Added | AddRejected(message: string)

  /** A rejected call's message, or `fallback` when it is empty. */
  function MessageOr(message: string, fallback: string): (r: string)
    ensures message != [] ==> r == message
    ensures message == [] ==> r == fallback
  {
    if message != [] then message else fallback
  }

  /** Both coordinates inside the inclusive ranges. */
  predicate InRange(latitude: real, longitude: real) {
    -90.0 <= latitude <= 90.0 && -180.0 <= longitude <= 180.0
  }

  /** `selectedPosition`: the parsed pair when both parse and lie in range. */
  function SelectedPosition(d: Draft, parse: string -> Option<real>): (r: Option<(real, real)>)
    ensures r.Some? <==> parse(d.latitude).Some? && parse(d.longitude).Some? && InRange(parse(d.latitude).value, parse(d.longitude).value)
    ensures r.Some? ==> r.value == (parse(d.latitude).value, parse(d.longitude).value)
  {
    var latitude := parse(d.latitude);
    var longitude := parse(d.longitude);
    if latitude.None? || longitude.None? then None
    else if latitude.value > 90.0 || latitude.value < -90.0 || longitude.value > 180.0 || longitude.value < -180.0 then None
    else Some((latitude.value, longitude.value))
  }

  /** The country check of `handleAddManualLocation`: an empty field means
      'XX'; anything else is trimmed and upper-cased and must then be two
      characters long. */
  function ManualCountry(country: string): (r: Result<string, string>)
    ensures r.Ok? ==> |r.value| == 2
    ensures r.Err? ==> r.error == CountryMessage
    ensures country == [] ==> r == Ok(UnknownCountry)
    ensures country != [] ==> (r.Ok? <==> |JsTrim(country)| == 2)
    ensures country != [] && r.Ok? ==> r.value == Upper(JsTrim(country))
  {
    var code := Upper(JsTrim(if country != [] then country else UnknownCountry));
    DefaultCountryIsClean();
    if |code| != 2 then Err(CountryMessage) else Ok(code)
  }

  /** 'XX' is unchanged by trimming and upper-casing. */
  lemma DefaultCountryIsClean()
    ensures Upper(JsTrim(UnknownCountry)) == UnknownCountry
  {
    var xx := UnknownCountry;
    assert JsTrim(xx) == xx by {
      assert !IsJsSpace('X');
      TrimUntouched(xx, IsJsSpace);
    }
    assert Upper(xx) == xx by {
      assert Upper(xx) == [UpperChar(xx[0]), UpperChar(xx[1])];
    }
  }

  /** A country field of blanks is typed, so it is not defaulted: it trims
      to nothing and is refused. */
  lemma BlankCountryRefused(country: string)
    requires country != [] && AllSpace(country, IsJsSpace)
    ensures ManualCountry(country) == Err(CountryMessage)
  {
    TrimEmptyIffAllSpace(country, IsJsSpace);
  }

  /** The first of the candidates that is not blank after trimming. */
  function FirstFilled(first: string, second: string, fallback: string): (r: string)
    ensures JsTrim(first) != [] ==> r == JsTrim(first)
    ensures JsTrim(first) == [] && JsTrim(second) != [] ==> r == JsTrim(second)
    ensures JsTrim(first) == [] && JsTrim(second) == [] ==> r == fallback
  {
    if JsTrim(first) != [] then JsTrim(first)
    else if JsTrim(second) != [] then JsTrim(second)
    else fallback
  }

  /** `${latitude.toFixed(4)}, ${longitude.toFixed(4)}`. */
  function CoordinateLabel(latitude: real, longitude: real, fixed: (real, nat) -> string): string {
    fixed(latitude, 4) + ", " + fixed(longitude, 4)
  }

  /** `Location ${latitude.toFixed(2)}, ${longitude.toFixed(2)}`. */
  function CoordinateName(latitude: real, longitude: real, fixed: (real, nat) -> string): string {
    "Location " + fixed(latitude, 2) + ", " + fixed(longitude, 2)
  }

  /** The checks of `handleAddManualLocation`, in order: numbers, ranges,
      country; then the name fallbacks. */
  function ValidateManual(d: Draft, parse: string -> Option<real>, fixed: (real, nat) -> string): (r: Result<LocationRequest, string>)
    ensures (parse(d.latitude).None? || parse(d.longitude).None?) <==> r == Err(NumericMessage)
    ensures r.Ok? ==> && parse(d.latitude) == Some(r.value.latitude)
                      && parse(d.longitude) == Some(r.value.longitude)
                      && InRange(r.value.latitude, r.value.longitude)
                      && ManualCountry(d.country) == Ok(r.value.country)
                      && !r.value.isFavorite
    ensures r.Ok? ==> r.value.displayName == FirstFilled(d.displayName, d.name, CoordinateLabel(r.value.latitude, r.value.longitude, fixed))
    ensures r.Ok? ==> r.value.name == FirstFilled(d.name, d.displayName, CoordinateName(r.value.latitude, r.value.longitude, fixed))
  {
    var latitude := parse(d.latitude);
    var longitude := parse(d.longitude);
    if latitude.None? || longitude.None? then Err(NumericMessage)
    else if latitude.value > 90.0 || latitude.value < -90.0 || longitude.value > 180.0 || longitude.value < -180.0 then Err(RangeMessage)
    else
      var country :- ManualCountry(d.country);
      var lat := latitude.value;
      var lon := longitude.value;
      var displayName := FirstFilled(d.displayName, d.name, CoordinateLabel(lat, lon, fixed));
      var name := FirstFilled(d.name, d.displayName, CoordinateName(lat, lon, fixed));
      Ok(LocationRequest(name, country, lat, lon, displayName, false))
  }

  /** The range check comes after the numeric one, is inclusive, and
      together they pass exactly when `selectedPosition` is defined. */
  lemma ValidationAgreesWithSelectedPosition(d: Draft, parse: string -> Option<real>, fixed: (real, nat) -> string)
    ensures var r := ValidateManual(d, parse, fixed);
      SelectedPosition(d, parse).Some? <==> r != Err(NumericMessage) && r != Err(RangeMessage)
    ensures var r := ValidateManual(d, parse, fixed);
      r == Err(RangeMessage) <==>
        parse(d.latitude).Some? && parse(d.longitude).Some? && !InRange(parse(d.latitude).value, parse(d.longitude).value)
  {
  }

  /** The submitted names are never blank: a fallback always remains. */
  lemma SubmittedNamesNotBlank(d: Draft, parse: string -> Option<real>, fixed: (real, nat) -> string)
    requires ValidateManual(d, parse, fixed).Ok?
    ensures !AllSpace(ValidateManual(d, parse, fixed).value.name, IsJsSpace)
    ensures !AllSpace(ValidateManual(d, parse, fixed).value.displayName, IsJsSpace)
  {
    var r := ValidateManual(d, parse, fixed).value;
    CoordinatesNotBlank(r.latitude, r.longitude, fixed);
    FirstFilledNotBlank(d.displayName, d.name, CoordinateLabel(r.latitude, r.longitude, fixed));
    FirstFilledNotBlank(d.name, d.displayName, CoordinateName(r.latitude, r.longitude, fixed));
  }

  /** Both coordinate fallbacks hold a visible character: the comma, and the
      'L' of "Location". */
  lemma CoordinatesNotBlank(latitude: real, longitude: real, fixed: (real, nat) -> string)
    ensures !AllSpace(CoordinateLabel(latitude, longitude, fixed), IsJsSpace)
    ensures !AllSpace(CoordinateName(latitude, longitude, fixed), IsJsSpace)
  {
    var coords := CoordinateLabel(latitude, longitude, fixed);
    assert coords[|fixed(latitude, 4)|] == ',';
    var nm := CoordinateName(latitude, longitude, fixed);
    assert nm[0] == 'L';
  }

  /** Whichever text `FirstFilled` picks is not blank when the fallback is not. */
  lemma FirstFilledNotBlank(first: string, second: string, fallback: string)
    requires !AllSpace(fallback, IsJsSpace)
    ensures !AllSpace(FirstFilled(first, second, fallback), IsJsSpace)
  {
    TrimIdempotentNonEmpty(first);
    TrimIdempotentNonEmpty(second);
  }

  /** A non-empty trimmed text is not all blanks. */
  lemma TrimIdempotentNonEmpty(s: string)
    ensures JsTrim(s) != [] ==> !AllSpace(JsTrim(s), IsJsSpace)
  {
    if JsTrim(s) != [] {
      var t := JsTrim(s);
      assert !IsJsSpace(t[0]);
    }
  }

  /** `handleAddManualLocation` up to its `await`: a failed check sets the
      error and sends nothing; otherwise the request goes out with the
      submit flag raised. */
  function ManualSubmit(s: ModalState, parse: string -> Option<real>, fixed: (real, nat) -> string): (r: (ModalState, Option<LocationRequest>))
    ensures ValidateManual(s.draft, parse, fixed).Err? ==>
      r == (s.(error := Some(ValidateManual(s.draft, parse, fixed).error)), None)
    ensures ValidateManual(s.draft, parse, fixed).Ok? ==>
      && r.1 == Some(ValidateManual(s.draft, parse, fixed).value)
      && r.0 == s.(manualSubmitting := true, error := None)
  {
    match ValidateManual(s.draft, parse, fixed)
    case Err(message) => (s.(error := Some(message)), None)
    case Ok(request) => (s.(manualSubmitting := true, error := None), Some(request))
  }

  /** `resetModalState`. */
  function Reset(s: ModalState): (r: ModalState)
    ensures r.draft == EmptyDraft && r.mode == SearchMode && r.error.None? && r.info == []
    ensures !r.loading && !r.manualSubmitting && !r.locating && !r.showResults && r.searchResults == []
    ensures r.cityName == [] && r.mapCenter == DefaultCenter
  {
    Initial
  }

  /** The rest of `handleAddManualLocation`: success resets the modal and
      notifies the parent; failure only sets the error. Either way the
      submit flag drops. The second component says whether
      `onLocationAdded` was called. */
  function ManualSubmitDone(s: ModalState, outcome: AddOutcome): (r: (ModalState, bool))
    ensures !r.0.manualSubmitting
    ensures outcome.Added? ==> r == (Reset(s), true)
    ensures outcome.AddRejected? ==>
      r == (s.(error := Some(MessageOr(outcome.message, ManualAddFailed)), manualSubmitting := false), false)
  {
    match outcome
    case Added => (Reset(s).(manualSubmitting := false), true)
    case AddRejected(message) => (s.(error := Some(MessageOr(message, ManualAddFailed)), manualSubmitting := false), false)
  }

  /** A typed location round: the request carries the checked numbers and
      isFavorite false; a failure keeps the draft as it was typed. */
  lemma ManualRoundTrip(s: ModalState, parse: string -> Option<real>, fixed: (real, nat) -> string, message: string)
    ensures var (pending, request) := ManualSubmit(s, parse, fixed);
      ValidateManual(s.draft, parse, fixed).Ok? ==>
      && request.Some? && !request.value.isFavorite
      && parse(s.draft.latitude) == Some(request.value.latitude)
      && parse(s.draft.longitude) == Some(request.value.longitude)
      && ManualSubmitDone(pending, Added).0 == Initial
      && ManualSubmitDone(pending, AddRejected(message)).0.draft == s.draft
      && ManualSubmitDone(pending, AddRejected(message)).0.error.Some?
  {
  }

  /** `handleSearch` up to its `await`: a blank query changes nothing and
      sends nothing; otherwise the trimmed query is searched. */
  function SearchStart(s: ModalState): (r: (ModalState, Option<string>))
    ensures AllSpace(s.cityName, IsJsSpace) ==> r == (s, None)
    ensures !AllSpace(s.cityName, IsJsSpace) ==>
      r == (s.(loading := true, error := None), Some(JsTrim(s.cityName))) && r.1.value != []
  {
    TrimEmptyIffAllSpace(s.cityName, IsJsSpace);
    if JsTrim(s.cityName) == [] then (s, None)
    else (s.(loading := true, error := None), Some(JsTrim(s.cityName)))
  }

  /** The rest of `handleSearch`. */
  function SearchDone(s: ModalState, outcome: Result<seq<GeoResult>, string>): (r: ModalState)
    ensures !r.loading && r.draft == s.draft
    ensures outcome.Ok? ==> r.searchResults == outcome.value && r.showResults && r.error == s.error
    ensures outcome.Err? ==> r.error == Some(MessageOr(outcome.error, SearchFailedMessage)) && r.searchResults == s.searchResults
  {
    match outcome
    case Ok(results) => s.(searchResults := results, showResults := true, loading := false)
    case Err(message) => s.(error := Some(MessageOr(message, SearchFailedMessage)), loading := false)
  }

  /** `handleAddLocation` up to its `await`: the picked search result, not
      a favourite. */
  function AddResultStart(s: ModalState, result: GeoResult): (r: (ModalState, LocationRequest))
    ensures r.0 == s.(error := None)
    ensures r.1.name == result.name && r.1.country == result.country && r.1.displayName == result.displayName
    ensures r.1.latitude == result.lat && r.1.longitude == result.lon && !r.1.isFavorite
  {
    (s.(error := None), LocationRequest(result.name, result.country, result.lat, result.lon, result.displayName, false))
  }

  /** The rest of `handleAddLocation`. */
  function AddResultDone(s: ModalState, outcome: AddOutcome): (r: (ModalState, bool))
    ensures outcome.Added? ==> r == (Initial, true)
    ensures outcome.AddRejected? ==> r == (s.(error := Some(MessageOr(outcome.message, AddFailed))), false)
  {
    match outcome
    case Added => (Reset(s), true)
    case AddRejected(message) => (s.(error := Some(MessageOr(message, AddFailed))), false)
  }

  /** `handleInputChange`: clearing the query hides the shown results. */
  function InputChange(s: ModalState, value: string): (r: ModalState)
    ensures r.cityName == value && r.error.None? && r.draft == s.draft
    ensures s.showResults && JsTrim(value) == [] ==> !r.showResults && r.searchResults == []
    ensures !(s.showResults && JsTrim(value) == []) ==> r.showResults == s.showResults && r.searchResults == s.searchResults
  {
    var typed := s.(cityName := value, error := None);
    if s.showResults && JsTrim(value) == [] then typed.(showResults := false, searchResults := []) else typed
  }

  datatype Field = DisplayNameField | NameField | CountryField | LatitudeField | LongitudeField

  function FieldOf(d: Draft, field: Field): string {
    match field
    case DisplayNameField => d.displayName
    case NameField => d.name
    case CountryField => d.country
    case LatitudeField => d.latitude
    case LongitudeField => d.longitude
  }

  /** `updateManualField`: one field changes; error and info clear. */
  function UpdateManualField(s: ModalState, field: Field, value: string): (r: ModalState)
    ensures FieldOf(r.draft, field) == value
    ensures forall f :: f != field ==> FieldOf(r.draft, f) == FieldOf(s.draft, f)
    ensures r.error.None? && r.info == [] && r.cityName == s.cityName
  {
    var d := s.draft;
    var d' := match field
      case DisplayNameField => d.(displayName := value)
      case NameField => d.(name := value)
      case CountryField => d.(country := value)
      case LatitudeField => d.(latitude := value)
      case LongitudeField => d.(longitude := value);
    s.(draft := d', error := None, info := "")
  }

  /** `hydrateLocationFromCoordinates` once the reverse lookup answers:
      only empty fields are filled. */
  function Hydrate(s: ModalState, resolved: Option<GeoResult>): (r: ModalState)
    ensures resolved.None? ==> r == s.(info := NotResolvedInfo)
    ensures resolved.Some? ==> r.info == ResolvedInfo
    ensures r.draft.latitude == s.draft.latitude && r.draft.longitude == s.draft.longitude
  {
    match resolved
    case None => s.(info := NotResolvedInfo)
    case Some(found) =>
      var d := s.draft;
      s.(draft := d.(displayName := if d.displayName != [] then d.displayName else found.displayName,
                     name := if d.name != [] then d.name else found.name,
                     country := if d.country != [] then d.country else found.country),
         info := ResolvedInfo)
  }

  /** Auto-fill never overwrites what the user typed and fills every empty
      field from the lookup; nothing else in the state changes. */
  lemma HydrateFillsOnlyEmptyFields(s: ModalState, found: GeoResult)
    ensures var d := Hydrate(s, Some(found)).draft;
      && (s.draft.displayName != [] ==> d.displayName == s.draft.displayName)
      && (s.draft.displayName == [] ==> d.displayName == found.displayName)
      && (s.draft.name != [] ==> d.name == s.draft.name)
      && (s.draft.name == [] ==> d.name == found.name)
      && (s.draft.country != [] ==> d.country == s.draft.country)
      && (s.draft.country == [] ==> d.country == found.country)
    ensures Hydrate(s, Some(found)).(draft := s.draft, info := s.info) == s
  {
  }

  /** `handleMapSelect`: the coordinates as 6-decimal text, the map
      re-centred, and a reverse lookup of the point started. */
  function MapSelect(s: ModalState, latitude: real, longitude: real, fixed: (real, nat) -> string): (r: (ModalState, (real, real)))
    ensures r.0.draft.latitude == fixed(latitude, 6) && r.0.draft.longitude == fixed(longitude, 6)
    ensures r.0.mapCenter == (latitude, longitude) && r.0.error.None? && r.1 == (latitude, longitude)
    ensures r.0.draft.(latitude := s.draft.latitude, longitude := s.draft.longitude) == s.draft
  {
    (s.(draft := s.draft.(latitude := fixed(latitude, 6), longitude := fixed(longitude, 6)),
        mapCenter := (latitude, longitude), error := None),
     (latitude, longitude))
  }

  /** The text map selection writes survives the lookup whatever it
      answers. */
  lemma MapSelectionSurvivesLookup(s: ModalState, latitude: real, longitude: real, fixed: (real, nat) -> string,
                                   resolved: Option<GeoResult>)
    ensures var after := Hydrate(MapSelect(s, latitude, longitude, fixed).0, resolved);
      after.draft.latitude == fixed(latitude, 6) && after.draft.longitude == fixed(longitude, 6)
  {
  }

  /** `useCurrentLocation` before the browser answers. */
  function LocateStart(s: ModalState, geolocationAvailable: bool): (r: ModalState)
    ensures !geolocationAvailable ==> r == s.(error := Some(NoGeolocation))
    ensures geolocationAvailable ==> r == s.(locating := true, error := None)
  {
    if !geolocationAvailable then s.(error := Some(NoGeolocation)) else s.(locating := true, error := None)
  }

  /** What the browser answers a position request with. */
  datatype GeoAnswer = Position(latitude: real, longitude: real) | PositionError(code: int)

  /** The whole locate cycle. Without geolocation nothing is requested, the
      draft and the locating flag stay as they were. Otherwise, whichever
      way the browser answers, locating ends, and the draft's names and
      country are kept: only a position writes the coordinates. */
  lemma LocateCycle(s: ModalState, geolocationAvailable: bool, answer: GeoAnswer, fixed: (real, nat) -> string)
    ensures !geolocationAvailable ==>
      var r := LocateStart(s, geolocationAvailable);
      r.draft == s.draft && r.locating == s.locating && r.error == Some(NoGeolocation)
    ensures geolocationAvailable ==>
      var started := LocateStart(s, geolocationAvailable);
      var r := match answer
               case Position(lat, lon) => Located(started, lat, lon, fixed).0
               case PositionError(code) => LocateFailed(started, code);
      && !r.locating
      && r.draft.(latitude := s.draft.latitude, longitude := s.draft.longitude) == s.draft
      && (answer.PositionError? ==> r.draft == s.draft && r.error.Some?)
      && (answer.Position? ==>
           && r.draft.latitude == fixed(answer.latitude, 6)
           && r.draft.longitude == fixed(answer.longitude, 6)
           && r.error.None?)
  {
  }

  /** The position callback: a map selection at the device's position. */
  function Located(s: ModalState, latitude: real, longitude: real, fixed: (real, nat) -> string): (r: (ModalState, (real, real)))
    ensures !r.0.locating
    ensures r.0.draft.latitude == fixed(latitude, 6) && r.0.draft.longitude == fixed(longitude, 6)
  {
    var (selected, lookup) := MapSelect(s, latitude, longitude, fixed);
    (selected.(locating := false), lookup)
  }

  /** The error callback: code 1 is PERMISSION_DENIED. */
  function LocateFailed(s: ModalState, code: int): (r: ModalState)
    ensures !r.locating && r.draft == s.draft
    ensures r.error == Some(if code == 1 then PermissionDenied else PositionUnavailable)
  {
    s.(error := Some(if code == 1 then PermissionDenied else PositionUnavailable), locating := false)
  }
}

=== FILE: dashboard_overview.dfy ===
/** The frontend's `DashboardOverview`: the counts, staleness, latest sync,
    coverage, health, recent-activity feed and metric statuses derived from
    the tracked locations. Time is an integer number of milliseconds since
    the epoch; `now` is `Date.now()`, `parse` is `new Date(s).getTime()`
    (`None` for an invalid date), `relative` is date-fns
    `formatDistanceToNow` and `toLocale` is `toLocaleString`. */
module DashboardOverview {
  import opened Wrappers
  import opened Text
  import opened Seqs
  import opened WeatherClient

  const ThreeHoursMs: int := 3 * 60 * 60 * 1000

  /** `location.lastUpdated` is truthy: present and not the empty string. */
  predicate HasTimestamp(l: LocationWeather) {
    l.lastUpdated.Some? && l.lastUpdated.value != ""
  }

  /** `hasWeatherSnapshot`: a temperature is present, whatever its value. */
  predicate HasSnapshot(l: LocationWeather) {
    l.temperature.Some?
  }

  /** The time of the last update, when there is one and it parses. */
  function TimeOf(l: LocationWeather, parse: string -> Option<int>): Option<int> {
    if HasTimestamp(l) then parse(l.lastUpdated.value) else None
  }

  /** The stale filter: no timestamp, an unparsable one (a `NaN` age), or an
      age strictly over three hours. */
  predicate IsStale(l: LocationWeather, now: int, parse: string -> Option<int>) {
    TimeOf(l, parse).None? || now - TimeOf(l, parse).value > ThreeHoursMs
  }

  function StaleAt(now: int, parse: string -> Option<int>): LocationWeather -> bool {
    l => IsStale(l, now, parse)
  }

  /** A location with a parsable timestamp at most three hours old. */
  predicate IsFresh(l: LocationWeather, now: int, parse: string -> Option<int>) {
    TimeOf(l, parse).Some? && now - TimeOf(l, parse).value <= ThreeHoursMs
  }

  function FreshAt(now: int, parse: string -> Option<int>): LocationWeather -> bool {
    l => IsFresh(l, now, parse)
  }

  /** `Array.isArray(locations) ? locations : []`. */
  function SafeLocations(locations: Option<seq<LocationWeather>>): seq<LocationWeather> {
    locations.GetOr([])
  }

  datatype Counts = Counts(total: nat, favourites: nat, synced: nat, stale: nat)

  function Count(locations: seq<LocationWeather>, now: int, parse: string -> Option<int>): (r: Counts)
    ensures r.favourites <= r.total && r.synced <= r.total && r.stale <= r.total
    ensures r.total == |locations|
  {
    Counts(|locations|,
           |Filter(locations, IsFavourite)|,
           |Filter(locations, HasSnapshot)|,
           |Filter(locations, StaleAt(now, parse))|)
  }

  /** Every count is additive over a split of the list, so each counts its
      locations one by one. */
  lemma CountsAreAdditive(a: seq<LocationWeather>, b: seq<LocationWeather>, now: int, parse: string -> Option<int>)
    ensures var (ca, cb, c) := (Count(a, now, parse), Count(b, now, parse), Count(a + b, now, parse));
      && c.favourites == ca.favourites + cb.favourites
      && c.synced == ca.synced + cb.synced
      && c.stale == ca.stale + cb.stale
  {
    FilterAppend(a, b, IsFavourite);
    FilterAppend(a, b, HasSnapshot);
    FilterAppend(a, b, StaleAt(now, parse));
  }

  /** The counts of a single location: a temperature of zero still counts as
      synced, and staleness is decided at exactly three hours. */
  lemma SingleLocationCounts(l: LocationWeather, now: int, parse: string -> Option<int>)
    ensures Count([l], now, parse).synced == (if l.temperature.Some? then 1 else 0)
    ensures Count([l], now, parse).favourites == (if l.isFavorite == Some(true) then 1 else 0)
    ensures Count([l], now, parse).stale == (if IsFresh(l, now, parse) then 0 else 1)
  {
    assert [l][1..] == [];
  }

  /** An update exactly three hours old is fresh; a millisecond older is stale. */
  lemma StalenessBoundary(l: LocationWeather, t: int, parse: string -> Option<int>)
    requires HasTimestamp(l) && parse(l.lastUpdated.value) == Some(t)
    ensures !IsStale(l, t + 10800000, parse)
    ensures IsStale(l, t + 10800001, parse)
  {
  }

  /** The stale locations and the fresh ones split the list. */
  lemma StaleAndFreshPartition(locations: seq<LocationWeather>, now: int, parse: string -> Option<int>)
    ensures Count(locations, now, parse).stale + |Filter(locations, FreshAt(now, parse))| == |locations|
  {
    FilterSplits(locations, FreshAt(now, parse), StaleAt(now, parse));
  }

  /** The timestamps the `map(...).filter(Boolean)` chain keeps, in order. */
  function Timestamps(locations: seq<LocationWeather>): (r: seq<string>)
    ensures |r| <= |locations|
    ensures forall i :: 0 <= i < |r| ==> r[i] != ""
    ensures forall l :: l in locations && HasTimestamp(l) ==> l.lastUpdated.value in r
    ensures forall s :: s in r ==> exists l :: l in locations && HasTimestamp(l) && l.lastUpdated == Some(s)
  {
    if locations == [] then []
    else
      var rest := Timestamps(locations[1..]);
      assert forall l :: l in locations[1..] ==> l in locations;
      if HasTimestamp(locations[0]) then [locations[0].lastUpdated.value] + rest else rest
  }

  /** `new Date(current) > new Date(latest)`: false when either is invalid. */
  predicate Later(current: string, latest: string, parse: string -> Option<int>) {
    parse(current).Some? && parse(latest).Some? && parse(current).value > parse(latest).value
  }

  /** The index of the element `reduce` settles on: the first timestamp
      starts the run, and a later one replaces it only when strictly
      later. */
  function LatestIndex(ts: seq<string>, parse: string -> Option<int>): (r: Option<nat>)
    ensures r.None? <==> ts == []
    ensures r.Some? ==> r.value < |ts|
  {
    if ts == [] then None
    else
      var k := LatestIndex(ts[..|ts| - 1], parse);
      if k.None? then Some(0)
      else if Later(ts[|ts| - 1], ts[k.value], parse) then Some(|ts| - 1)
      else k
  }

  predicate AllParse(ts: seq<string>, parse: string -> Option<int>) {
    forall i :: 0 <= i < |ts| ==> parse(ts[i]).Some?
  }

  /** With every timestamp valid, the run settles on a maximum, and on the
      earliest of equal maxima. */
  lemma {:induction false} LatestIsEarliestMaximum(ts: seq<string>, parse: string -> Option<int>)
    requires AllParse(ts, parse) && ts != []
    ensures var k := LatestIndex(ts, parse).value;
      && (forall j :: 0 <= j < |ts| ==> parse(ts[j]).value <= parse(ts[k]).value)
      && (forall j :: 0 <= j < k ==> parse(ts[j]).value < parse(ts[k]).value)
  {
    var prefix := ts[..|ts| - 1];
    if prefix != [] {
      assert AllParse(prefix, parse) by {
        assert forall i :: 0 <= i < |prefix| ==> prefix[i] == ts[i];
      }
      LatestIsEarliestMaximum(prefix, parse);
      assert forall i :: 0 <= i < |prefix| ==> prefix[i] == ts[i];
    }
  }

  /** An invalid first timestamp is never replaced: every later comparison
      against it is false. */
  lemma {:induction false} InvalidFirstTimestampSticks(ts: seq<string>, parse: string -> Option<int>)
    requires ts != [] && parse(ts[0]).None?
    ensures LatestIndex(ts, parse) == Some(0)
  {
    var prefix := ts[..|ts| - 1];
    if prefix != [] {
      assert prefix[0] == ts[0];
      InvalidFirstTimestampSticks(prefix, parse);
    }
  }

  /** `latestLocationSync`. */
  function LatestLocationSync(locations: seq<LocationWeather>, parse: string -> Option<int>): Option<string> {
    var ts := Timestamps(locations);
    match LatestIndex(ts, parse)
    case None => None
    case Some(k) => Some(ts[k])
  }

  /** `lastSyncAt || latestLocationSync`. */
  function EffectiveLastSync(lastSyncAt: Option<string>, locations: seq<LocationWeather>, parse: string -> Option<int>): (r: Option<string>)
    ensures r.None? <==> (lastSyncAt.None? || lastSyncAt.value == "") && (forall l :: l in locations ==> !HasTimestamp(l))
    ensures r.Some? ==> r.value != ""
    ensures r.Some? && r != lastSyncAt ==> exists l :: l in locations && l.lastUpdated == r
  {
    if lastSyncAt.Some? && lastSyncAt.value != "" then lastSyncAt
    else LatestLocationSync(locations, parse)
  }

  /** The "Last sync" line. */
  function LastSyncLabel(effective: Option<string>, toLocale: string -> string): string {
    match effective
    case Some(s) => toLocale(s)
    case None => "Never"
  }

  /** The "Sync Coverage" percentage: `'0%'` for no locations, else the
      rounded percentage of synced ones. */
  function Coverage(synced: nat, total: nat): (r: string)
    ensures total == 0 ==> r == "0%"
    ensures total > 0 ==> r == IntToString(CoveragePercent(synced, total)) + "%"
  {
    if total == 0 then "0%" else IntToString(CoveragePercent(synced, total)) + "%"
  }

  function CoveragePercent(synced: nat, total: nat): int
    requires total > 0
  {
    Round(synced as real / total as real * 100.0)
  }

  /** The percentage lies between 0 and 100, and hits the ends on a fully
      synced and an unsynced list. */
  lemma CoverageBounds(synced: nat, total: nat)
    requires total > 0 && synced <= total
    ensures 0 <= CoveragePercent(synced, total) <= 100
    ensures synced == total ==> CoveragePercent(synced, total) == 100
    ensures synced == 0 ==> CoveragePercent(synced, total) == 0
  {
    var x := synced as real / total as real * 100.0;
    assert 0.0 <= synced as real / total as real <= 1.0;
    assert 0.0 <= x <= 100.0;
    if synced == total {
      var t := total as real;
      assert t / t == 1.0 by {
        assert (t / t) * t == t;
        assert (t / t - 1.0) * t == 0.0;
      }
      assert x + 0.5 == 100.5;
    }
  }

  /** `systemHealth`. */
  function Health(hasError: bool): (r: string)
    ensures r == "DEGRADED" || r == "UP"
    ensures r == "DEGRADED" <==> hasError
  {
    if hasError then "DEGRADED" else "UP"
  }

  datatype Status = Good | Warning

  datatype Metric = Metric(name: string, value: string, status: Status, threshold: string)

  /** `systemMetrics`. */
  function Metrics(c: Counts, sessionRefreshCount: int): (r: seq<Metric>)
    ensures |r| == 4
    ensures r[0].status == Good <==> c.synced == c.total
    ensures r[1].status == Good
    ensures r[2].status == Good <==> c.stale == 0
    ensures r[3].status == Good <==> c.synced == c.total
    ensures r[3].value == Coverage(c.synced, c.total)
  {
    [ Metric("Sync Coverage", NatToString(c.synced) + "/" + NatToString(c.total),
             if c.synced == c.total then Good else Warning, "100%"),
      Metric("Session Refreshes", IntToString(sessionRefreshCount), Good, "Live"),
      Metric("Stale Data", NatToString(c.stale), if c.stale == 0 then Good else Warning, "0"),
      Metric("Coverage Percent", Coverage(c.synced, c.total),
             if c.synced == c.total then Good else Warning, "100%") ]
  }

  /** With no locations every metric is good: the coverage checks compare
      0 with 0 and nothing is stale. */
  lemma EmptyListMetricsGood(now: int, parse: string -> Option<int>, sessionRefreshCount: int)
    ensures var m := Metrics(Count([], now, parse), sessionRefreshCount);
      forall i :: 0 <= i < |m| ==> m[i].status == Good
  {
  }

  /** `new Date(b) - new Date(a)` is positive: `b` sorts before `a`.
      An invalid date makes the difference `NaN`, which orders nothing. */
  predicate MoreRecent(b: LocationWeather, a: LocationWeather, parse: string -> Option<int>) {
    TimeOf(a, parse).Some? && TimeOf(b, parse).Some? && TimeOf(b, parse).value > TimeOf(a, parse).value
  }

  /** Insert `x` before the first element not more recent than it. */
  function Insert(x: LocationWeather, ys: seq<LocationWeather>, parse: string -> Option<int>): (r: seq<LocationWeather>)
    ensures |r| == |ys| + 1
    ensures multiset(r) == multiset(ys) + multiset{x}
    ensures forall e :: e in r <==> e == x || e in ys
    ensures ys != [] ==> r[0] == x || r[0] == ys[0]
  {
    if ys == [] || !MoreRecent(ys[0], x, parse) then [x] + ys
    else
      assert ys == [ys[0]] + ys[1..];
      [ys[0]] + Insert(x, ys[1..], parse)
  }

  /** The `sort` call: a stable sort, most recent first. */
  function SortByRecency(s: seq<LocationWeather>, parse: string -> Option<int>): (r: seq<LocationWeather>)
    ensures multiset(r) == multiset(s)
    ensures |r| == |s|
  {
    if s == [] then []
    else
      assert s == [s[0]] + s[1..];
      Insert(s[0], SortByRecency(s[1..], parse), parse)
  }

  predicate AllTimed(s: seq<LocationWeather>, parse: string -> Option<int>) {
    forall i :: 0 <= i < |s| ==> TimeOf(s[i], parse).Some?
  }

  /** Most recent first. */
  predicate NewestFirst(s: seq<LocationWeather>, parse: string -> Option<int>)
    requires AllTimed(s, parse)
  {
    forall i, j :: 0 <= i < j < |s| ==> TimeOf(s[i], parse).value >= TimeOf(s[j], parse).value
  }

  lemma {:induction false} InsertKeepsNewestFirst(x: LocationWeather, ys: seq<LocationWeather>, parse: string -> Option<int>)
    requires TimeOf(x, parse).Some? && AllTimed(ys, parse) && NewestFirst(ys, parse)
    ensures AllTimed(Insert(x, ys, parse), parse) && NewestFirst(Insert(x, ys, parse), parse)
  {
    var r := Insert(x, ys, parse);
    assert AllTimed(r, parse) by {
      forall i | 0 <= i < |r| ensures TimeOf(r[i], parse).Some? {
        assert r[i] in r;
      }
    }
    if ys != [] && MoreRecent(ys[0], x, parse) {
      var tail := ys[1..];
      assert AllTimed(tail, parse) && NewestFirst(tail, parse);
      InsertKeepsNewestFirst(x, tail, parse);
      HeadAboveInsert(x, ys, parse);
    } else if ys != [] {
      assert r == [x] + ys;
    }
  }

  /** When `x` goes past the head of `ys`, that head stays above everything. */
  lemma HeadAboveInsert(x: LocationWeather, ys: seq<LocationWeather>, parse: string -> Option<int>)
    requires TimeOf(x, parse).Some? && AllTimed(ys, parse) && NewestFirst(ys, parse)
    requires ys != [] && MoreRecent(ys[0], x, parse)
    requires AllTimed(Insert(x, ys[1..], parse), parse) && NewestFirst(Insert(x, ys[1..], parse), parse)
    ensures AllTimed(Insert(x, ys, parse), parse) && NewestFirst(Insert(x, ys, parse), parse)
  {
    var rest := Insert(x, ys[1..], parse);
    var r := Insert(x, ys, parse);
    assert r == [ys[0]] + rest;
    forall j | 0 < j < |r| ensures TimeOf(r[0], parse).value >= TimeOf(r[j], parse).value {
      assert r[j] == rest[j - 1];
      assert rest[j - 1] in rest;
    }
  }

  /** With every timestamp valid the feed is newest first. */
  lemma {:induction false} SortIsNewestFirst(s: seq<LocationWeather>, parse: string -> Option<int>)
    requires AllTimed(s, parse)
    ensures AllTimed(SortByRecency(s, parse), parse) && NewestFirst(SortByRecency(s, parse), parse)
  {
    if s != [] {
      assert AllTimed(s[1..], parse) by {
        assert forall i :: 0 <= i < |s[1..]| ==> s[1..][i] == s[i + 1];
      }
      SortIsNewestFirst(s[1..], parse);
      InsertKeepsNewestFirst(s[0], SortByRecency(s[1..], parse), parse);
    }
  }

  function Min(a: nat, b: nat): nat {
    if a <= b then a else b
  }

  /** The locations behind `recentActivity`: those with a timestamp, most
      recent first, at most five. */
  function RecentLocations(locations: seq<LocationWeather>, parse: string -> Option<int>): (r: seq<LocationWeather>)
    ensures |r| == Min(5, |Filter(locations, HasTimestamp)|)
    ensures forall l :: l in r ==> l in locations && HasTimestamp(l)
  {
    var sorted := SortByRecency(Filter(locations, HasTimestamp), parse);
    var r := sorted[..Min(5, |sorted|)];
    assert forall l :: l in r ==> l in sorted;
    assert forall l :: l in sorted ==> l in multiset(sorted);
    r
  }

  /** With every timestamp valid, no location left out of the feed is more
      recent than any location in it. */
  lemma RecentAreMostRecent(locations: seq<LocationWeather>, parse: string -> Option<int>)
    requires forall l :: l in locations && HasTimestamp(l) ==> TimeOf(l, parse).Some?
    ensures var recent := RecentLocations(locations, parse);
      forall i, l :: 0 <= i < |recent| && l in locations && HasTimestamp(l) && l !in recent ==>
        TimeOf(l, parse).value <= TimeOf(recent[i], parse).value
  {
    var kept := Filter(locations, HasTimestamp);
    var sorted := SortByRecency(kept, parse);
    var recent := RecentLocations(locations, parse);
    assert AllTimed(kept, parse) by {
      assert forall i :: 0 <= i < |kept| ==> kept[i] in kept;
    }
    SortIsNewestFirst(kept, parse);
    assert recent == sorted[..Min(5, |sorted|)];
    forall i, l | 0 <= i < |recent| && l in locations && HasTimestamp(l) && l !in recent
      ensures TimeOf(l, parse).value <= TimeOf(recent[i], parse).value
    {
      assert l in kept;
      assert l in multiset(sorted);
      var j :| 0 <= j < |sorted| && sorted[j] == l;
      assert j >= |recent|;
      assert recent[i] == sorted[i];
    }
  }

  datatype Activity = Activity(message: string, time: string)

  /** One feed line: the display name when truthy, else the location name. */
  function ActivityFor(l: LocationWeather, relative: string -> string): (r: Activity)
    requires HasTimestamp(l)
  {
    var name := if l.displayName.Some? && l.displayName.value != "" then l.displayName.value else l.locationName;
    Activity("Weather synced for \"" + name + "\"", relative(l.lastUpdated.value))
  }

  /** `recentActivity`. `relative` is `formatDistanceToNow` on a valid
      date; when a feed time does not parse, `Render` answers `Crash`
      instead of showing these lines. */
  function RecentActivity(locations: seq<LocationWeather>, parse: string -> Option<int>, relative: string -> string): (r: seq<Activity>)
    ensures |r| == Min(5, |Filter(locations, HasTimestamp)|)
    ensures forall i :: 0 <= i < |r| ==> r[i] == ActivityFor(RecentLocations(locations, parse)[i], relative)
  {
    var recent := RecentLocations(locations, parse);
    seq(|recent|, i requires 0 <= i < |recent| => ActivityFor(recent[i], relative))
  }

  /** A blank display name falls back to the location's own name. */
  lemma ActivityNamesLocation(l: LocationWeather, relative: string -> string)
    requires HasTimestamp(l)
    ensures l.displayName.None? || l.displayName == Some("") ==>
      ActivityFor(l, relative).message == "Weather synced for \"" + l.locationName + "\""
    ensures l.displayName.Some? && l.displayName.value != "" ==>
      ActivityFor(l, relative).message == "Weather synced for \"" + l.displayName.value + "\""
  {
  }

  /** The component's props. `locations` is `None` when it is not an array. */
  datatype Props = Props(
    locations: Option<seq<LocationWeather>>,
    loading: bool,
    refreshing: bool,
    hasRefreshAll: bool,
    lastSyncAt: Option<string>,
    sessionRefreshCount: int,
    hasError: bool)

  datatype Overview = Overview(
    counts: Counts,
    lastSync: string,
    health: string,
    recent: seq<Activity>,
    coverage: string,
    metrics: seq<Metric>,
    refreshDisabled: bool,
    refreshSpinning: bool)

  /** `Crash` is the RangeError date-fns' `formatDistanceToNow` throws while
      the feed is built, for a feed timestamp that is not a valid date. */
  datatype Screen = Spinner | Dashboard(overview: Overview) | Crash

  /** What the component renders. */
  function Render(p: Props, now: int, parse: string -> Option<int>, relative: string -> string, toLocale: string -> string): (r: Screen)
    ensures r.Spinner? <==> p.loading && SafeLocations(p.locations) == []
    ensures r.Crash? <==> !AllTimed(RecentLocations(SafeLocations(p.locations), parse), parse)
    ensures r.Dashboard? ==> r.overview.counts == Count(SafeLocations(p.locations), now, parse)
    ensures r.Dashboard? ==> (r.overview.refreshDisabled <==> p.refreshing || !p.hasRefreshAll)
  {
    var locations := SafeLocations(p.locations);
    var c := Count(locations, now, parse);
    if p.loading && c.total == 0 then Spinner
    else if !AllTimed(RecentLocations(locations, parse), parse) then Crash
    else
      Dashboard(Overview(
        c,
        LastSyncLabel(EffectiveLastSync(p.lastSyncAt, locations, parse), toLocale),
        Health(p.hasError),
        RecentActivity(locations, parse, relative),
        Coverage(c.synced, c.total),
        Metrics(c, p.sessionRefreshCount),
        p.refreshing || !p.hasRefreshAll,
        p.refreshing))
  }

  /** Timestamps that all parse never crash the render. */
  lemma ValidTimesNeverCrash(p: Props, now: int, parse: string -> Option<int>, relative: string -> string,
                             toLocale: string -> string)
    ensures (forall l :: l in SafeLocations(p.locations) && HasTimestamp(l) ==> TimeOf(l, parse).Some?) ==>
      !Render(p, now, parse, relative, toLocale).Crash?
  {
    var locations := SafeLocations(p.locations);
    if forall l :: l in locations && HasTimestamp(l) ==> TimeOf(l, parse).Some? {
      FeedTimedWhenAllParse(locations, parse);
    }
  }

  lemma FeedTimedWhenAllParse(locations: seq<LocationWeather>, parse: string -> Option<int>)
    requires forall l :: l in locations && HasTimestamp(l) ==> TimeOf(l, parse).Some?
    ensures AllTimed(RecentLocations(locations, parse), parse)
  {
    var recent := RecentLocations(locations, parse);
    forall i | 0 <= i < |recent| ensures TimeOf(recent[i], parse).Some? {
      assert recent[i] in recent;
    }
  }

  /** A lone location whose timestamp does not parse heads the feed, so
      the render crashes. */
  lemma LoneBadTimeCrashes(p: Props, now: int, parse: string -> Option<int>, relative: string -> string,
                           toLocale: string -> string)
    ensures p.locations.Some? && |p.locations.value| == 1 && HasTimestamp(p.locations.value[0])
            && TimeOf(p.locations.value[0], parse).None? ==>
      Render(p, now, parse, relative, toLocale) == Crash
  {
    if p.locations.Some? && |p.locations.value| == 1 && HasTimestamp(p.locations.value[0])
       && TimeOf(p.locations.value[0], parse).None? {
      LoneFeedUntimed(p.locations.value, parse);
    }
  }

  lemma LoneFeedUntimed(locations: seq<LocationWeather>, parse: string -> Option<int>)
    requires |locations| == 1 && HasTimestamp(locations[0]) && TimeOf(locations[0], parse).None?
    ensures !AllTimed(RecentLocations(locations, parse), parse)
  {
    var recent := RecentLocations(locations, parse);
    assert Filter(locations, HasTimestamp) == locations;
    assert recent[0] in locations;
  }

  /** A non-array `locations` renders exactly like an empty list. */
  lemma NonArrayIsEmpty(p: Props, now: int, parse: string -> Option<int>, relative: string -> string, toLocale: string -> string)
    requires p.locations.None?
    ensures Render(p, now, parse, relative, toLocale) == Render(p.(locations := Some([])), now, parse, relative, toLocale)
  {
  }

  /** "Never" shows exactly when there is no truthy `lastSyncAt` and no
      location carries a timestamp. */
  lemma NeverSynced(p: Props, now: int, parse: string -> Option<int>, relative: string -> string, toLocale: string -> string)
    ensures var v := Render(p, now, parse, relative, toLocale);
      v.Dashboard? && (forall s :: toLocale(s) != "Never") ==>
        (v.overview.lastSync == "Never" <==>
          (p.lastSyncAt.None? || p.lastSyncAt.value == "")
          && (forall l :: l in SafeLocations(p.locations) ==> !HasTimestamp(l)))
  {
  }

  /** `handleRefresh`: the number of `onRefreshAll` calls a click makes.
      A disabled button takes no clicks. */
  function RefreshCalls(p: Props): (r: nat)
    ensures r <= 1
    ensures r == 1 <==> p.hasRefreshAll && !p.refreshing
  {
    if p.refreshing || !p.hasRefreshAll then 0 else 1
  }
}

=== FILE: exception_handler.dfy ===
/** `GlobalExceptionHandler`: how each exception the services throw becomes
    an HTTP status and a response body. */
module ExceptionHandler {

  /** One `FieldError` of a failed bean validation. */
  datatype FieldError = FieldError(field: string, defaultMessage: string)

  /** The exception kinds the handler distinguishes. */
  datatype AppException =
    | LocationNotFound(message: string)
    | DuplicateLocation(message: string)
    | WeatherApi(message: string)
    | ValidationFailed(errors: seq<FieldError>)
    | NoResourceFound(resourcePath: string)
    | IllegalArgument(message: string)
    | Unexpected(message: string)

  /** `ErrorResponse(status, message, timestamp)` without the timestamp, or
      the field-to-message map returned for validation failures. */
  datatype Response =
    | ErrorBody(status: int, message: string)
    | FieldErrors(status: int, errors: map<string, string>)

  const NotFound := 404
  const BadRequest := 400
  const Conflict := 409
  const InternalServerError := 500
  const ServiceUnavailable := 503

  const UnavailableMessage := "Weather service temporarily unavailable"
  const ResourceNotFoundMessage := "Resource not found"
  const UnexpectedMessage := "An unexpected error occurred"

  /** `errors.put(field, message)` for each error in order. */
  function CollectFieldErrors(errors: seq<FieldError>): map<string, string>
  {
    if errors == [] then map[]
    else CollectFieldErrors(errors[..|errors| - 1])[errors[|errors| - 1].field := errors[|errors| - 1].defaultMessage]
  }

  /** The field names that appear in `errors`. */
  function Fields(errors: seq<FieldError>): set<string> {
    set e | e in errors :: e.field
  }

  /** The collected map has one entry per reported field, and a later error
      on the same field overwrites an earlier one. */
  lemma {:induction false} CollectFieldErrorsLastWins(errors: seq<FieldError>)
    ensures CollectFieldErrors(errors).Keys == Fields(errors)
    ensures forall i :: 0 <= i < |errors| && LastOnField(errors, i) ==>
      CollectFieldErrors(errors)[errors[i].field] == errors[i].defaultMessage
  {
    if errors != [] {
      var last := errors[|errors| - 1];
      var earlier := errors[..|errors| - 1];
      CollectFieldErrorsLastWins(earlier);
      assert errors == earlier + [last];
      assert Fields(errors) == Fields(earlier) + {last.field};
      assert forall i :: 0 <= i < |errors| - 1 && LastOnField(errors, i) ==>
        errors[i] == earlier[i] && LastOnField(earlier, i) && errors[i].field != last.field;
    }
  }

  /** No error after index `i` names the same field as `errors[i]`. */
  predicate LastOnField(errors: seq<FieldError>, i: int)
    requires 0 <= i < |errors|
  {
    forall j :: i < j < |errors| ==> errors[j].field != errors[i].field
  }

  /** The handler selected for each exception kind. */
  function Handle(e: AppException): (r: Response)
    ensures r.FieldErrors? <==> e.ValidationFailed?
    ensures e.ValidationFailed? ==> r.errors.Keys == Fields(e.errors)
  {
    match e
    case LocationNotFound(msg) => ErrorBody(NotFound, msg)
    case DuplicateLocation(msg) => ErrorBody(Conflict, msg)
    case WeatherApi(_) => ErrorBody(ServiceUnavailable, UnavailableMessage)
    case ValidationFailed(errors) =>
      CollectFieldErrorsLastWins(errors);
      FieldErrors(BadRequest, CollectFieldErrors(errors))
    case NoResourceFound(_) => ErrorBody(NotFound, ResourceNotFoundMessage)
    case IllegalArgument(msg) => ErrorBody(BadRequest, msg)
    case Unexpected(_) => ErrorBody(InternalServerError, UnexpectedMessage)
  }

  /** Which kinds produce which status: 404 for a missing location or
      resource, 409 for a duplicate, 503 for the weather provider, 400 for
      bad input, and 500 for everything else. */
  lemma StatusClassification(e: AppException)
    ensures Handle(e).status == NotFound <==> e.LocationNotFound? || e.NoResourceFound?
    ensures Handle(e).status == Conflict <==> e.DuplicateLocation?
    ensures Handle(e).status == ServiceUnavailable <==> e.WeatherApi?
    ensures Handle(e).status == BadRequest <==> e.ValidationFailed? || e.IllegalArgument?
    ensures Handle(e).status == InternalServerError <==> e.Unexpected?
  {
  }

  /** The four client-facing kinds pass their own message through. */
  lemma OwnMessagePassedThrough(e: AppException)
    requires e.LocationNotFound? || e.DuplicateLocation? || e.IllegalArgument?
    ensures Handle(e) == ErrorBody(Handle(e).status, e.message)
  {
  }

  /** The provider's error text never reaches the client: every weather-API
      failure, and every unexpected failure, yields one fixed body. */
  lemma InternalTextHidden(m1: string, m2: string)
    ensures Handle(WeatherApi(m1)) == Handle(WeatherApi(m2)) == ErrorBody(503, "Weather service temporarily unavailable")
    ensures Handle(Unexpected(m1)) == Handle(Unexpected(m2)) == ErrorBody(500, "An unexpected error occurred")
  {
  }

  /** Reporting the same field error twice in a row changes nothing. */
  lemma {:induction false} RepeatedFieldErrorAbsorbed(errors: seq<FieldError>, e: FieldError)
    ensures CollectFieldErrors(errors + [e, e]) == CollectFieldErrors(errors + [e])
  {
    assert (errors + [e, e])[..|errors| + 1] == errors + [e];
    assert (errors + [e])[..|errors|] == errors;
  }
}

=== FILE: forecast_modal.dfy ===
/** The frontend's `ForecastModal`: the forecast entries grouped by calendar
    day, the fetch's effect on the view, and the precipitation line. The
    entry type is a parameter; `dateKey` is date-fns `format(…,
    'yyyy-MM-dd')` of an entry's time and `validTime` says whether that
    time is a valid date (`format` throws otherwise). */
module ForecastModal {
  import opened Wrappers
  import opened Text
  import opened Seqs

  const FetchFailedMessage := "Failed to fetch forecast data"

  /** One key of the `grouped` object with the entries pushed under it. */
  datatype Group<T> = Group(date: string, items: seq<T>)

  function Dates<T>(groups: seq<Group<T>>): (r: seq<string>)
    ensures |r| == |groups|
    ensures forall i :: 0 <= i < |groups| ==> r[i] == groups[i].date
  {
    if groups == [] then [] else [groups[0].date] + Dates(groups[1..])
  }

  function TotalSize<T>(groups: seq<Group<T>>): nat {
    if groups == [] then 0 else |groups[0].items| + TotalSize(groups[1..])
  }

  /** Each distinct key once, in order of first occurrence: the order of
      `Object.entries` for keys that are not array indices. */
  function FirstOccurrences(keys: seq<string>): (r: seq<string>)
    ensures forall k :: k in r <==> k in keys
  {
    if keys == [] then []
    else
      var earlier := FirstOccurrences(keys[..|keys| - 1]);
      var k := keys[|keys| - 1];
      assert keys == keys[..|keys| - 1] + [k];
      if k in earlier then earlier else earlier + [k]
  }

  function MapKeys<T>(items: seq<T>, dateKey: T -> string): (r: seq<string>)
    ensures |r| == |items|
    ensures forall i :: 0 <= i < |items| ==> r[i] == dateKey(items[i])
  {
    if items == [] then [] else MapKeys(items[..|items| - 1], dateKey) + [dateKey(items[|items| - 1])]
  }

  /** `acc[date] ??= []; acc[date].push(item)`. */
  function AddToGroups<T>(groups: seq<Group<T>>, item: T, date: string): seq<Group<T>> {
    if groups == [] then [Group(date, [item])]
    else if groups[0].date == date then [groups[0].(items := groups[0].items + [item])] + groups[1..]
    else [groups[0]] + AddToGroups(groups[1..], item, date)
  }

  /** The `reduce` of `fetchForecast`. */
  function GroupByDate<T>(items: seq<T>, dateKey: T -> string): seq<Group<T>> {
    if items == [] then []
    else AddToGroups(GroupByDate(items[..|items| - 1], dateKey), items[|items| - 1], dateKey(items[|items| - 1]))
  }

  /** The entries of `items` falling on `date`. */
  function OnDate<T>(dateKey: T -> string, date: string): T -> bool {
    x => dateKey(x) == date
  }

  predicate DistinctDates<T>(groups: seq<Group<T>>) {
    forall i, j :: 0 <= i < j < |groups| ==> groups[i].date != groups[j].date
  }

  /** Adding an entry keeps the dates, or appends its date when new. */
  lemma {:induction false} AddToGroupsDates<T>(groups: seq<Group<T>>, item: T, date: string)
    ensures Dates(AddToGroups(groups, item, date)) == (if date in Dates(groups) then Dates(groups) else Dates(groups) + [date])
  {
    if groups != [] && groups[0].date != date {
      AddToGroupsDates(groups[1..], item, date);
      assert Dates(groups) == [groups[0].date] + Dates(groups[1..]);
    }
  }

  /** Adding an entry grows the total size by one. */
  lemma {:induction false} AddToGroupsSize<T>(groups: seq<Group<T>>, item: T, date: string)
    ensures TotalSize(AddToGroups(groups, item, date)) == TotalSize(groups) + 1
  {
    if groups != [] {
      var r := AddToGroups(groups, item, date);
      if groups[0].date == date {
        assert r[1..] == groups[1..];
      } else {
        AddToGroupsSize(groups[1..], item, date);
        assert r[1..] == AddToGroups(groups[1..], item, date);
      }
    }
  }

  /** With distinct dates, the entry joins exactly the group of its date,
      or a new last group. */
  lemma {:induction false} AddToGroupsItems<T>(groups: seq<Group<T>>, item: T, date: string)
    requires DistinctDates(groups)
    ensures var r := AddToGroups(groups, item, date);
      && |r| >= |groups|
      && (forall i :: 0 <= i < |groups| ==>
            r[i].items == groups[i].items + (if groups[i].date == date then [item] else []))
      && (date !in Dates(groups) ==> |r| == |groups| + 1 && r[|groups|] == Group(date, [item]))
  {
    if groups != [] {
      var r := AddToGroups(groups, item, date);
      if groups[0].date == date {
        assert forall i :: 1 <= i < |groups| ==> groups[i].date != date;
        assert Dates(groups)[0] == date;
      } else {
        var rest := groups[1..];
        AddToGroupsItems(rest, item, date);
        assert r[1..] == AddToGroups(rest, item, date);
        assert Dates(groups) == [groups[0].date] + Dates(rest);
      }
    }
  }

  /** Distinct dates stay distinct. */
  lemma AddToGroupsDistinct<T>(groups: seq<Group<T>>, item: T, date: string)
    requires DistinctDates(groups)
    ensures DistinctDates(AddToGroups(groups, item, date))
  {
    var r := AddToGroups(groups, item, date);
    AddToGroupsDates(groups, item, date);
    assert forall i :: 0 <= i < |r| ==> r[i].date == Dates(r)[i];
    assert forall i :: 0 <= i < |groups| ==> groups[i].date == Dates(groups)[i];
  }

  /** Grouping by day lists each date once, in order of first occurrence,
      and keeps every entry. */
  lemma {:induction false} GroupDatesInFirstOccurrenceOrder<T>(items: seq<T>, dateKey: T -> string)
    ensures var groups := GroupByDate(items, dateKey);
      && Dates(groups) == FirstOccurrences(MapKeys(items, dateKey))
      && DistinctDates(groups)
      && TotalSize(groups) == |items|
  {
    if items != [] {
      var prefix := items[..|items| - 1];
      var item := items[|items| - 1];
      GroupDatesInFirstOccurrenceOrder(prefix, dateKey);
      var before := GroupByDate(prefix, dateKey);
      AddToGroupsDates(before, item, dateKey(item));
      AddToGroupsSize(before, item, dateKey(item));
      AddToGroupsDistinct(before, item, dateKey(item));
      assert MapKeys(items, dateKey)[..|items| - 1] == MapKeys(prefix, dateKey);
    }
  }

  /** Every entry's date heads one of the groups. */
  lemma EveryEntryHasGroup<T>(items: seq<T>, dateKey: T -> string)
    ensures forall k :: 0 <= k < |items| ==> dateKey(items[k]) in Dates(GroupByDate(items, dateKey))
  {
    GroupDatesInFirstOccurrenceOrder(items, dateKey);
    var keys := MapKeys(items, dateKey);
    var dates := Dates(GroupByDate(items, dateKey));
    assert dates == FirstOccurrences(keys);
    forall k | 0 <= k < |items| ensures dateKey(items[k]) in dates {
      assert keys[k] == dateKey(items[k]);
      assert keys[k] in keys;
    }
  }

  /** Group `g` holds exactly the entries of `items` on its date, and some. */
  ghost predicate HoldsItsDate<T>(g: Group<T>, items: seq<T>, dateKey: T -> string) {
    g.items == Filter(items, OnDate(dateKey, g.date)) && g.items != []
  }

  /** Each group holds exactly the entries of its date, in input order, and
      is never empty. */
  lemma {:induction false} GroupsHoldTheirDates<T>(items: seq<T>, dateKey: T -> string)
    ensures var groups := GroupByDate(items, dateKey);
      forall i :: 0 <= i < |groups| ==> HoldsItsDate(groups[i], items, dateKey)
  {
    if items != [] {
      var prefix := items[..|items| - 1];
      var item := items[|items| - 1];
      var before := GroupByDate(prefix, dateKey);
      assert items == prefix + [item];
      assert GroupByDate(items, dateKey) == AddToGroups(before, item, dateKey(item));
      GroupsHoldTheirDates(prefix, dateKey);
      GroupDatesInFirstOccurrenceOrder(prefix, dateKey);
      EveryEntryHasGroup(prefix, dateKey);
      AddKeepsGroupsExact(before, prefix, item, dateKey);
    }
  }

  /** The induction step of `GroupsHoldTheirDates`. */
  lemma AddKeepsGroupsExact<T>(before: seq<Group<T>>, prefix: seq<T>, item: T, dateKey: T -> string)
    requires DistinctDates(before)
    requires forall j :: 0 <= j < |before| ==> HoldsItsDate(before[j], prefix, dateKey)
    requires forall k :: 0 <= k < |prefix| ==> dateKey(prefix[k]) in Dates(before)
    ensures var r := AddToGroups(before, item, dateKey(item));
      forall j :: 0 <= j < |r| ==> HoldsItsDate(r[j], prefix + [item], dateKey)
  {
    var date := dateKey(item);
    var r := AddToGroups(before, item, date);
    AddToGroupsItems(before, item, date);
    AddToGroupsDates(before, item, date);
    forall j | 0 <= j < |r| ensures HoldsItsDate(r[j], prefix + [item], dateKey) {
      if j < |before| {
        assert r[j].date == before[j].date by {
          assert r[j].date == Dates(r)[j];
          assert before[j].date == Dates(before)[j];
        }
        ExistingGroupGrows(before[j], r[j], prefix, item, dateKey);
      } else {
        NewGroupHoldsItsDate(prefix, item, dateKey);
      }
    }
  }

  /** A group whose date is the new entry's takes it; the others stay. */
  lemma ExistingGroupGrows<T>(g: Group<T>, g': Group<T>, prefix: seq<T>, item: T, dateKey: T -> string)
    requires HoldsItsDate(g, prefix, dateKey)
    requires g'.date == g.date
    requires g'.items == g.items + (if g.date == dateKey(item) then [item] else [])
    ensures HoldsItsDate(g', prefix + [item], dateKey)
  {
    FilterSnoc(prefix, item, OnDate(dateKey, g.date));
  }

  /** An entry on a date nothing earlier fell on opens its own group. */
  lemma NewGroupHoldsItsDate<T>(prefix: seq<T>, item: T, dateKey: T -> string)
    requires forall k :: 0 <= k < |prefix| ==> dateKey(prefix[k]) != dateKey(item)
    ensures HoldsItsDate(Group(dateKey(item), [item]), prefix + [item], dateKey)
  {
    var p := OnDate(dateKey, dateKey(item));
    FilterNone(prefix, p);
    FilterSnoc(prefix, item, p);
  }

  /** The modal's state hooks. */
  datatype View<T> = View(forecast: seq<T>, loading: bool, error: Option<string>, grouped: seq<Group<T>>)

  /** `fetchForecast` up to its `await`. */
  function FetchStart<T>(v: View<T>): (r: View<T>)
    ensures r.loading && r.error.None? && r.grouped == v.grouped && r.forecast == v.forecast
  {
    v.(loading := true, error := None)
  }

  /** The rest of `fetchForecast`: a rejected request, or an entry whose
      time `format` cannot print, sets the error and keeps the previous
      groups; otherwise the entries are grouped. Loading ends either way. */
  function FetchDone<T>(v: View<T>, reply: Option<seq<T>>, dateKey: T -> string, validTime: T -> bool): (r: View<T>)
    ensures !r.loading
    ensures reply.None? ==> r == v.(error := Some(FetchFailedMessage), loading := false)
    ensures reply.Some? ==> r.forecast == reply.value
    ensures reply.Some? && (forall i :: 0 <= i < |reply.value| ==> validTime(reply.value[i])) ==>
      r.grouped == GroupByDate(reply.value, dateKey) && r.error == v.error
    ensures reply.Some? && (exists i :: 0 <= i < |reply.value| && !validTime(reply.value[i])) ==>
      r.grouped == v.grouped && r.error == Some(FetchFailedMessage)
  {
    match reply
    case None => v.(error := Some(FetchFailedMessage), loading := false)
    case Some(data) =>
      if forall i :: 0 <= i < |data| ==> validTime(data[i]) then
        v.(forecast := data, grouped := GroupByDate(data, dateKey), loading := false)
      else
        v.(forecast := data, error := Some(FetchFailedMessage), loading := false)
  }

  /** A whole fetch, start then completion: loading always ends; a
      rejected request keeps the previous entries and groups and shows the
      failure text; a reply whose times all print replaces the groups and
      leaves no error, even when the previous fetch had failed. */
  lemma FetchCycle<T>(v: View<T>, reply: Option<seq<T>>, dateKey: T -> string, validTime: T -> bool)
    ensures var r := FetchDone(FetchStart(v), reply, dateKey, validTime);
      && !r.loading
      && (reply.None? ==> r.forecast == v.forecast && r.grouped == v.grouped && r.error == Some(FetchFailedMessage))
      && (reply.Some? && (forall i :: 0 <= i < |reply.value| ==> validTime(reply.value[i])) ==>
            r.error.None? && r.grouped == GroupByDate(reply.value, dateKey))
  {
  }

  /** What the precipitation slot of a forecast card renders. The slot is
      `probability && <span>…</span>`, so a null probability renders
      nothing, a probability of exactly 0 renders the number 0 itself as
      bare text (React prints a falsy number), and any other probability
      renders the rounded percentage line. */
  datatype RainSlot = Hidden | BareZero | Percent(percent: int)

  function PrecipitationLine(probability: Option<real>): (r: RainSlot)
    ensures r.Hidden? <==> probability.None?
    ensures r.BareZero? <==> probability == Some(0.0)
    ensures r.Percent? <==> probability.Some? && probability.value != 0.0
    ensures r.Percent? ==> r.percent == Round(probability.value * 100.0)
  {
    match probability
    case Some(p) => if p != 0.0 then Percent(Round(p * 100.0)) else BareZero
    case None => Hidden
  }

  /** The text a rain slot puts on the card (the raindrop glyph aside). */
  function RainSlotText(slot: RainSlot): (r: string)
    ensures slot.Hidden? <==> r == ""
    ensures slot.BareZero? <==> r == "0"
    ensures slot.Percent? ==> r == IntToString(slot.percent) + "%"
  {
    match slot
    case Hidden => ""
    case BareZero => "0"
    case Percent(n) => IntToString(n) + "%"
  }

  /** A probability in [0, 1] shows as a percentage in [0, 100]. */
  lemma PrecipitationPercentBounded(p: real)
    requires 0.0 <= p <= 1.0
    ensures 0 <= Round(p * 100.0) <= 100
  {
  }
}

=== FILE: forecast_pipeline.dfy ===
/** The path of one forecast entry from the provider's reply to the card the
    forecast modal draws: the backend's mapping, then the frontend's
    precipitation slot. */
module ForecastPipeline {
  import opened Wrappers
  import opened Json
  import ForecastService
  import opened ForecastModal

  /** The backend stores a probability of 0 for an entry whose "pop" the
      provider left out, so such an entry reaches the card as the bare
      "0" rather than as "0%" or as no line at all. */
  lemma MissingPopShowsBareZero(v: Json)
    ensures var r := ForecastService.MapToForecastItem(v);
      r.Ok? && "pop" !in v.fields ==>
        var slot := PrecipitationLine(Some(ForecastService.MapToForecastDto(r.value).precipitationProbability));
        slot == BareZero && RainSlotText(slot) == "0"
  {
  }

  /** A present, non-zero "pop" reaches the card as its rounded percentage. */
  lemma PresentPopShowsPercent(v: Json)
    ensures var r := ForecastService.MapToForecastItem(v);
      r.Ok? && "pop" in v.fields && v.fields["pop"].n != 0.0 ==>
        PrecipitationLine(Some(ForecastService.MapToForecastDto(r.value).precipitationProbability))
          == Percent(Text.Round(v.fields["pop"].n * 100.0))
  {
  }
}

=== FILE: forecast_service.dfy ===
/** The backend's `ForecastService`: decoding the provider's 5-day forecast
    reply (`mapToForecastApiResponseDTO`, `mapToForecastItem`) and flattening
    each entry into a `ForecastDTO` whose absent groups become nulls. */
module ForecastService {
  import opened Wrappers
  import opened Units
  import opened Json
  import opened ExceptionHandler
  import WeatherService

  const ForecastFailed := "Failed to fetch forecast data"
  const LocationMissing := "Location not found"

  datatype MainBlock = MainBlock(
    temp: real, feelsLike: real, tempMin: real, tempMax: real,
    pressure: int, seaLevel: int, grndLevel: int, humidity: int, tempKf: real)

  datatype WeatherBlock = WeatherBlock(id: int, main: Option<string>, description: Option<string>, icon: Option<string>)

  datatype WindBlock = WindBlock(speed: real, deg: int, gust: Option<real>)

  /** `ForecastApiResponseDTO.ForecastItem`; an absent group is `None`. */
  datatype ForecastItem = ForecastItem(
    dt: int,
    dtText: Option<string>,
    visibility: int,
    pop: real,
    main: Option<MainBlock>,
    weather: Option<seq<WeatherBlock>>,
    wind: Option<WindBlock>,
    clouds: Option<int>,
    pod: Option<Option<string>>,
    rain: Option<real>)

  datatype City = City(id: int, name: Option<string>, country: Option<string>,
                       population: int, timezone: int, sunrise: int, sunset: int)

  /** `ForecastApiResponseDTO`. */
  datatype ForecastApiResponse = ForecastApiResponse(
    cod: Option<string>, message: int, cnt: int, city: Option<City>, list: Option<seq<ForecastItem>>)

  /** `ForecastDTO`; `forecastTime` is epoch milliseconds. */
  datatype ForecastDto = ForecastDto(
    forecastTime: int,
    temperature: Option<real>,
    feelsLike: Option<real>,
    humidity: Option<int>,
    pressure: Option<int>,
    windSpeed: Option<real>,
    windDirection: Option<int>,
    condition: Option<string>,
    description: Option<string>,
    icon: Option<string>,
    cloudiness: Option<int>,
    precipitationProbability: real,
    rainVolume: Option<real>)

  /** The shapes of reply the mapping code accepts (see `Json.NumberAt`). */
  predicate MainShape(v: Json) {
    && v.JObj?
    && NumberAt(v.fields, "temp") && NumberAt(v.fields, "feels_like")
    && NumberAt(v.fields, "temp_min") && NumberAt(v.fields, "temp_max")
    && NumberAt(v.fields, "pressure") && NumberAt(v.fields, "humidity")
    && NumberIfPresent(v.fields, "sea_level") && NumberIfPresent(v.fields, "grnd_level")
    && NumberIfPresent(v.fields, "temp_kf")
  }

  predicate WeatherShape(v: Json) {
    && v.JObj?
    && NumberAt(v.fields, "id")
    && StringOrNull(v.fields, "main") && StringOrNull(v.fields, "description") && StringOrNull(v.fields, "icon")
  }

  predicate WeatherListShape(items: seq<Json>) {
    forall i :: 0 <= i < |items| ==> WeatherShape(items[i])
  }

  predicate WindShape(v: Json) {
    v.JObj? && NumberAt(v.fields, "speed") && NumberIfPresent(v.fields, "deg") && NumberIfPresent(v.fields, "gust")
  }

  predicate ItemShape(v: Json) {
    && v.JObj?
    && NumberAt(v.fields, "dt") && StringOrNull(v.fields, "dt_txt")
    && NumberIfPresent(v.fields, "visibility") && NumberIfPresent(v.fields, "pop")
    && ("main" in v.fields ==> MainShape(v.fields["main"]))
    && ("weather" in v.fields ==> v.fields["weather"].JArr? && WeatherListShape(v.fields["weather"].items))
    && ("wind" in v.fields ==> WindShape(v.fields["wind"]))
    && ("clouds" in v.fields ==> v.fields["clouds"].JObj? && NumberAt(v.fields["clouds"].fields, "all"))
    && ("sys" in v.fields ==> v.fields["sys"].JObj? && StringOrNull(v.fields["sys"].fields, "pod"))
    && ("rain" in v.fields ==> v.fields["rain"].JObj? && NumberIfPresent(v.fields["rain"].fields, "3h"))
  }

  predicate CityShape(v: Json) {
    && v.JObj?
    && NumberAt(v.fields, "id") && StringOrNull(v.fields, "name") && StringOrNull(v.fields, "country")
    && NumberIfPresent(v.fields, "population") && NumberIfPresent(v.fields, "timezone")
    && NumberIfPresent(v.fields, "sunrise") && NumberIfPresent(v.fields, "sunset")
  }

  predicate ItemsShape(items: seq<Json>) {
    forall i :: 0 <= i < |items| ==> ItemShape(items[i])
  }

  predicate ResponseShape(v: Json) {
    && v.JObj?
    && StringOrNull(v.fields, "cod") && NumberIfPresent(v.fields, "message") && NumberAt(v.fields, "cnt")
    && ("city" in v.fields ==> CityShape(v.fields["city"]))
    && ("list" in v.fields ==> v.fields["list"].JArr? && ItemsShape(v.fields["list"].items))
  }

  /** `containsKey(key) ? ((Number) get(key)).intValue() : 0`. */
  function IntOr(obj: map<string, Json>, key: string, default: int): Result<int, Fault> {
    if key in obj then AsInt(obj[key]) else Ok(default)
  }

  /** `containsKey(key) ? ((Number) get(key)).doubleValue() : default`. */
  function DoubleOr(obj: map<string, Json>, key: string, default: real): Result<real, Fault> {
    if key in obj then AsDouble(obj[key]) else Ok(default)
  }

  function MapMain(v: Json): (r: Result<MainBlock, Fault>)
    ensures r.Ok? <==> MainShape(v)
  {
    var m :- AsObject(v);
    var temp :- AsDouble(Get(m, "temp"));
    var feels :- AsDouble(Get(m, "feels_like"));
    var tempMin :- AsDouble(Get(m, "temp_min"));
    var tempMax :- AsDouble(Get(m, "temp_max"));
    var pressure :- AsInt(Get(m, "pressure"));
    var seaLevel :- IntOr(m, "sea_level", 0);
    var grndLevel :- IntOr(m, "grnd_level", 0);
    var humidity :- AsInt(Get(m, "humidity"));
    var tempKf :- DoubleOr(m, "temp_kf", 0.0);
    Ok(MainBlock(temp, feels, tempMin, tempMax, pressure, seaLevel, grndLevel, humidity, tempKf))
  }

  function MapWeatherBlock(v: Json): (r: Result<WeatherBlock, Fault>)
    ensures r.Ok? <==> WeatherShape(v)
  {
    var w :- AsObject(v);
    var id :- AsInt(Get(w, "id"));
    var main :- AsString(Get(w, "main"));
    var description :- AsString(Get(w, "description"));
    var icon :- AsString(Get(w, "icon"));
    Ok(WeatherBlock(id, main, description, icon))
  }

  /** Every element of the "weather" list, in order. */
  function MapWeatherList(items: seq<Json>): (r: Result<seq<WeatherBlock>, Fault>)
    ensures r.Ok? ==> |r.value| == |items|
    ensures r.Ok? <==> WeatherListShape(items)
  {
    assert forall i :: 1 <= i < |items| ==> items[i] == items[1..][i - 1];
    if items == [] then Ok([])
    else
      var first :- MapWeatherBlock(items[0]);
      var rest :- MapWeatherList(items[1..]);
      Ok([first] + rest)
  }

  function MapWind(v: Json): (r: Result<WindBlock, Fault>)
    ensures r.Ok? <==> WindShape(v)
  {
    var w :- AsObject(v);
    var speed :- AsDouble(Get(w, "speed"));
    var deg :- IntOr(w, "deg", 0);
    var gust :- if "gust" in w then (var g :- AsDouble(w["gust"]); Ok(Some(g))) else Ok(None);
    Ok(WindBlock(speed, deg, gust))
  }

  /** The optional groups of a forecast entry: absent gives `None`, present
      must have the group's shape. */
  function MainGroup(item: map<string, Json>): (r: Result<Option<MainBlock>, Fault>)
    ensures r.Ok? <==> ("main" in item ==> MainShape(item["main"]))
    ensures r.Ok? ==> (r.value.Some? <==> "main" in item)
  {
    if "main" in item then (var m :- MapMain(item["main"]); Ok(Some(m))) else Ok(None)
  }

  function WeatherGroup(item: map<string, Json>): (r: Result<Option<seq<WeatherBlock>>, Fault>)
    ensures r.Ok? <==> ("weather" in item ==> item["weather"].JArr? && WeatherListShape(item["weather"].items))
    ensures r.Ok? ==> (r.value.Some? <==> "weather" in item)
    ensures r.Ok? && "weather" in item ==> |r.value.value| == |item["weather"].items|
  {
    if "weather" in item then (var l :- AsList(item["weather"]); var ws :- MapWeatherList(l); Ok(Some(ws)))
    else Ok(None)
  }

  function WindGroup(item: map<string, Json>): (r: Result<Option<WindBlock>, Fault>)
    ensures r.Ok? <==> ("wind" in item ==> WindShape(item["wind"]))
    ensures r.Ok? ==> (r.value.Some? <==> "wind" in item)
  {
    if "wind" in item then (var w :- MapWind(item["wind"]); Ok(Some(w))) else Ok(None)
  }

  function CloudsGroup(item: map<string, Json>): (r: Result<Option<int>, Fault>)
    ensures r.Ok? <==> ("clouds" in item ==> item["clouds"].JObj? && NumberAt(item["clouds"].fields, "all"))
    ensures r.Ok? ==> (r.value.Some? <==> "clouds" in item)
  {
    if "clouds" in item then (var c :- AsObject(item["clouds"]); var all :- AsInt(Get(c, "all")); Ok(Some(all)))
    else Ok(None)
  }

  function SysGroup(item: map<string, Json>): (r: Result<Option<Option<string>>, Fault>)
    ensures r.Ok? <==> ("sys" in item ==> item["sys"].JObj? && StringOrNull(item["sys"].fields, "pod"))
    ensures r.Ok? ==> (r.value.Some? <==> "sys" in item)
  {
    if "sys" in item then (var sys :- AsObject(item["sys"]); var p :- AsString(Get(sys, "pod")); Ok(Some(p)))
    else Ok(None)
  }

  function RainGroup(item: map<string, Json>): (r: Result<Option<real>, Fault>)
    ensures r.Ok? <==> ("rain" in item ==> item["rain"].JObj? && NumberIfPresent(item["rain"].fields, "3h"))
    ensures r.Ok? ==> (r.value.Some? <==> "rain" in item)
    ensures r.Ok? && "rain" in item ==> r.value.value == NumberOr(item["rain"].fields, "3h", 0.0)
  {
    if "rain" in item then (var rain :- AsObject(item["rain"]); var h :- DoubleOr(rain, "3h", 0.0); Ok(Some(h)))
    else Ok(None)
  }

  /** `mapToForecastItem`: required fields must be numbers; "visibility" and
      "pop" default to 0; a "rain" group without "3h" has volume 0. */
  function MapToForecastItem(v: Json): (r: Result<ForecastItem, Fault>)
    ensures r.Ok? <==> ItemShape(v)
    ensures r.Ok? ==> && r.value.dt == TruncateToInt(v.fields["dt"].n)
                      && r.value.visibility == TruncateToInt(NumberOr(v.fields, "visibility", 0.0))
                      && r.value.pop == NumberOr(v.fields, "pop", 0.0)
    ensures r.Ok? ==> && (r.value.main.Some? <==> "main" in v.fields)
                      && (r.value.weather.Some? <==> "weather" in v.fields)
                      && (r.value.wind.Some? <==> "wind" in v.fields)
                      && (r.value.clouds.Some? <==> "clouds" in v.fields)
                      && (r.value.pod.Some? <==> "sys" in v.fields)
                      && (r.value.rain.Some? <==> "rain" in v.fields)
  {
    var item :- AsObject(v);
    var dt :- AsInt(Get(item, "dt"));
    var dtText :- AsString(Get(item, "dt_txt"));
    var visibility :- IntOr(item, "visibility", 0);
    var pop :- DoubleOr(item, "pop", 0.0);
    var main :- MainGroup(item);
    var weather :- WeatherGroup(item);
    var wind :- WindGroup(item);
    var clouds :- CloudsGroup(item);
    var pod :- SysGroup(item);
    var rain :- RainGroup(item);
    Ok(ForecastItem(dt, dtText, visibility, pop, main, weather, wind, clouds, pod, rain))
  }

  /** Every element of the "list" array, in order. */
  function MapItems(items: seq<Json>): (r: Result<seq<ForecastItem>, Fault>)
    ensures r.Ok? ==> |r.value| == |items|
    ensures r.Ok? ==> forall i :: 0 <= i < |items| ==> MapToForecastItem(items[i]) == Ok(r.value[i])
    ensures r.Err? <==> exists i :: 0 <= i < |items| && MapToForecastItem(items[i]).Err?
    ensures r.Ok? <==> ItemsShape(items)
  {
    if items == [] then Ok([])
    else
      var first := MapToForecastItem(items[0]);
      var rest := MapItems(items[1..]);
      assert forall i :: 1 <= i < |items| ==> items[i] == items[1..][i - 1];
      if first.Err? then Err(first.error)
      else if rest.Err? then Err(rest.error)
      else Ok([first.value] + rest.value)
  }

  function MapCity(v: Json): (r: Result<City, Fault>)
    ensures r.Ok? <==> CityShape(v)
    ensures r.Ok? ==> && r.value.id == TruncateToInt(v.fields["id"].n)
                      && r.value.population == TruncateToInt(NumberOr(v.fields, "population", 0.0))
                      && r.value.timezone == TruncateToInt(NumberOr(v.fields, "timezone", 0.0))
                      && r.value.sunrise == TruncateToInt(NumberOr(v.fields, "sunrise", 0.0))
                      && r.value.sunset == TruncateToInt(NumberOr(v.fields, "sunset", 0.0))
  {
    var c :- AsObject(v);
    var id :- AsInt(Get(c, "id"));
    var name :- AsString(Get(c, "name"));
    var country :- AsString(Get(c, "country"));
    var population :- IntOr(c, "population", 0);
    var timezone :- IntOr(c, "timezone", 0);
    var sunrise :- IntOr(c, "sunrise", 0);
    var sunset :- IntOr(c, "sunset", 0);
    Ok(City(id, name, country, population, timezone, sunrise, sunset))
  }

  /** `mapToForecastApiResponseDTO`: "cnt" is required, "message" defaults
      to 0, "city" and "list" may be absent. */
  function MapToForecastApiResponse(v: Json): (r: Result<ForecastApiResponse, Fault>)
    ensures r.Ok? <==> ResponseShape(v)
    ensures r.Ok? ==> && r.value.cnt == TruncateToInt(v.fields["cnt"].n)
                      && r.value.message == TruncateToInt(NumberOr(v.fields, "message", 0.0))
                      && (r.value.city.Some? <==> "city" in v.fields)
                      && (r.value.list.Some? <==> "list" in v.fields)
    ensures r.Ok? && "list" in v.fields ==>
      && |r.value.list.value| == |v.fields["list"].items|
      && forall i :: 0 <= i < |v.fields["list"].items| ==> MapToForecastItem(v.fields["list"].items[i]) == Ok(r.value.list.value[i])
  {
    var response :- AsObject(v);
    var cod :- AsString(Get(response, "cod"));
    var message :- IntOr(response, "message", 0);
    var cnt :- AsInt(Get(response, "cnt"));
    var city :- if "city" in response then (var c :- MapCity(response["city"]); Ok(Some(c))) else Ok(None);
    var list :- if "list" in response then
                  (var l :- AsList(response["list"]); var items :- MapItems(l); Ok(Some(items)))
                else Ok(None);
    Ok(ForecastApiResponse(cod, message, cnt, city, list))
  }

  /** `mapToForecastDTO`: a group the provider left out gives nulls, the
      first "weather" element supplies the condition, and `dt` seconds
      become epoch milliseconds. */
  function MapToForecastDto(item: ForecastItem): (r: ForecastDto)
    ensures r.forecastTime == item.dt * 1000
    ensures r.precipitationProbability == item.pop
  {
    var firstWeather := item.weather.Some? && item.weather.value != [];
    ForecastDto(
      item.dt * 1000,
      if item.main.Some? then Some(item.main.value.temp) else None,
      if item.main.Some? then Some(item.main.value.feelsLike) else None,
      if item.main.Some? then Some(item.main.value.humidity) else None,
      if item.main.Some? then Some(item.main.value.pressure) else None,
      if item.wind.Some? then Some(item.wind.value.speed) else None,
      if item.wind.Some? then Some(item.wind.value.deg) else None,
      if firstWeather then item.weather.value[0].main else None,
      if firstWeather then item.weather.value[0].description else None,
      if firstWeather then item.weather.value[0].icon else None,
      item.clouds,
      item.pop,
      item.rain)
  }

  /** The null propagation rules of `mapToForecastDTO`, group by group. */
  lemma ForecastDtoNullRules(item: ForecastItem)
    ensures var d := MapToForecastDto(item);
      && (item.main.None? <==> d.temperature.None? && d.feelsLike.None? && d.humidity.None? && d.pressure.None?)
      && (item.wind.None? <==> d.windSpeed.None? && d.windDirection.None?)
      && ((item.weather.None? || item.weather.value == []) ==>
            d.condition.None? && d.description.None? && d.icon.None?)
      && (item.weather.Some? && item.weather.value != [] ==>
            d.condition == item.weather.value[0].main && d.description == item.weather.value[0].description
            && d.icon == item.weather.value[0].icon)
      && (item.rain.None? <==> d.rainVolume.None?)
      && (item.clouds.None? <==> d.cloudiness.None?)
    ensures var d := MapToForecastDto(item);
      var noFirst := item.weather.None? || item.weather.value == [];
      && (d.condition.None? <==> noFirst || item.weather.value[0].main.None?)
      && (d.description.None? <==> noFirst || item.weather.value[0].description.None?)
      && (d.icon.None? <==> noFirst || item.weather.value[0].icon.None?)
  {
  }

  /** `mapToForecastDTOList`: one DTO per list entry, in order; a reply
      without "list" fails on the null list. */
  function MapToForecastDtoList(response: ForecastApiResponse): (r: Result<seq<ForecastDto>, Fault>)
    ensures r.Err? <==> response.list.None?
    ensures r.Ok? ==> |r.value| == |response.list.value|
    ensures r.Ok? ==> forall i :: 0 <= i < |r.value| ==> r.value[i] == MapToForecastDto(response.list.value[i])
  {
    if response.list.None? then Err(NullPointer)
    else Ok(seq(|response.list.value|, i requires 0 <= i < |response.list.value| => MapToForecastDto(response.list.value[i])))
  }

  /** The defaults `mapToForecastItem` applies, seen through the DTO: an entry
      holding only "dt" has null readings, probability 0 and no rain; wind
      without "deg" points to 0; rain without "3h" has volume 0. */
  lemma ForecastItemDefaults(dt: real, speed: real)
    ensures var r := MapToForecastItem(JObj(map["dt" := JNum(dt)]));
      && r.Ok?
      && var d := MapToForecastDto(r.value);
      && d.temperature.None? && d.windSpeed.None? && d.condition.None? && d.cloudiness.None?
      && d.precipitationProbability == 0.0 && d.rainVolume.None?
      && d.forecastTime == TruncateToInt(dt) * 1000
    ensures var r := MapToForecastItem(JObj(map["dt" := JNum(dt), "wind" := JObj(map["speed" := JNum(speed)]),
                                                 "rain" := JObj(map[])]));
      && r.Ok?
      && MapToForecastDto(r.value).windDirection == Some(0)
      && MapToForecastDto(r.value).rainVolume == Some(0.0)
  {
  }

  /** `fetchAndSaveForecast`: every failure becomes a WeatherApiException. */
  function FetchForecast(location: WeatherService.Location, units: Unit,
                         provider: WeatherService.ProviderRequest -> WeatherService.ProviderReply): (r: Result<seq<ForecastDto>, AppException>)
    ensures r.Err? ==> r.error.WeatherApi?
  {
    match provider(WeatherService.ProviderRequest("/forecast", location.latitude, location.longitude, QueryParam(units)))
    case ClientError(text) => Err(WeatherApi(ForecastFailed + ": " + text))
    case Failure => Err(WeatherApi(ForecastFailed))
    case Body(json) =>
      match MapToForecastApiResponse(json)
      case Err(_) => Err(WeatherApi(ForecastFailed))
      case Ok(response) =>
        match MapToForecastDtoList(response)
        case Err(_) => Err(WeatherApi(ForecastFailed))
        case Ok(dtos) => Ok(dtos)
  }

  /** `getForecast`: an unknown location is refused before the provider is
      asked. */
  function GetForecast(st: WeatherService.Store, id: nat, units: Unit,
                       provider: WeatherService.ProviderRequest -> WeatherService.ProviderReply): (r: Result<seq<ForecastDto>, AppException>)
    ensures id !in st.locations ==> r == Err(LocationNotFound(LocationMissing))
    ensures id in st.locations && r.Err? ==> r.error.WeatherApi?
  {
    if id !in st.locations then Err(LocationNotFound(LocationMissing))
    else FetchForecast(st.locations[id], units, provider)
  }

  /** An unknown id gives the same answer whatever the provider would have
      said: no fetch is made. */
  lemma UnknownLocationFetchesNothing(st: WeatherService.Store, id: nat, units: Unit,
                                      p1: WeatherService.ProviderRequest -> WeatherService.ProviderReply,
                                      p2: WeatherService.ProviderRequest -> WeatherService.ProviderReply)
    requires id !in st.locations
    ensures GetForecast(st, id, units, p1) == GetForecast(st, id, units, p2)
  {
  }

  /** A successful forecast has one DTO per entry of the reply's "list", in
      order, each stamped with that entry's time. */
  lemma ForecastOnePerEntry(st: WeatherService.Store, id: nat, units: Unit,
                            provider: WeatherService.ProviderRequest -> WeatherService.ProviderReply,
                            json: Json, items: seq<Json>)
    requires id in st.locations
    ensures var r := GetForecast(st, id, units, provider);
      && provider(WeatherService.ProviderRequest("/forecast", st.locations[id].latitude, st.locations[id].longitude, QueryParam(units))) == WeatherService.Body(json)
      && json.JObj? && "list" in json.fields && json.fields["list"] == JArr(items)
      && r.Ok? ==>
        && |r.value| == |items|
        && forall i :: 0 <= i < |items| ==>
             MapToForecastItem(items[i]).Ok? && r.value[i] == MapToForecastDto(MapToForecastItem(items[i]).value)
  {
    var r := GetForecast(st, id, units, provider);
    if && provider(WeatherService.ProviderRequest("/forecast", st.locations[id].latitude, st.locations[id].longitude, QueryParam(units))) == WeatherService.Body(json)
       && json.JObj? && "list" in json.fields && json.fields["list"] == JArr(items)
       && r.Ok?
    {
      FetchReadsBody(st.locations[id], units, provider, json);
      ResponseCarriesList(json, items);
      var response := MapToForecastApiResponse(json).value;
      assert r.value == MapToForecastDtoList(response).value;
      forall i | 0 <= i < |items|
        ensures MapToForecastItem(items[i]).Ok? && r.value[i] == MapToForecastDto(MapToForecastItem(items[i]).value)
      {
        assert MapToForecastItem(items[i]) == Ok(response.list.value[i]);
      }
    }
  }

  /** A forecast that succeeds on a reply body is the DTO list of that body's
      mapped response. */
  lemma FetchReadsBody(location: WeatherService.Location, units: Unit,
                       provider: WeatherService.ProviderRequest -> WeatherService.ProviderReply, json: Json)
    ensures var r := FetchForecast(location, units, provider);
      provider(WeatherService.ProviderRequest("/forecast", location.latitude, location.longitude, QueryParam(units))) == WeatherService.Body(json) && r.Ok? ==> MapToForecastApiResponse(json).Ok? && MapToForecastDtoList(MapToForecastApiResponse(json).value) == Ok(r.value)
  {
  }

  /** A reply whose "list" is an array maps to a response holding exactly
      that array's entries. */
  lemma ResponseCarriesList(json: Json, items: seq<Json>)
    requires json.JObj? && "list" in json.fields && json.fields["list"] == JArr(items)
    ensures var r := MapToForecastApiResponse(json);
      r.Ok? ==> MapItems(items).Ok? && r.value.list == Some(MapItems(items).value)
  {
  }
}

=== FILE: json.dfy ===
/** The untyped `Map<String, Object>` that Spring's RestTemplate decodes a
    provider reply into, and the casts the backend's mapping code applies
    to it. A failed cast or a dereference of null is a `Fault`; the
    services turn every fault into a WeatherApiException. */
module Json {
  import opened Wrappers

  datatype Json =
    | JNull
    | JBool(b: bool)
    | JNum(n: real)
    | JStr(s: string)
    | JArr(items: seq<Json>)
    | JObj(fields: map<string, Json>)

  /** NullPointerException or ClassCastException. */
  datatype Fault = NullPointer | ClassCast

  /** `map.get(key)`: a missing key reads as null. */
  function Get(obj: map<string, Json>, key: string): (r: Json)
    ensures key !in obj ==> r == JNull
  {
    if key in obj then obj[key] else JNull
  }

  /** Field shapes the mapping code accepts: a required number is present
      and numeric, a defaulted number is numeric when present, and a text
      field is a string, null or missing. */
  predicate NumberAt(obj: map<string, Json>, key: string) {
    key in obj && obj[key].JNum?
  }

  predicate NumberIfPresent(obj: map<string, Json>, key: string) {
    key in obj ==> obj[key].JNum?
  }

  predicate StringOrNull(obj: map<string, Json>, key: string) {
    key !in obj || obj[key].JStr? || obj[key].JNull?
  }

  /** The number a present numeric field holds, or the default. */
  function NumberOr(obj: map<string, Json>, key: string, default: real): real {
    if key in obj && obj[key].JNum? then obj[key].n else default
  }

  /** Java's `(int)` conversion of a number: truncation towards zero. */
  function TruncateToInt(x: real): (r: int)
    ensures x >= 0.0 ==> 0 <= r && r as real <= x < r as real + 1.0
    ensures x < 0.0 ==> r <= 0 && r as real - 1.0 < x <= r as real
  {
    if x >= 0.0 then x.Floor else -((-x).Floor)
  }

  /** `((Number) v).doubleValue()`. */
  function AsDouble(v: Json): (r: Result<real, Fault>)
    ensures r.Ok? <==> v.JNum?
  {
    match v
    case JNum(n) => Ok(n)
    case JNull => Err(NullPointer)
    case _ => Err(ClassCast)
  }

  /** `((Number) v).intValue()`. */
  function AsInt(v: Json): (r: Result<int, Fault>)
    ensures r.Ok? <==> v.JNum?
  {
    match v
    case JNum(n) => Ok(TruncateToInt(n))
    case JNull => Err(NullPointer)
    case _ => Err(ClassCast)
  }

  /** `(String) v`: null stays null, anything else but a string fails. */
  function AsString(v: Json): (r: Result<Option<string>, Fault>)
    ensures r.Ok? <==> v.JStr? || v.JNull?
    ensures v.JNull? ==> r == Ok(None)
  {
    match v
    case JStr(s) => Ok(Some(s))
    case JNull => Ok(None)
    case _ => Err(ClassCast)
  }

  /** `(Map<String, Object>) v` followed by a use of the map. */
  function AsObject(v: Json): (r: Result<map<string, Json>, Fault>)
    ensures r.Ok? <==> v.JObj?
  {
    match v
    case JObj(m) => Ok(m)
    case JNull => Err(NullPointer)
    case _ => Err(ClassCast)
  }

  /** `(List<...>) v` followed by a use of the list. */
  function AsList(v: Json): (r: Result<seq<Json>, Fault>)
    ensures r.Ok? <==> v.JArr?
  {
    match v
    case JArr(items) => Ok(items)
    case JNull => Err(NullPointer)
    case _ => Err(ClassCast)
  }
}

=== FILE: rate_limit.dfy ===
/** The backend's `RateLimitFilter`: a sliding-window limiter keyed by client
    address, admitting at most 60 requests per client per 60 seconds and
    answering the rest with 429 Too Many Requests (section 4 of RFC 6585)
    and a Retry-After header (section 10.2.3 of RFC 9110). Requests are
    handled one at a time; the clock is the `now` parameter, in
    milliseconds. */
module RateLimitFilter {
  import opened Wrappers
  import opened Text

  const MaxRequests := 60
  const WindowMs := 60000
  const TooManyRequests := 429
  const RetryAfterSeconds := "60"
  const JsonContentType := "application/json"
  const TooManyBody := "{\"error\":\"Too many requests. Please try again later.\"}"

  /** The parts of an `HttpServletRequest` the filter reads. */
  datatype Request = Request(forwardedFor: Option<string>, remoteAddr: string)

  /** `requestLog`: the admitted timestamps of each client, oldest first. */
  datatype Limiter = Limiter(log: map<string, seq<int>>)

  /** What the filter does with a request: hand it to the chain, answer 429
      itself, or let an exception escape (see `ClientKey`). */
  datatype Decision =
    | Pass
    | Reject(status: int, retryAfter: string, contentType: string, body: string)
    | Crash

  /** The part of `s` before its first comma (all of `s` when it has none). */
  function BeforeComma(s: string): (r: string)
    ensures r <= s && ',' !in r
    ensures |r| < |s| ==> s[|r|] == ','
  {
    if s == [] || s[0] == ',' then [] else [s[0]] + BeforeComma(s[1..])
  }

  /** A non-empty header made of commas and nothing else. */
  predicate CommasOnly(s: string) {
    s != [] && forall i :: 0 <= i < |s| ==> s[i] == ','
  }

  /** `s.split(",")[0]`: Java drops trailing empty pieces, so a string of
      commas only splits into nothing and indexing it throws. */
  function FirstSplitPiece(s: string): (r: Option<string>)
    requires s != []
    ensures r.None? <==> forall i :: 0 <= i < |s| ==> s[i] == ','
    ensures r.Some? ==> r.value == BeforeComma(s)
  {
    if forall i :: 0 <= i < |s| ==> s[i] == ',' then None else Some(BeforeComma(s))
  }

  /** `getClientIp`: the trimmed first element of X-Forwarded-For when that
      header is present and non-empty, otherwise the remote address. `None`
      stands for the ArrayIndexOutOfBoundsException a comma-only header
      raises. */
  function ClientKey(req: Request): (r: Option<string>)
    ensures r.None? <==> req.forwardedFor.Some? && CommasOnly(req.forwardedFor.value)
    ensures req.forwardedFor.None? || req.forwardedFor.value == [] ==> r == Some(req.remoteAddr)
    ensures req.forwardedFor.Some? && req.forwardedFor.value != [] && r.Some? ==>
              r.value == JavaTrim(BeforeComma(req.forwardedFor.value))
  {
    match req.forwardedFor
    case Some(header) =>
      if header == [] then Some(req.remoteAddr)
      else
        (match FirstSplitPiece(header)
         case None => None
         case Some(piece) => Some(JavaTrim(piece)))
    case None => Some(req.remoteAddr)
  }

  /** The eviction loop: drop entries from the front while they are more
      than a window older than `now`. */
  function Evict(ts: seq<int>, now: int): (r: seq<int>)
    ensures |r| <= |ts| && r == ts[|ts| - |r|..]
    ensures |r| > 0 ==> now - r[0] <= WindowMs
    ensures forall i :: 0 <= i < |ts| - |r| ==> now - ts[i] > WindowMs
  {
    if ts != [] && now - ts[0] > WindowMs then
      var rest := Evict(ts[1..], now);
      assert forall i :: 1 <= i < |ts| - |rest| ==> ts[i] == ts[1..][i - 1];
      rest
    else ts
  }

  /** The timestamps of `ts` no more than a window older than `now`, in
      order: what a sliding window should count. */
  function InWindow(ts: seq<int>, now: int): (r: seq<int>)
    ensures |r| <= |ts|
  {
    if ts == [] then []
    else (if now - ts[0] <= WindowMs then [ts[0]] else []) + InWindow(ts[1..], now)
  }

  predicate Sorted(ts: seq<int>) {
    forall i, j :: 0 <= i < j < |ts| ==> ts[i] <= ts[j]
  }

  /** The current log of `key`; `computeIfAbsent` starts it empty. */
  function LogOf(l: Limiter, key: string): seq<int> {
    if key in l.log then l.log[key] else []
  }

  /** `doFilterInternal`. */
  function DoFilter(l: Limiter, req: Request, now: int): (r: (Limiter, Decision))
    ensures ClientKey(req).None? ==> r == (l, Crash)
    ensures ClientKey(req).Some? ==>
      var key := ClientKey(req).value;
      var kept := Evict(LogOf(l, key), now);
      && r.0.log.Keys == l.log.Keys + {key}
      && (forall k :: k in l.log && k != key ==> r.0.log[k] == l.log[k])
      && (|kept| >= MaxRequests <==> r.1.Reject?)
      && (r.1.Reject? ==> r.0.log[key] == kept && r.1 == Reject(429, "60", JsonContentType, TooManyBody))
      && (r.1.Pass? ==> r.0.log[key] == kept + [now])
  {
    match ClientKey(req)
    case None => (l, Crash)
    case Some(key) =>
      var (log, decision) := Admit(LogOf(l, key), now);
      (Limiter(l.log[key := log]), decision)
  }

  /** The filter lets an exception escape for exactly one kind of request:
      one whose X-Forwarded-For header is nothing but commas. It then
      leaves every log as it was. */
  lemma FilterCrashesOnCommaHeader(l: Limiter, req: Request, now: int)
    ensures DoFilter(l, req, now).1.Crash? <==> req.forwardedFor.Some? && CommasOnly(req.forwardedFor.value)
    ensures DoFilter(l, req, now).1.Crash? ==> DoFilter(l, req, now).0 == l
  {
  }

  /** A usable X-Forwarded-For header decides the key on its own: two
      requests with the same such header from different remote addresses
      share one log. */
  lemma ForwardedHeaderDecidesKey(a: Request, b: Request)
    requires a.forwardedFor == b.forwardedFor
    requires a.forwardedFor.Some? && a.forwardedFor.value != [] && !CommasOnly(a.forwardedFor.value)
    ensures ClientKey(a).Some? && ClientKey(a) == ClientKey(b)
    ensures ClientKey(a).value == JavaTrim(BeforeComma(a.forwardedFor.value))
  {
  }

  /** One client's step: evict, then refuse at the limit or record `now`. */
  function Admit(ts: seq<int>, now: int): (r: (seq<int>, Decision))
    ensures var kept := Evict(ts, now);
      && (|kept| >= MaxRequests <==> r.1.Reject?)
      && (r.1.Reject? ==> r.0 == kept && r.1 == Reject(429, "60", JsonContentType, TooManyBody))
      && (r.1.Pass? ==> r.0 == kept + [now])
    ensures |ts| <= MaxRequests ==> |r.0| <= MaxRequests
  {
    var kept := Evict(ts, now);
    if |kept| >= MaxRequests then (kept, Reject(TooManyRequests, RetryAfterSeconds, JsonContentType, TooManyBody))
    else (kept + [now], Pass)
  }

  /** Every client's log holds at most `MaxRequests` entries, sorted, none
      later than `now`. */
  predicate Good(l: Limiter, now: int) {
    forall k :: k in l.log ==> GoodLog(l.log[k], now)
  }

  predicate GoodLog(ts: seq<int>, now: int) {
    |ts| <= MaxRequests && Sorted(ts) && (forall i :: 0 <= i < |ts| ==> ts[i] <= now)
  }

  /** An entry exactly one window old is kept; one a millisecond older is
      evicted. */
  lemma EvictionBoundary(t: int)
    ensures Evict([t], t + WindowMs) == [t]
    ensures Evict([t], t + WindowMs + 1) == []
  {
  }

  /** On a sorted log, evicting from the front leaves exactly the entries
      inside the window: front-only eviction misses nothing. */
  lemma {:induction false} EvictIsWindow(ts: seq<int>, now: int)
    requires Sorted(ts)
    ensures Evict(ts, now) == InWindow(ts, now)
  {
    if ts == [] {
    } else if now - ts[0] > WindowMs {
      EvictIsWindow(ts[1..], now);
    } else {
      AllInWindow(ts, now);
    }
  }

  lemma {:induction false} AllInWindow(ts: seq<int>, now: int)
    requires Sorted(ts)
    requires |ts| > 0 && now - ts[0] <= WindowMs
    ensures InWindow(ts, now) == ts
  {
    if |ts| > 1 {
      AllInWindow(ts[1..], now);
      assert [ts[0]] + ts[1..] == ts;
    }
  }

  /** A request is admitted exactly when fewer than `MaxRequests` of its
      client's admitted requests fall inside the window ending at `now`. */
  lemma AdmitsIffWindowNotFull(l: Limiter, req: Request, now: int)
    requires Good(l, now)
    requires ClientKey(req).Some?
    ensures DoFilter(l, req, now).1.Pass? <==> |InWindow(LogOf(l, ClientKey(req).value), now)| < MaxRequests
  {
    EvictIsWindow(LogOf(l, ClientKey(req).value), now);
  }

  /** One client's log stays sorted, bounded and not in the future after
      eviction and after eviction plus an append. */
  lemma StepKeepsLogGood(ts: seq<int>, now: int, later: int)
    requires GoodLog(ts, now) && now <= later
    ensures GoodLog(Evict(ts, later), later)
    ensures |Evict(ts, later)| < MaxRequests ==> GoodLog(Evict(ts, later) + [later], later)
  {
    var kept := Evict(ts, later);
    EvictKeepsLogGood(ts, now, later);
    if |kept| < MaxRequests {
      AppendKeepsLogGood(kept, later);
    }
  }

  lemma EvictKeepsLogGood(ts: seq<int>, now: int, later: int)
    requires GoodLog(ts, now) && now <= later
    ensures GoodLog(Evict(ts, later), later)
  {
    var kept := Evict(ts, later);
    var d := |ts| - |kept|;
    assert kept == ts[d..];
    forall i, j | 0 <= i < j < |kept| ensures kept[i] <= kept[j] {
      assert kept[i] == ts[d + i] && kept[j] == ts[d + j];
    }
    forall i | 0 <= i < |kept| ensures kept[i] <= later {
      assert kept[i] == ts[d + i];
    }
  }

  lemma AppendKeepsLogGood(kept: seq<int>, later: int)
    requires GoodLog(kept, later) && |kept| < MaxRequests
    ensures GoodLog(kept + [later], later)
  {
    var grown := kept + [later];
    forall i, j | 0 <= i < j < |grown| ensures grown[i] <= grown[j] {
      if j < |kept| {
        assert grown[i] == kept[i] && grown[j] == kept[j];
      } else {
        assert grown[i] == kept[i] && grown[j] == later;
      }
    }
    forall i | 0 <= i < |grown| ensures grown[i] <= later {
      if i < |kept| { assert grown[i] == kept[i]; }
    }
  }

  /** A good log stays good as the clock moves on. */
  lemma GoodLogLater(ts: seq<int>, now: int, later: int)
    requires GoodLog(ts, now) && now <= later
    ensures GoodLog(ts, later)
  {
  }

  /** Replacing one client's log by a good one keeps the whole table good. */
  lemma UpdateKeepsGood(l: Limiter, key: string, v: seq<int>, now: int, later: int)
    requires Good(l, now) && now <= later && GoodLog(v, later)
    ensures Good(Limiter(l.log[key := v]), later)
  {
    var m := l.log[key := v];
    forall k | k in m ensures GoodLog(m[k], later) {
      if k != key {
        GoodLogLater(l.log[k], now, later);
      }
    }
  }

  /** No client's log ever holds more than `MaxRequests` entries. */
  predicate Bounded(l: Limiter) {
    forall k :: k in l.log ==> |l.log[k]| <= MaxRequests
  }

  /** The bound holds whatever the clock does, even when it runs
      backwards: eviction only removes entries, a refusal appends nothing,
      and a pass appends to a log of fewer than `MaxRequests`. */
  lemma DoFilterKeepsBound(l: Limiter, req: Request, now: int)
    requires Bounded(l)
    ensures Bounded(DoFilter(l, req, now).0)
  {
    match ClientKey(req)
    case None =>
    case Some(key) =>
      var (log, _) := Admit(LogOf(l, key), now);
      assert |log| <= MaxRequests;
  }

  /** With a clock that never runs backwards, every step keeps each log
      bounded by `MaxRequests` and sorted. */
  lemma DoFilterPreservesGood(l: Limiter, req: Request, now: int, later: int)
    requires Good(l, now) && now <= later
    ensures Good(DoFilter(l, req, later).0, later)
  {
    match ClientKey(req)
    case None =>
      forall k | k in l.log ensures GoodLog(l.log[k], later) {
        GoodLogLater(l.log[k], now, later);
      }
    case Some(key) =>
      var ts := LogOf(l, key);
      assert GoodLog(ts, now);
      StepKeepsLogGood(ts, now, later);
      var kept := Evict(ts, later);
      var v := if |kept| >= MaxRequests then kept else kept + [later];
      UpdateKeepsGood(l, key, v, now, later);
  }
}

=== FILE: seqs.dfy ===
/** `Array.prototype.filter` on sequences, shared by the client views. */
module Seqs {

  /** The elements of `s` satisfying `p`, in their original order. */
  function Filter<T>(s: seq<T>, p: T -> bool): (r: seq<T>)
    ensures |r| <= |s|
    ensures forall x :: x in r ==> x in s && p(x)
    ensures forall i :: 0 <= i < |s| && p(s[i]) ==> s[i] in r
  {
    if s == [] then [] else (if p(s[0]) then [s[0]] else []) + Filter(s[1..], p)
  }

  /** Filtering distributes over concatenation: the relative order of
      kept elements is the input order. */
  lemma {:induction false} FilterAppend<T>(a: seq<T>, b: seq<T>, p: T -> bool)
    ensures Filter(a + b, p) == Filter(a, p) + Filter(b, p)
  {
    if a == [] {
      assert a + b == b;
    } else {
      assert (a + b)[0] == a[0];
      assert (a + b)[1..] == a[1..] + b;
      FilterAppend(a[1..], b, p);
    }
  }

  /** Filtering a sequence extended by one element. */
  lemma FilterSnoc<T>(s: seq<T>, x: T, p: T -> bool)
    ensures Filter(s + [x], p) == Filter(s, p) + (if p(x) then [x] else [])
  {
    FilterAppend(s, [x], p);
    assert [x][1..] == [];
  }

  /** A predicate `p` and its negation `q` split a sequence: the two filters have
      the input's elements between them, each exactly as often. */
  lemma {:induction false} FilterSplits<T>(s: seq<T>, p: T -> bool, q: T -> bool)
    requires forall x :: q(x) <==> !p(x)
    ensures multiset(Filter(s, p)) + multiset(Filter(s, q)) == multiset(s)
    ensures |Filter(s, p)| + |Filter(s, q)| == |s|
  {
    if s != [] {
      FilterSplits(s[1..], p, q);
      assert s == [s[0]] + s[1..];
    }
  }

  /** A filter keeps everything when every element qualifies. */
  lemma {:induction false} FilterAll<T>(s: seq<T>, p: T -> bool)
    requires forall i :: 0 <= i < |s| ==> p(s[i])
    ensures Filter(s, p) == s
  {
    if s != [] {
      FilterAll(s[1..], p);
      assert s == [s[0]] + s[1..];
    }
  }

  /** A filter keeps nothing when no element qualifies. */
  lemma {:induction false} FilterNone<T>(s: seq<T>, p: T -> bool)
    requires forall i :: 0 <= i < |s| ==> !p(s[i])
    ensures Filter(s, p) == []
  {
    if s != [] {
      FilterNone(s[1..], p);
    }
  }
}

=== FILE: sync_scheduler.dfy ===
/** The backend's `WeatherSyncScheduler`: on each tick, when auto-refresh is
    on, refresh every tracked location once, tolerating individual failures. */
module WeatherSyncScheduler {
  import opened Wrappers
  import opened Units
  import opened UserPreferencesService
  import WS = WeatherService

  /** One `refreshWeather` call the loop made, and whether it returned
      normally. */
  datatype Call = Call(locationId: nat, units: Unit, succeeded: bool)

  /** What a tick did: whether it read the location list, the calls it made
      in order, the success counter it logged, and the resulting store. */
  datatype SyncRun = SyncRun(readLocations: bool, calls: seq<Call>, success: nat, store: WS.Store)

  /** `Boolean.TRUE.equals(preferences.getAutoRefreshEnabled())`: false and
      null both disable the sync. */
  predicate Enabled(preferences: PrefsDto) {
    preferences.autoRefreshEnabled == Some(true)
  }

  /** The units of the sync: the preferred ones, METRIC when unset. */
  function SyncUnits(preferences: PrefsDto): (r: Unit)
    ensures preferences.defaultUnits.None? ==> r == Metric
    ensures preferences.defaultUnits.Some? ==> r == preferences.defaultUnits.value
  {
    preferences.defaultUnits.GetOr(Metric)
  }

  /** Number of calls that returned normally. */
  function CountSucceeded(calls: seq<Call>): (n: nat)
    ensures n <= |calls|
  {
    if calls == [] then 0
    else CountSucceeded(calls[..|calls| - 1]) + (if calls[|calls| - 1].succeeded then 1 else 0)
  }

  /** A refresh succeeds or fails independently of the snapshots already
      stored: it depends on the location, the provider and the clock. */
  lemma RefreshOutcomeIgnoresSnapshots(st1: WS.Store, st2: WS.Store, id: nat, units: Unit,
                                       provider: WS.ProviderRequest -> WS.ProviderReply, now: int)
    requires st1.locations == st2.locations
    ensures WS.RefreshWeather(st1, id, units, provider, now).Ok? == WS.RefreshWeather(st2, id, units, provider, now).Ok?
  {
    if id in st1.locations {
      assert st2.locations[id] == st1.locations[id];
    }
  }

  /** Appending leaves every prefix of the original in place. */
  lemma PrefixOfAppend<T>(a: seq<T>, x: T, n: nat)
    requires n <= |a|
    ensures (a + [x])[..n] == a[..n]
  {
  }

  /** `call` is the refresh of location `id` in `units`, and it succeeded
      exactly when refreshing against `store` at time `now` does. */
  predicate CallMatches(call: Call, id: nat, units: Unit, store: WS.Store,
                        provider: WS.ProviderRequest -> WS.ProviderReply, now: int) {
    && call.locationId == id
    && call.units == units
    && (call.succeeded <==> WS.RefreshWeather(store, id, units, provider, now).Ok?)
  }

  /** One iteration of the loop: `refreshWeather` against the store as the
      loop has grown it, with its outcome judged against the store the tick
      started from. */
  method RefreshOne(st: WS.Store, store: WS.Store, id: nat, units: Unit,
                    provider: WS.ProviderRequest -> WS.ProviderReply, now: int)
    returns (next: WS.Store, ok: bool)
    requires st.locations == store.locations
    requires |st.snapshots| >= |store.snapshots| && st.snapshots[..|store.snapshots|] == store.snapshots
    ensures ok <==> WS.RefreshWeather(store, id, units, provider, now).Ok?
    ensures next.locations == store.locations
    ensures |next.snapshots| == |st.snapshots| + (if ok then 1 else 0)
    ensures next.snapshots[..|store.snapshots|] == store.snapshots
  {
    var outcome := WS.RefreshWeather(st, id, units, provider, now);
    RefreshOutcomeIgnoresSnapshots(st, store, id, units, provider, now);
    ok := outcome.Ok?;
    next := st;
    if ok {
      next := outcome.value.store;
      assert next.snapshots == st.snapshots + [outcome.value.snapshot];
      PrefixOfAppend(st.snapshots, outcome.value.snapshot, |store.snapshots|);
    }
  }

  /** `syncAllLocations`. `ordered` is the list `findAllOrdered` returned,
      as location ids; `clock(i)` is the time of the i-th refresh. */
  method SyncAllLocations(preferences: PrefsDto, store: WS.Store, ordered: seq<nat>,
                          provider: WS.ProviderRequest -> WS.ProviderReply, clock: nat -> int)
    returns (run: SyncRun)
    ensures !Enabled(preferences) ==> run == SyncRun(false, [], 0, store)
    ensures Enabled(preferences) ==> run.readLocations && |run.calls| == |ordered|
    ensures Enabled(preferences) ==>
      forall i :: 0 <= i < |ordered| ==>
        && run.calls[i].locationId == ordered[i]
        && run.calls[i].units == SyncUnits(preferences)
        && (run.calls[i].succeeded <==> WS.RefreshWeather(store, ordered[i], SyncUnits(preferences), provider, clock(i)).Ok?)
    ensures run.success == CountSucceeded(run.calls) && run.success <= |ordered|
    ensures run.store.locations == store.locations
    ensures |run.store.snapshots| == |store.snapshots| + run.success
    ensures run.store.snapshots[..|store.snapshots|] == store.snapshots
  {
    if !Enabled(preferences) {
      return SyncRun(false, [], 0, store);
    }
    var units := SyncUnits(preferences);
    var st := store;
    var calls: seq<Call> := [];
    var success := 0;
    var i := 0;
    while i < |ordered|
      invariant 0 <= i <= |ordered|
      invariant |calls| == i
      invariant CallsMatch(calls, ordered, units, store, provider, clock)
      invariant success == CountSucceeded(calls)
      invariant st.locations == store.locations
      invariant |st.snapshots| == |store.snapshots| + success
      invariant st.snapshots[..|store.snapshots|] == store.snapshots
    {
      var next, ok := RefreshOne(st, store, ordered[i], units, provider, clock(i));
      var call := Call(ordered[i], units, ok);
      var calls' := calls + [call];
      assert calls'[..|calls|] == calls;
      CallsMatchSnoc(calls, call, ordered, units, store, provider, clock);
      st := next;
      if ok {
        success := success + 1;
      }
      calls := calls';
      i := i + 1;
    }
    run := SyncRun(true, calls, success, st);
  }

  /** The calls so far each match the location at their position. */
  predicate CallsMatch(calls: seq<Call>, ordered: seq<nat>, units: Unit, store: WS.Store,
                       provider: WS.ProviderRequest -> WS.ProviderReply, clock: nat -> int) {
    && |calls| <= |ordered|
    && forall k :: 0 <= k < |calls| ==> CallMatches(calls[k], ordered[k], units, store, provider, clock(k))
  }

  lemma CallsMatchSnoc(calls: seq<Call>, call: Call, ordered: seq<nat>, units: Unit, store: WS.Store,
                       provider: WS.ProviderRequest -> WS.ProviderReply, clock: nat -> int)
    requires CallsMatch(calls, ordered, units, store, provider, clock) && |calls| < |ordered|
    requires CallMatches(call, ordered[|calls|], units, store, provider, clock(|calls|))
    ensures CallsMatch(calls + [call], ordered, units, store, provider, clock)
  {
    var grown := calls + [call];
    forall k | 0 <= k < |grown| ensures CallMatches(grown[k], ordered[k], units, store, provider, clock(k)) {
      if k < |calls| {
        assert grown[k] == calls[k];
      }
    }
  }
}

=== FILE: text.dfy ===
/** String helpers shared by the JavaScript client and the Java backend:
    whitespace trimming (each language strips a different character set),
    ASCII case mapping and decimal rendering of integers. */
module Text {

  /** The WhiteSpace and LineTerminator code points of ECMAScript, the set
      `String.prototype.trim` strips. */
  predicate IsJsSpace(c: char) {
    || c == '\t' || c == '\n' || c == '\U{000B}' || c == '\U{000C}' || c == '\r'
    || c == ' ' || c == '\U{00A0}' || c == '\U{1680}'
    || ('\U{2000}' <= c <= '\U{200A}')
    || c == '\U{2028}' || c == '\U{2029}' || c == '\U{202F}' || c == '\U{205F}'
    || c == '\U{3000}' || c == '\U{FEFF}'
  }

  /** Java `String.trim` strips every character at or below U+0020. */
  predicate IsJavaTrimmable(c: char) {
    c <= ' '
  }

  /** Java `Character.isWhitespace`, the test behind `String.isBlank`. */
  predicate IsJavaWhitespace(c: char) {
    || ('\t' <= c <= '\r')
    || ('\U{001C}' <= c <= ' ')
    || c == '\U{1680}'
    || ('\U{2000}' <= c <= '\U{2006}')
    || ('\U{2008}' <= c <= '\U{200A}')
    || c == '\U{2028}' || c == '\U{2029}' || c == '\U{205F}' || c == '\U{3000}'
  }

  /** Every character of `s` satisfies `space`. */
  predicate AllSpace(s: string, space: char -> bool) {
    forall i :: 0 <= i < |s| ==> space(s[i])
  }

  function TrimStart(s: string, space: char -> bool): (r: string)
    ensures |r| <= |s| && r == s[|s| - |r|..]
    ensures |r| > 0 ==> !space(r[0])
    ensures AllSpace(s[..|s| - |r|], space)
  {
    if |s| > 0 && space(s[0]) then TrimStart(s[1..], space) else s
  }

  function TrimEnd(s: string, space: char -> bool): (r: string)
    ensures |r| <= |s| && r == s[..|r|]
    ensures |r| > 0 ==> !space(r[|r| - 1])
    ensures AllSpace(s[|r|..], space)
  {
    if |s| > 0 && space(s[|s| - 1]) then TrimEnd(s[..|s| - 1], space) else s
  }

  /** Removes leading and trailing characters satisfying `space`. */
  function Trim(s: string, space: char -> bool): (r: string)
    ensures |r| <= |s|
  {
    TrimEnd(TrimStart(s, space), space)
  }

  /** A string trims to the empty string exactly when it consists of
      trimmed characters only. */
  lemma TrimEmptyIffAllSpace(s: string, space: char -> bool)
    ensures Trim(s, space) == "" <==> AllSpace(s, space)
  {
    var t := TrimStart(s, space);
    var u := TrimEnd(t, space);
    var cut := |s| - |t|;
    assert forall k :: 0 <= k < cut ==> space(s[k]) by {
      assert forall k :: 0 <= k < cut ==> s[..cut][k] == s[k];
    }
    assert forall k :: |u| <= k < |t| ==> space(t[k]) by {
      assert forall k :: |u| <= k < |t| ==> t[|u|..][k - |u|] == t[k];
    }
    assert forall k :: 0 <= k < |t| ==> t[k] == s[cut + k];
    assert |t| > 0 ==> !space(s[cut]);
    assert !AllSpace(s, space) ==> u != "" by {
      if !AllSpace(s, space) {
        var i :| 0 <= i < |s| && !space(s[i]);
        assert t[i - cut] == s[i];
      }
    }
  }

  /** Trimming leaves a string alone when it neither starts nor ends with a
      trimmed character. */
  lemma TrimUntouched(s: string, space: char -> bool)
    requires |s| > 0 && !space(s[0]) && !space(s[|s| - 1])
    ensures Trim(s, space) == s
  {
    assert TrimStart(s, space) == s;
  }

  /** JavaScript `s.trim()`. */
  function JsTrim(s: string): string {
    Trim(s, IsJsSpace)
  }

  /** Java `s.trim()`. */
  function JavaTrim(s: string): string {
    Trim(s, IsJavaTrimmable)
  }

  /** Java `s.isBlank()`. */
  predicate JavaIsBlank(s: string) {
    AllSpace(s, IsJavaWhitespace)
  }

  function UpperChar(c: char): char {
    if 'a' <= c <= 'z' then (c as int - 32) as char else c
  }

  function LowerChar(c: char): char {
    if 'A' <= c <= 'Z' then (c as int + 32) as char else c
  }

  /** `toUpperCase`, restricted to the ASCII letters. */
  function Upper(s: string): (r: string)
    ensures |r| == |s|
    ensures forall i :: 0 <= i < |s| ==> r[i] == UpperChar(s[i])
  {
    if s == [] then [] else [UpperChar(s[0])] + Upper(s[1..])
  }

  /** `toLowerCase`, restricted to the ASCII letters. */
  function Lower(s: string): (r: string)
    ensures |r| == |s|
    ensures forall i :: 0 <= i < |s| ==> r[i] == LowerChar(s[i])
  {
    if s == [] then [] else [LowerChar(s[0])] + Lower(s[1..])
  }

  /** Java `a.equalsIgnoreCase(b)` on ASCII text. */
  predicate EqualsIgnoreCase(a: string, b: string) {
    Upper(a) == Upper(b)
  }

  /** No ASCII lower-case letter occurs in `s`. */
  predicate NoLowerCase(s: string) {
    forall i :: 0 <= i < |s| ==> !('a' <= s[i] <= 'z')
  }

  /** Upper-casing changes nothing in a string without lower-case letters. */
  lemma UpperOfUpperCase(s: string)
    requires NoLowerCase(s)
    ensures Upper(s) == s
  {
  }

  /** Upper-casing undoes lower-casing on text without lower-case letters. */
  lemma UpperOfLower(s: string)
    requires NoLowerCase(s)
    ensures Upper(Lower(s)) == s
  {
    assert forall i :: 0 <= i < |s| ==> UpperChar(LowerChar(s[i])) == s[i];
  }

  function DigitChar(d: int): char
    requires 0 <= d < 10
  {
    ('0' as int + d) as char
  }

  /** Decimal rendering of a natural number, as JavaScript's `${n}` prints it. */
  function NatToString(n: nat): (r: string)
    ensures |r| >= 1
    ensures forall i :: 0 <= i < |r| ==> '0' <= r[i] <= '9'
  {
    if n < 10 then [DigitChar(n)] else NatToString(n / 10) + [DigitChar(n % 10)]
  }

  /** Decimal rendering of an integer, with a leading '-' when negative. */
  function IntToString(n: int): (r: string)
    ensures |r| >= 1
    ensures r[|r| - 1] in "0123456789"
  {
    if n < 0 then "-" + NatToString(-n) else NatToString(n)
  }

  /** JavaScript `Math.round`: halves round towards positive infinity. */
  function Round(x: real): (r: int)
    ensures x - 1.0 / 2.0 < r as real <= x + 1.0 / 2.0
  {
    (x + 0.5).Floor
  }
}

=== FILE: units.dfy ===
/** The backend's unit-system enum (`dto/request/Units.java`) and its
    case-insensitive JSON parser `fromString`. */
module Units {
  import opened Wrappers
  import opened Text

  /** The three constants, in declaration order. */
  datatype Unit = Metric | Standard | Imperial

  const AllUnits: seq<Unit> := [Metric, Standard, Imperial]

  /** `Unit.name()`. */
  function Name(u: Unit): (r: string)
    ensures NoLowerCase(r)
  {
    match u
    case Metric => "METRIC"
    case Standard => "STANDARD"
    case Imperial => "IMPERIAL"
  }

  /** `Units.fromString(value)`: `Units.valueOf(value.toUpperCase())`; a name
      that is not a constant throws IllegalArgumentException, whose message
      is carried by `Err`. */
  function FromString(value: string): (r: Result<Unit, string>)
    ensures r.Ok? ==> Name(r.value) == Upper(value)
    ensures r.Err? ==> forall u :: Name(u) != Upper(value)
  {
    var up := Upper(value);
    if up == Name(Metric) then Ok(Metric)
    else if up == Name(Standard) then Ok(Standard)
    else if up == Name(Imperial) then Ok(Imperial)
    else Err("No enum constant com.uzwide.WeatherApp.dto.request.Units." + up)
  }

  /** The enum has exactly three constants and they have distinct names. */
  lemma ExactlyThreeConstants()
    ensures |AllUnits| == 3
    ensures forall u: Unit :: u in AllUnits
    ensures forall u, v :: Name(u) == Name(v) ==> u == v
  {
    forall u: Unit ensures u in AllUnits {
      match u
      case Metric => assert AllUnits[0] == u;
      case Standard => assert AllUnits[1] == u;
      case Imperial => assert AllUnits[2] == u;
    }
  }

  /** `fromString` accepts a string exactly when its upper-case form is the
      name of a constant. */
  lemma FromStringAcceptsExactlyNames(value: string)
    ensures FromString(value).Ok? <==> exists u :: Name(u) == Upper(value)
  {
    if FromString(value).Ok? {
      assert Name(FromString(value).value) == Upper(value);
    }
  }

  /** Round trip: every constant's name, and its lower-case spelling, parse
      back to that constant. */
  lemma FromStringOfName(u: Unit)
    ensures FromString(Name(u)) == Ok(u)
    ensures FromString(Lower(Name(u))) == Ok(u)
  {
    UpperOfUpperCase(Name(u));
    UpperOfLower(Name(u));
  }

  /** `fromString` ignores case: two spellings with the same upper-case form
      give the same answer. */
  lemma FromStringCaseInsensitive(a: string, b: string)
    requires Upper(a) == Upper(b)
    ensures FromString(a) == FromString(b)
  {
  }

  /** `units.name().toLowerCase()`, the value the backend sends as the
      provider's `units` query parameter. */
  function QueryParam(u: Unit): (r: string)
    ensures FromString(r) == Ok(u)
  {
    FromStringOfName(u);
    Lower(Name(u))
  }
}

=== FILE: user_preferences.dfy ===
/** The backend's `UserPreferencesService`: one preferences row, created
    with defaults on first use, updated field by field. */
module UserPreferencesService {
  import opened Wrappers
  import opened Units

  const DefaultUnits := Metric
  const DefaultIntervalMinutes := 30
  const DefaultAutoRefresh := false

  /** A stored `UserPreferences` row; its three columns are NOT NULL. */
  datatype Prefs = Prefs(id: nat, units: Unit, intervalMinutes: int, autoRefresh: bool)

  /** The `user_preferences` table in ascending id order, and the next
      identity value the database hands out. */
  datatype Table = Table(rows: seq<Prefs>, nextId: nat)

  predicate Valid(t: Table) {
    && (forall i, j :: 0 <= i < j < |t.rows| ==> t.rows[i].id < t.rows[j].id)
    && (forall i :: 0 <= i < |t.rows| ==> t.rows[i].id < t.nextId)
  }

  /** `UserPreferencesDTO`; every field may be null. */
  datatype PrefsDto = PrefsDto(
    id: Option<nat>,
    defaultUnits: Option<Unit>,
    refreshIntervalMinutes: Option<int>,
    autoRefreshEnabled: Option<bool>)

  /** `mapToDTO`. */
  function ToDto(p: Prefs): (r: PrefsDto)
    ensures r.id == Some(p.id)
    ensures r.defaultUnits.Some? && r.refreshIntervalMinutes.Some? && r.autoRefreshEnabled.Some?
  {
    PrefsDto(Some(p.id), Some(p.units), Some(p.intervalMinutes), Some(p.autoRefresh))
  }

  /** A save of a row that has no id yet: the database assigns the next
      identity and the row goes last. */
  function Insert(t: Table, units: Unit, intervalMinutes: int, autoRefresh: bool): (r: (Table, Prefs))
    ensures r.1.id == t.nextId && r.0.nextId == t.nextId + 1
    ensures r.0.rows == t.rows + [r.1]
  {
    var row := Prefs(t.nextId, units, intervalMinutes, autoRefresh);
    (Table(t.rows + [row], t.nextId + 1), row)
  }

  /** `createDefaultPreferences`: saves a METRIC, 30-minute, auto-refresh-off
      row. */
  function CreateDefaultPreferences(t: Table): (r: (Table, Prefs))
    ensures r.1.units == Metric && r.1.intervalMinutes == 30 && !r.1.autoRefresh
    ensures r.0.rows == t.rows + [r.1] && r.1.id == t.nextId
  {
    Insert(t, DefaultUnits, DefaultIntervalMinutes, DefaultAutoRefresh)
  }

  /** `findFirstByOrderByIdAsc().orElseGet(this::createDefaultPreferences)`. */
  function FirstOrCreate(t: Table): (r: (Table, Prefs))
    ensures |t.rows| > 0 ==> r.0 == t && r.1 == t.rows[0]
    ensures |t.rows| == 0 ==> |r.0.rows| == 1 && r.0.rows[0] == r.1
  {
    if |t.rows| > 0 then (t, t.rows[0]) else CreateDefaultPreferences(t)
  }

  /** `getUserPreferences`. */
  function GetUserPreferences(t: Table): (r: (Table, PrefsDto))
    ensures |t.rows| > 0 ==> r.0 == t
  {
    var (t', row) := FirstOrCreate(t);
    (t', ToDto(row))
  }

  /** The partial merge of `updateUserPreferences`: a null DTO field keeps
      the stored value. */
  function Merge(p: Prefs, dto: PrefsDto): (r: Prefs)
    ensures r.id == p.id
    ensures dto.defaultUnits.None? ==> r.units == p.units
    ensures dto.defaultUnits.Some? ==> r.units == dto.defaultUnits.value
    ensures dto.refreshIntervalMinutes.None? ==> r.intervalMinutes == p.intervalMinutes
    ensures dto.refreshIntervalMinutes.Some? ==> r.intervalMinutes == dto.refreshIntervalMinutes.value
    ensures dto.autoRefreshEnabled.None? ==> r.autoRefresh == p.autoRefresh
    ensures dto.autoRefreshEnabled.Some? ==> r.autoRefresh == dto.autoRefreshEnabled.value
  {
    Prefs(p.id,
          dto.defaultUnits.GetOr(p.units),
          dto.refreshIntervalMinutes.GetOr(p.intervalMinutes),
          dto.autoRefreshEnabled.GetOr(p.autoRefresh))
  }

  /** `updateUserPreferences`: load or create the first row, merge, save. */
  function UpdateUserPreferences(t: Table, dto: PrefsDto): (r: (Table, PrefsDto))
    ensures |r.0.rows| > 0 && r.1 == ToDto(r.0.rows[0])
    ensures |t.rows| > 0 ==> |r.0.rows| == |t.rows|
  {
    var (t', row) := FirstOrCreate(t);
    var merged := Merge(row, dto);
    (t'.(rows := [merged] + t'.rows[1..]), ToDto(merged))
  }

  /** With no stored row, reading the preferences saves and returns the
      defaults. */
  lemma DefaultsWhenMissing(t: Table)
    requires t.rows == []
    ensures var (t', dto) := GetUserPreferences(t);
      && dto == PrefsDto(Some(t.nextId), Some(Metric), Some(30), Some(false))
      && t'.rows == [Prefs(t.nextId, Metric, 30, false)]
  {
  }

  /** Reading an existing row returns its values unchanged and writes
      nothing; reading twice gives the same answer. */
  lemma GetReturnsFirstRow(t: Table)
    ensures |t.rows| > 0 ==> GetUserPreferences(t) == (t, ToDto(t.rows[0]))
    ensures var (t', dto) := GetUserPreferences(t); GetUserPreferences(t') == (t', dto)
  {
  }

  /** Only the non-null fields of the update change; the stored row keeps
      its id, and the answer is what a later read returns. */
  lemma UpdateOverwritesOnlyGivenFields(t: Table, dto: PrefsDto)
    requires |t.rows| > 0
    ensures var (t', r) := UpdateUserPreferences(t, dto);
      && |t'.rows| == |t.rows| && t'.rows[1..] == t.rows[1..] && t'.nextId == t.nextId
      && r.id == Some(t.rows[0].id)
      && r.defaultUnits == Some(if dto.defaultUnits.Some? then dto.defaultUnits.value else t.rows[0].units)
      && r.refreshIntervalMinutes == Some(if dto.refreshIntervalMinutes.Some? then dto.refreshIntervalMinutes.value else t.rows[0].intervalMinutes)
      && r.autoRefreshEnabled == Some(if dto.autoRefreshEnabled.Some? then dto.autoRefreshEnabled.value else t.rows[0].autoRefresh)
      && GetUserPreferences(t') == (t', r)
  {
  }

  /** An update with every field null changes no stored value. */
  lemma AllNullUpdateIsIdentity(t: Table, id: Option<nat>)
    requires |t.rows| > 0
    ensures UpdateUserPreferences(t, PrefsDto(id, None, None, None)) == (t, ToDto(t.rows[0]))
  {
    assert [t.rows[0]] + t.rows[1..] == t.rows;
  }

  /** Applying the same update twice is the same as applying it once. */
  lemma UpdateIdempotent(t: Table, dto: PrefsDto)
    ensures var once := UpdateUserPreferences(t, dto);
      UpdateUserPreferences(once.0, dto) == once
  {
    var (t1, row1) := FirstOrCreate(t);
    var merged := Merge(row1, dto);
    var once := UpdateUserPreferences(t, dto);
    assert once.0.rows == [merged] + t1.rows[1..];
    assert Merge(merged, dto) == merged;
    assert [merged] + once.0.rows[1..] == once.0.rows;
  }

  /** Reads and updates keep ids ascending and below the next identity. */
  lemma OperationsPreserveValid(t: Table, dto: PrefsDto)
    requires Valid(t)
    ensures Valid(GetUserPreferences(t).0)
    ensures Valid(UpdateUserPreferences(t, dto).0)
  {
    var (t1, row) := FirstOrCreate(t);
    assert Valid(t1);
    var t2 := UpdateUserPreferences(t, dto).0;
    assert t2.rows[0].id == t1.rows[0].id;
    assert forall i :: 1 <= i < |t2.rows| ==> t2.rows[i] == t1.rows[i];
  }
}

=== FILE: weather_client.dfy ===
/** The frontend's API client (`weatherService.js`): the display formatters
    and the two geocoding calls made straight to the provider. The module is
    called `WeatherClient` to keep it apart from the backend's
    `WeatherService`. Units arrive as the strings the UI passes around. */
module WeatherClient {
  import opened Wrappers
  import opened Text

  const NotAvailable := "N/A"
  const SearchFailed := "Failed to search locations"
  const SearchLimit := 5
  const ReverseLimit := 1

  /** The unit suffix of `formatTemperature`; METRIC and any unknown unit
      fall to the default branch. */
  function TemperatureSuffix(units: string): string {
    if units == "IMPERIAL" then "°F"
    else if units == "STANDARD" then "K"
    else "°C"
  }

  /** `formatTemperature`: 'N/A' for null, else the rounded value and a
      unit suffix. */
  function FormatTemperature(temp: Option<real>, units: string): (r: string)
    ensures temp.None? <==> r == NotAvailable
    ensures temp.Some? ==> r == IntToString(Round(temp.value)) + TemperatureSuffix(units)
  {
    match temp
    case None => NotAvailable
    case Some(t) =>
      var r := IntToString(Round(t)) + TemperatureSuffix(units);
      assert r[|r| - 1] != NotAvailable[2];
      r
  }

  /** `formatWindSpeed`: miles per hour only for IMPERIAL. */
  function FormatWindSpeed(speed: Option<real>, units: string): (r: string)
    ensures speed.None? <==> r == NotAvailable
    ensures speed.Some? ==> r == IntToString(Round(speed.value)) + (if units == "IMPERIAL" then " mph" else " m/s")
  {
    match speed
    case None => NotAvailable
    case Some(s) =>
      var r := IntToString(Round(s)) + (if units == "IMPERIAL" then " mph" else " m/s");
      assert r[|r| - 1] != NotAvailable[2];
      r
  }

  /** `formatPressure`: the reading in hPa, whatever the units. */
  function FormatPressure(pressure: Option<int>): (r: string)
    ensures pressure.None? <==> r == NotAvailable
    ensures pressure.Some? ==> r == IntToString(pressure.value) + " hPa"
  {
    match pressure
    case None => NotAvailable
    case Some(p) =>
      var r := IntToString(p) + " hPa";
      assert r[|r| - 1] != NotAvailable[2];
      r
  }

  /** `formatHumidity`: the reading as a percentage, whatever the units. */
  function FormatHumidity(humidity: Option<int>): (r: string)
    ensures humidity.None? <==> r == NotAvailable
    ensures humidity.Some? ==> r == IntToString(humidity.value) + "%"
  {
    match humidity
    case None => NotAvailable
    case Some(h) =>
      var r := IntToString(h) + "%";
      assert r[|r| - 1] != NotAvailable[2];
      r
  }

  /** `formatVisibility`: metres shown as miles for IMPERIAL and as
      kilometres otherwise, through `toFixed(1)` (the `fixed` parameter). */
  function FormatVisibility(visibility: Option<real>, units: string, fixed: (real, nat) -> string): (r: string)
    ensures visibility.None? ==> r == NotAvailable
    ensures visibility.Some? && units == "IMPERIAL" ==> r == fixed(visibility.value / 1609.34, 1) + " miles"
    ensures visibility.Some? && units != "IMPERIAL" ==> r == fixed(visibility.value / 1000.0, 1) + " km"
  {
    match visibility
    case None => NotAvailable
    case Some(v) =>
      if units == "IMPERIAL" then fixed(v / 1609.34, 1) + " miles" else fixed(v / 1000.0, 1) + " km"
  }

  /** Where a reading is present the text is never 'N/A', and the unit
      suffix tells the unit system apart: Fahrenheit only for IMPERIAL,
      Kelvin only for STANDARD, Celsius for everything else. */
  lemma FormattersTellUnitsApart(t: real, units: string)
    ensures FormatTemperature(Some(t), units) != NotAvailable
    ensures var s := FormatTemperature(Some(t), units);
      && (units == "IMPERIAL" <==> s[|s| - 2..] == "°F")
      && (units == "STANDARD" <==> s[|s| - 1] == 'K')
      && (units != "IMPERIAL" && units != "STANDARD" <==> s[|s| - 2..] == "°C")
    ensures var w := FormatWindSpeed(Some(t), units);
      (units == "IMPERIAL" <==> w[|w| - 3..] == "mph")
  {
    var digits := IntToString(Round(t));
    var s := FormatTemperature(Some(t), units);
    assert s[..|digits|] == digits;
    if units == "STANDARD" {
      assert s[|s| - 2..] == [digits[|digits| - 1], 'K'];
    }
    var w := FormatWindSpeed(Some(t), units);
    assert units != "IMPERIAL" ==> w[|w| - 3..] == "m/s";
  }

  /** The sample reading 24.6 METRIC renders as "25°C". */
  lemma TemperatureExample()
    ensures FormatTemperature(Some(24.6), "METRIC") == "25°C"
  {
    assert Round(24.6) == 25;
    assert IntToString(25) == "25" by { assert NatToString(2) == "2"; }
  }

  /** The sample wind speed 12.2 IMPERIAL renders as "12 mph". */
  lemma WindSpeedExample()
    ensures FormatWindSpeed(Some(12.2), "IMPERIAL") == "12 mph"
  {
    assert Round(12.2) == 12;
    assert IntToString(12) == "12" by { assert NatToString(1) == "1"; }
  }

  /** 1012 hPa, 80 %, and 5000 m of METRIC visibility as `toFixed(1)` of
      5 km. */
  lemma PlainFormatExamples(fixed: (real, nat) -> string)
    ensures FormatPressure(Some(1012)) == "1012 hPa"
    ensures FormatHumidity(Some(80)) == "80%"
    ensures FormatVisibility(Some(5000.0), "METRIC", fixed) == fixed(5.0, 1) + " km"
  {
    PressureExample();
    HumidityExample();
  }

  lemma PressureExample()
    ensures FormatPressure(Some(1012)) == "1012 hPa"
  {
    assert NatToString(1) == "1";
    assert NatToString(10) == "10";
    assert NatToString(101) == "101";
    assert IntToString(1012) == "1012";
  }

  lemma HumidityExample()
    ensures FormatHumidity(Some(80)) == "80%"
  {
    assert NatToString(8) == "8";
    assert IntToString(80) == "80";
  }

  /** A tracked location with its latest weather, as the backend's
      `WeatherResponseDTO` reaches the client (fields the views below do not
      read are left out). */
  datatype LocationWeather = LocationWeather(
    locationId: nat,
    locationName: string,
    displayName: Option<string>,
    temperature: Option<real>,
    lastUpdated: Option<string>,
    isFavorite: Option<bool>)

  /** `location.isFavorite` is truthy. */
  predicate IsFavourite(l: LocationWeather) {
    l.isFavorite == Some(true)
  }

  /** One element of the provider's geocoding reply. */
  datatype GeoEntry = GeoEntry(name: string, country: string, state: Option<string>, lat: real, lon: real)

  /** The shape the client hands to the UI. */
  datatype GeoResult = GeoResult(name: string, country: string, lat: real, lon: real, displayName: string)

  /** The two geocoding requests; `apiKey` is sent as `appid`. */
  datatype GeoQuery =
    | Direct(q: string, limit: nat, apiKey: string)
    | Reverse(latitude: real, longitude: real, limit: nat, apiKey: string)

  /** What `axios.get` gives: a reply whose `data` is an array (`None` when
      it is null or not an array), or a rejection. */
  datatype GeoReply = GeoData(data: Option<seq<GeoEntry>>) | GeoFailure

  /** A call's outcome and the request it sent, if any. */
  datatype Called<T> = Called(request: Option<GeoQuery>, result: T)

  /** `name + ", " + (state ? state + ", " : "") + country`; an empty state
      is falsy and left out. */
  function DisplayLabel(name: string, state: Option<string>, country: string): (r: string)
    ensures state.None? || state.value == [] ==> r == name + ", " + country
    ensures state.Some? && state.value != [] ==> r == name + ", " + state.value + ", " + country
  {
    name + ", " + (if state.Some? && state.value != [] then state.value + ", " else "") + country
  }

  function Shape(e: GeoEntry): (r: GeoResult)
    ensures r.name == e.name && r.country == e.country && r.lat == e.lat && r.lon == e.lon
    ensures r.displayName == DisplayLabel(e.name, e.state, e.country)
  {
    GeoResult(e.name, e.country, e.lat, e.lon, DisplayLabel(e.name, e.state, e.country))
  }

  /** The label of the sample entry, "London, England, GB". */
  lemma DisplayLabelExample()
    ensures DisplayLabel("London", Some("England"), "GB") == "London, England, GB"
    ensures DisplayLabel("Paris", Some(""), "FR") == "Paris, FR"
  {
  }

  /** The label starts with the name and ends with the country, so both are
      recoverable from it. */
  lemma DisplayLabelFrames(name: string, state: Option<string>, country: string)
    ensures var l := DisplayLabel(name, state, country);
      && |l| >= |name| + 2 + |country|
      && l[..|name|] == name && l[|name|..|name| + 2] == ", "
      && l[|l| - |country|..] == country
  {
  }

  /** `searchLocations`: without an API key no request is made; every
      failure surfaces as 'Failed to search locations'; otherwise up to 5
      results are shaped one by one, in order. */
  function SearchLocations(apiKey: Option<string>, query: string, fetch: GeoQuery -> GeoReply): (r: Called<Result<seq<GeoResult>, string>>)
    ensures apiKey.None? || apiKey.value == [] ==> r == Called(None, Err(SearchFailed))
    ensures apiKey.Some? && apiKey.value != [] ==> r.request == Some(Direct(query, SearchLimit, apiKey.value))
    ensures r.result.Err? ==> r.result.error == SearchFailed
  {
    if apiKey.None? || apiKey.value == [] then Called(None, Err(SearchFailed))
    else
      var request := Direct(query, SearchLimit, apiKey.value);
      match fetch(request)
      case GeoFailure => Called(Some(request), Err(SearchFailed))
      case GeoData(None) => Called(Some(request), Err(SearchFailed))
      case GeoData(Some(entries)) =>
        Called(Some(request), Ok(seq(|entries|, i requires 0 <= i < |entries| => Shape(entries[i]))))
  }

  /** A successful search maps the reply one to one and in order. */
  lemma SearchMapsOneToOne(apiKey: string, query: string, fetch: GeoQuery -> GeoReply, entries: seq<GeoEntry>)
    requires apiKey != []
    requires fetch(Direct(query, SearchLimit, apiKey)) == GeoData(Some(entries))
    ensures var r := SearchLocations(Some(apiKey), query, fetch).result;
      && r.Ok? && |r.value| == |entries|
      && forall i :: 0 <= i < |entries| ==> r.value[i] == Shape(entries[i])
  {
  }

  /** `reverseGeocodeCoordinates`: null on a missing key (without a
      request), on any failure, or on an empty reply; otherwise the first
      element only, shaped. */
  function ReverseGeocode(apiKey: Option<string>, latitude: real, longitude: real, fetch: GeoQuery -> GeoReply): (r: Called<Option<GeoResult>>)
    ensures apiKey.None? || apiKey.value == [] ==> r == Called(None, None)
    ensures apiKey.Some? && apiKey.value != [] ==> r.request == Some(Reverse(latitude, longitude, ReverseLimit, apiKey.value))
    ensures r.result.Some? <==>
      apiKey.Some? && apiKey.value != [] &&
      var reply := fetch(Reverse(latitude, longitude, ReverseLimit, apiKey.value));
      reply.GeoData? && reply.data.Some? && reply.data.value != []
    ensures r.result.Some? ==> r.result.value == Shape(fetch(Reverse(latitude, longitude, ReverseLimit, apiKey.value)).data.value[0])
  {
    if apiKey.None? || apiKey.value == [] then Called(None, None)
    else
      var request := Reverse(latitude, longitude, ReverseLimit, apiKey.value);
      match fetch(request)
      case GeoFailure => Called(Some(request), None)
      case GeoData(data) =>
        if data.None? || data.value == [] then Called(Some(request), None)
        else Called(Some(request), Some(Shape(data.value[0])))
  }
}

=== FILE: weather_dashboard.dfy ===
/** The frontend's `WeatherDashboard`: the tracked locations split into
    favourites and the rest, and which sections of the page render. */
module WeatherDashboard {
  import opened Wrappers
  import opened Seqs
  import opened WeatherClient

  function Favourites(locations: seq<LocationWeather>): seq<LocationWeather> {
    Filter(locations, IsFavourite)
  }

  predicate IsRegular(l: LocationWeather) {
    !IsFavourite(l)
  }

  function Regular(locations: seq<LocationWeather>): seq<LocationWeather> {
    Filter(locations, IsRegular)
  }

  /** The two lists are disjoint and between them hold every location
      exactly as often as the input does. */
  lemma PartitionCoversInput(locations: seq<LocationWeather>)
    ensures forall l :: l in Favourites(locations) ==> IsFavourite(l) && l in locations
    ensures forall l :: l in Regular(locations) ==> !IsFavourite(l) && l in locations
    ensures forall l :: l in locations ==> (l in Favourites(locations) <==> l !in Regular(locations))
    ensures multiset(Favourites(locations)) + multiset(Regular(locations)) == multiset(locations)
  {
    FilterSplits(locations, IsFavourite, IsRegular);
  }

  /** Both lists keep the input order: splitting the input anywhere splits
      each list at the matching point. */
  lemma PartitionKeepsOrder(before: seq<LocationWeather>, after: seq<LocationWeather>)
    ensures Favourites(before + after) == Favourites(before) + Favourites(after)
    ensures Regular(before + after) == Regular(before) + Regular(after)
  {
    FilterAppend(before, after, IsFavourite);
    FilterAppend(before, after, IsRegular);
  }

  /** What the page renders: the favourites section (when shown) and either
      the "No locations" empty state or the grid of regular locations. */
  datatype Page = Page(favouritesSection: Option<seq<LocationWeather>>, emptyState: bool, regularGrid: seq<LocationWeather>)

  function Render(locations: seq<LocationWeather>): (r: Page)
    ensures r.favouritesSection.Some? <==> Favourites(locations) != []
    ensures r.favouritesSection.Some? ==> r.favouritesSection.value == Favourites(locations)
    ensures r.emptyState <==> locations == []
    ensures !r.emptyState ==> r.regularGrid == Regular(locations)
    ensures r.emptyState ==> r.regularGrid == []
  {
    var favourites := Favourites(locations);
    Page(if |favourites| > 0 then Some(favourites) else None,
         |locations| == 0,
         if |locations| == 0 then [] else Regular(locations))
  }

  /** When every location is a favourite the page still shows the (empty)
      regular grid rather than the empty state. */
  lemma AllFavouritesShowEmptyGrid(locations: seq<LocationWeather>)
    requires locations != []
    requires forall i :: 0 <= i < |locations| ==> IsFavourite(locations[i])
    ensures Render(locations) == Page(Some(locations), false, [])
  {
    FilterAll(locations, IsFavourite);
    FilterSplits(locations, IsFavourite, IsRegular);
  }
}

=== FILE: weather_service.dfy ===
/** The backend's `WeatherService`: country normalisation, adding, updating
    and deleting tracked locations, fetching a current-weather snapshot from
    the provider, and the weather-drift check. The two JPA repositories are
    one immutable `Store`; the provider is a function from request to reply;
    the clock is the `now` parameter. */
module WeatherService {
  import opened Wrappers
  import opened Text
  import opened Units
  import opened Json
  import opened ExceptionHandler

  const SignificantTempDelta: real := 8.0
  const SignificantHumidityDelta: int := 30
  const SignificantPressureDelta: int := 20
  /** Visibility stored when the provider reports none. */
  const DefaultVisibility: int := 10000

  const CountryRequired := "Country is required"
  const CountryInvalid := "Country must be a valid 2-letter ISO code or recognized country name"
  const FetchFailed := "Failed to fetch weather data"

  /** One entry of `Locale.getISOCountries()` with its English display name. */
  datatype CountryEntry = CountryEntry(isoCode: string, englishName: string)

  /** The JDK's country list: ISO codes are two letters. */
  predicate WellFormedCountries(countries: seq<CountryEntry>) {
    forall i :: 0 <= i < |countries| ==> |countries[i].isoCode| == 2
  }

  /** The `Location` entity. */
  datatype Location = Location(
    id: nat,
    name: string,
    country: string,
    latitude: real,
    longitude: real,
    displayName: Option<string>,
    isFavorite: bool)

  /** The `LocationDTO` request body (bean validation has already rejected a
      missing name or coordinates). */
  datatype LocationDto = LocationDto(
    name: string,
    country: Option<string>,
    latitude: real,
    longitude: real,
    displayName: Option<string>,
    isFavorite: Option<bool>)

  /** The `WeatherSnapshot` entity; `fetchedAt` is epoch milliseconds. */
  datatype Snapshot = Snapshot(
    locationId: nat,
    fetchedAt: int,
    temperature: Option<real>,
    feelsLike: Option<real>,
    humidity: Option<int>,
    pressure: Option<int>,
    windSpeed: Option<real>,
    windDirection: Option<int>,
    condition: Option<string>,
    description: Option<string>,
    icon: Option<string>,
    cloudiness: Option<int>,
    visibility: int)

  /** Both repositories: locations by id, the append-only snapshot history,
      and the next identity value. */
  datatype Store = Store(locations: map<nat, Location>, snapshots: seq<Snapshot>, nextId: nat)

  /** Text column widths of `weather_snapshots`. */
  const ConditionLength := 50
  const DescriptionLength := 200
  const IconLength := 10

  /** A row the `weather_snapshots` table accepts: every reading column is
      `nullable = false`, and the condition, description and icon fit their
      column widths. */
  predicate Storable(s: Snapshot) {
    && s.temperature.Some? && s.feelsLike.Some? && s.humidity.Some? && s.pressure.Some?
    && s.windSpeed.Some? && s.windDirection.Some?
    && s.condition.Some? && s.description.Some? && s.icon.Some?
    && s.cloudiness.Some?
    && |s.condition.value| <= ConditionLength
    && |s.description.value| <= DescriptionLength
    && |s.icon.value| <= IconLength
  }

  /** Every stored snapshot refers to a stored location: the `location_id`
      foreign key. */
  predicate SnapshotsAttached(st: Store) {
    forall i :: 0 <= i < |st.snapshots| ==> st.snapshots[i].locationId in st.locations
  }

  /** Some stored snapshot refers to location `id`. */
  predicate HasSnapshots(st: Store, id: nat) {
    exists i :: 0 <= i < |st.snapshots| && st.snapshots[i].locationId == id
  }

  /** Ids are keys, and every key lies below the next identity value. */
  predicate Valid(st: Store) {
    forall id :: id in st.locations ==> id < st.nextId && st.locations[id].id == id
  }

  /** No two stored locations share a name and a country. */
  predicate UniqueNameCountry(st: Store) {
    forall a, b :: a in st.locations && b in st.locations && a != b ==>
      !(st.locations[a].name == st.locations[b].name && st.locations[a].country == st.locations[b].country)
  }

  /** `locationRepository.findByNameAndCountry(name, country).isPresent()`. */
  predicate NameCountryTaken(st: Store, name: string, country: string) {
    exists id :: id in st.locations && st.locations[id].name == name && st.locations[id].country == country
  }

  /** The provider request `GET {base}/weather?lat=..&lon=..&units=..`. */
  datatype ProviderRequest = ProviderRequest(endpoint: string, latitude: real, longitude: real, units: string)

  /** What `restTemplate.getForObject` does: return a decoded body, throw
      HttpClientErrorException with a status text, or throw anything else. */
  datatype ProviderReply = Body(json: Json) | ClientError(statusText: string) | Failure

  /** First entry of the country list whose English name equals `value`
      ignoring case. */
  function LookupCountryName(value: string, countries: seq<CountryEntry>): (r: Result<string, AppException>)
    ensures r.Err? ==> r == Err(IllegalArgument(CountryInvalid))
    ensures r.Err? <==> forall i :: 0 <= i < |countries| ==> !EqualsIgnoreCase(countries[i].englishName, value)
    ensures r.Ok? ==>
      exists i ::
        && 0 <= i < |countries|
        && EqualsIgnoreCase(countries[i].englishName, value)
        && r.value == countries[i].isoCode
        && forall j :: 0 <= j < i ==> !EqualsIgnoreCase(countries[j].englishName, value)
  {
    if countries == [] then Err(IllegalArgument(CountryInvalid))
    else if EqualsIgnoreCase(countries[0].englishName, value) then Ok(countries[0].isoCode)
    else
      var r := LookupCountryName(value, countries[1..]);
      assert forall i :: 1 <= i < |countries| ==> countries[i] == countries[1..][i - 1];
      if r.Ok? then
        var k :| 0 <= k < |countries[1..]| && EqualsIgnoreCase(countries[1..][k].englishName, value)
          && r.value == countries[1..][k].isoCode
          && forall j :: 0 <= j < k ==> !EqualsIgnoreCase(countries[1..][j].englishName, value);
        assert forall j :: 0 <= j < k + 1 ==> !EqualsIgnoreCase(countries[j].englishName, value) by {
          assert forall j :: 1 <= j < k + 1 ==> countries[j] == countries[1..][j - 1];
        }
        r
      else r
  }

  /** `normalizeCountryCode`: null or blank is refused; a value that trims to
      two characters is upper-cased as it is; anything else must be an
      English country name. */
  function NormalizeCountryCode(input: Option<string>, countries: seq<CountryEntry>): (r: Result<string, AppException>)
    ensures input.None? || JavaIsBlank(input.value) ==> r == Err(IllegalArgument(CountryRequired))
    ensures r.Err? ==> r.error.IllegalArgument?
  {
    if input.None? || JavaIsBlank(input.value) then Err(IllegalArgument(CountryRequired))
    else
      var value := JavaTrim(input.value);
      if |value| == 2 then Ok(Upper(value)) else LookupCountryName(value, countries)
  }

  /** A non-blank input that trims to two characters is accepted and
      upper-cased whatever the country list says. */
  lemma TwoLetterCodesBypassTheList(input: string, countries: seq<CountryEntry>, others: seq<CountryEntry>)
    requires !JavaIsBlank(input) && |JavaTrim(input)| == 2
    ensures NormalizeCountryCode(Some(input), countries) == Ok(Upper(JavaTrim(input)))
    ensures NormalizeCountryCode(Some(input), countries) == NormalizeCountryCode(Some(input), others)
  {
  }

  /** A stored country code is always two characters long. */
  lemma NormalizedCodeHasTwoCharacters(input: Option<string>, countries: seq<CountryEntry>)
    requires WellFormedCountries(countries)
    ensures var r := NormalizeCountryCode(input, countries); r.Ok? ==> |r.value| == 2
  {
  }

  /** Normalisation fails exactly for a missing or blank input, or for a
      longer or shorter input that names no country. */
  lemma NormalizeFailsExactly(input: Option<string>, countries: seq<CountryEntry>)
    ensures NormalizeCountryCode(input, countries).Err? <==>
      || input.None?
      || JavaIsBlank(input.value)
      || (|JavaTrim(input.value)| != 2
          && forall i :: 0 <= i < |countries| ==> !EqualsIgnoreCase(countries[i].englishName, JavaTrim(input.value)))
  {
  }

  /** "South Africa" is matched by name against the list. */
  lemma CountryNameExample()
    ensures NormalizeCountryCode(Some("South Africa"), [CountryEntry("ZA", "South Africa")]) == Ok("ZA")
  {
    PlainText("South Africa");
  }

  /** "NotACountry" names no country in the list. */
  lemma UnknownCountryExample()
    ensures NormalizeCountryCode(Some("NotACountry"), [CountryEntry("ZA", "South Africa")]).Err?
  {
    PlainText("NotACountry");
    UnmatchedNameRefused("NotACountry", [CountryEntry("ZA", "South Africa")]);
  }

  /** A name that trims to something not two characters long and of a
      length no listed English name has is refused as invalid. */
  lemma UnmatchedNameRefused(value: string, countries: seq<CountryEntry>)
    requires !JavaIsBlank(value) && |JavaTrim(value)| != 2
    requires forall i :: 0 <= i < |countries| ==> |countries[i].englishName| != |JavaTrim(value)|
    ensures NormalizeCountryCode(Some(value), countries) == Err(IllegalArgument(CountryInvalid))
  {
    var trimmed := JavaTrim(value);
    forall i | 0 <= i < |countries| ensures !EqualsIgnoreCase(countries[i].englishName, trimmed) {
      DifferentLengthsDiffer(countries[i].englishName, trimmed);
    }
  }

  /** Names of different lengths never match, whatever their case. */
  lemma DifferentLengthsDiffer(a: string, b: string)
    requires |a| != |b|
    ensures !EqualsIgnoreCase(a, b)
  {
    assert |Upper(a)| != |Upper(b)|;
  }

  /** A string that starts and ends with a visible character is not blank and
      trims to itself. */
  lemma PlainText(s: string)
    requires |s| > 0 && s[0] > ' ' && !IsJavaWhitespace(s[0]) && s[|s| - 1] > ' '
    ensures !JavaIsBlank(s) && JavaTrim(s) == s
  {
    TrimUntouched(s, IsJavaTrimmable);
  }

  /** `isSignificantWeatherDrift`: only when both snapshots carry all three
      readings, and one of them moved by at least its threshold. */
  predicate IsSignificantWeatherDrift(previous: Snapshot, current: Snapshot) {
    if || previous.temperature.None? || current.temperature.None?
       || previous.humidity.None? || current.humidity.None?
       || previous.pressure.None? || current.pressure.None?
    then false
    else
      || Abs(previous.temperature.value - current.temperature.value) >= SignificantTempDelta
      || AbsInt(previous.humidity.value - current.humidity.value) >= SignificantHumidityDelta
      || AbsInt(previous.pressure.value - current.pressure.value) >= SignificantPressureDelta
  }

  function Abs(x: real): real { if x < 0.0 then -x else x }
  function AbsInt(x: int): int { if x < 0 then -x else x }

  /** Drift does not depend on which snapshot came first, a snapshot never
      drifts from itself, and a missing reading means no drift. */
  lemma DriftSymmetricAndIrreflexive(a: Snapshot, b: Snapshot)
    ensures IsSignificantWeatherDrift(a, b) == IsSignificantWeatherDrift(b, a)
    ensures !IsSignificantWeatherDrift(a, a)
    ensures a.temperature.None? || a.humidity.None? || a.pressure.None? ==> !IsSignificantWeatherDrift(a, b)
  {
  }

  /** A temperature jump of exactly eight degrees is significant; readings
      just under all three thresholds are not. */
  lemma DriftThresholdsInclusive(a: Snapshot, b: Snapshot)
    requires a.temperature.Some? && a.humidity.Some? && a.pressure.Some?
    requires b.temperature.Some? && b.humidity.Some? && b.pressure.Some?
    ensures b.temperature.value == a.temperature.value + 8.0 ==> IsSignificantWeatherDrift(a, b)
    ensures b.humidity.value == a.humidity.value - 30 ==> IsSignificantWeatherDrift(a, b)
    ensures b.pressure.value == a.pressure.value + 20 ==> IsSignificantWeatherDrift(a, b)
    ensures && Abs(b.temperature.value - a.temperature.value) < 8.0
            && AbsInt(b.humidity.value - a.humidity.value) < 30
            && AbsInt(b.pressure.value - a.pressure.value) < 20
            ==> !IsSignificantWeatherDrift(a, b)
  {
  }

  /** The current-weather replies the mapping accepts: each group, when
      present, has the casts its fields go through, and "visibility" is a
      number when present. */
  predicate CurrentMainShape(v: Json) {
    && v.JObj?
    && NumberAt(v.fields, "temp") && NumberAt(v.fields, "feels_like")
    && NumberAt(v.fields, "humidity") && NumberAt(v.fields, "pressure")
  }

  predicate CurrentWindShape(v: Json) {
    v.JObj? && NumberAt(v.fields, "speed") && NumberIfPresent(v.fields, "deg")
  }

  /** Only the first element of the list is read. */
  predicate ConditionShape(v: Json) {
    && v.JArr?
    && (v.items != [] ==>
          && v.items[0].JObj?
          && StringOrNull(v.items[0].fields, "main")
          && StringOrNull(v.items[0].fields, "description")
          && StringOrNull(v.items[0].fields, "icon"))
  }

  predicate CurrentReplyShape(v: Json) {
    && v.JObj?
    && ("main" in v.fields ==> CurrentMainShape(v.fields["main"]))
    && ("wind" in v.fields ==> CurrentWindShape(v.fields["wind"]))
    && ("weather" in v.fields ==> ConditionShape(v.fields["weather"]))
    && ("clouds" in v.fields ==> v.fields["clouds"].JObj? && NumberAt(v.fields["clouds"].fields, "all"))
    && NumberIfPresent(v.fields, "visibility")
  }

  /** `mapToWeatherSnapshot`: each group of the reply fills its fields when
      present; absent groups leave them null; wind without "deg" has
      direction 0 and a reply without "visibility" gets 10000. */
  function MapToWeatherSnapshot(response: Json, locationId: nat, now: int): (r: Result<Snapshot, Fault>)
    ensures r.Ok? ==> r.value.locationId == locationId && r.value.fetchedAt == now
    ensures r.Ok? <==> CurrentReplyShape(response)
    ensures r.Ok? ==>
      && (r.value.temperature.Some? <==> "main" in response.fields)
      && (r.value.feelsLike.Some? <==> "main" in response.fields)
      && (r.value.humidity.Some? <==> "main" in response.fields)
      && (r.value.pressure.Some? <==> "main" in response.fields)
      && ("main" in response.fields ==> r.value.temperature == Some(response.fields["main"].fields["temp"].n))
    ensures r.Ok? ==>
      && (r.value.windSpeed.Some? <==> "wind" in response.fields)
      && (r.value.windDirection.Some? <==> "wind" in response.fields)
      && ("wind" in response.fields ==>
            r.value.windDirection == Some(TruncateToInt(NumberOr(response.fields["wind"].fields, "deg", 0.0))))
    ensures r.Ok? ==>
      && (r.value.cloudiness.Some? <==> "clouds" in response.fields)
      && r.value.visibility == (if "visibility" in response.fields then TruncateToInt(response.fields["visibility"].n)
                                else DefaultVisibility)
    ensures r.Ok? && ("weather" !in response.fields || response.fields["weather"].items == []) ==>
      r.value.condition.None? && r.value.description.None? && r.value.icon.None?
  {
    var r :- AsObject(response);
    var main :- if "main" in r then MapMain(r["main"]) else Ok(None);
    var wind :- if "wind" in r then MapWind(r["wind"]) else Ok(None);
    var weather :- if "weather" in r then MapCondition(r["weather"]) else Ok(None);
    var clouds :- if "clouds" in r then MapClouds(r["clouds"]) else Ok(None);
    var visibility :- if "visibility" in r then AsInt(r["visibility"]) else Ok(DefaultVisibility);
    Ok(Snapshot(
      locationId, now,
      if main.Some? then Some(main.value.0) else None,
      if main.Some? then Some(main.value.1) else None,
      if main.Some? then Some(main.value.2) else None,
      if main.Some? then Some(main.value.3) else None,
      if wind.Some? then Some(wind.value.0) else None,
      if wind.Some? then Some(wind.value.1) else None,
      if weather.Some? then weather.value.0 else None,
      if weather.Some? then weather.value.1 else None,
      if weather.Some? then weather.value.2 else None,
      clouds,
      visibility))
  }

  /** temp, feels_like, humidity, pressure of the "main" group. */
  function MapMain(v: Json): (r: Result<Option<(real, real, int, int)>, Fault>)
    ensures r.Ok? <==> CurrentMainShape(v)
    ensures r.Ok? ==> r.value.Some? && r.value.value.0 == v.fields["temp"].n
  {
    var main :- AsObject(v);
    var temp :- AsDouble(Get(main, "temp"));
    var feels :- AsDouble(Get(main, "feels_like"));
    var humidity :- AsInt(Get(main, "humidity"));
    var pressure :- AsInt(Get(main, "pressure"));
    Ok(Some((temp, feels, humidity, pressure)))
  }

  /** speed and direction of the "wind" group; a missing "deg" reads as 0. */
  function MapWind(v: Json): (r: Result<Option<(real, int)>, Fault>)
    ensures r.Ok? <==> CurrentWindShape(v)
    ensures r.Ok? ==> r.value.Some? && r.value.value.1 == TruncateToInt(NumberOr(v.fields, "deg", 0.0))
  {
    var wind :- AsObject(v);
    var speed :- AsDouble(Get(wind, "speed"));
    var deg :- if "deg" in wind then AsInt(wind["deg"]) else Ok(0);
    Ok(Some((speed, deg)))
  }

  /** main, description and icon of the first element of "weather"; an
      empty list leaves all three null. */
  function MapCondition(v: Json): (r: Result<Option<(Option<string>, Option<string>, Option<string>)>, Fault>)
    ensures r.Ok? <==> ConditionShape(v)
    ensures r.Ok? ==> (r.value.None? <==> v.items == [])
  {
    var list :- AsList(v);
    if list == [] then Ok(None)
    else
      var first :- AsObject(list[0]);
      var main :- AsString(Get(first, "main"));
      var description :- AsString(Get(first, "description"));
      var icon :- AsString(Get(first, "icon"));
      Ok(Some((main, description, icon)))
  }

  /** "all" of the "clouds" group. */
  function MapClouds(v: Json): (r: Result<Option<int>, Fault>)
    ensures r.Ok? <==> v.JObj? && NumberAt(v.fields, "all")
    ensures r.Ok? ==> r.value.Some?
  {
    var clouds :- AsObject(v);
    var all :- AsInt(Get(clouds, "all"));
    Ok(Some(all))
  }

  /** The defaults the mapping applies to a reply without the optional
      groups: readings null, direction 0, visibility 10000. */
  lemma SnapshotDefaults(locationId: nat, now: int, wind: map<string, Json>)
    requires "speed" in wind && wind["speed"].JNum? && "deg" !in wind
    ensures var r := MapToWeatherSnapshot(JObj(map[]), locationId, now);
      && r.Ok?
      && r.value.temperature.None? && r.value.feelsLike.None? && r.value.humidity.None? && r.value.pressure.None?
      && r.value.windSpeed.None? && r.value.windDirection.None?
      && r.value.condition.None? && r.value.description.None? && r.value.icon.None?
      && r.value.cloudiness.None? && r.value.visibility == 10000
    ensures var r := MapToWeatherSnapshot(JObj(map["wind" := JObj(wind)]), locationId, now);
      r.Ok? && r.value.windSpeed == Some(wind["speed"].n) && r.value.windDirection == Some(0)
  {
  }

  /** A reply with none of the groups maps to a snapshot of nulls, which the
      table refuses: the fetch fails with a WeatherApiException and stores
      nothing, and a refresh of that location fails the same way. */
  lemma EmptyReplyRejectedAtSave(st: Store, location: Location, units: Unit,
                                 provider: ProviderRequest -> ProviderReply, now: int)
    ensures provider(WeatherRequest(location, units)) == Body(JObj(map[])) ==>
      && SaveRejected(location, units, provider, now)
      && FetchAndSaveWeatherData(st, location, units, provider, now) == Err(WeatherApi(FetchFailed))
  {
    if provider(WeatherRequest(location, units)) == Body(JObj(map[])) {
      SnapshotDefaults(location.id, now, map["speed" := JNum(0.0)]);
    }
  }

  /** Only a reply with all four groups, and a non-empty condition list,
      can be stored: any missing group leaves a `nullable = false` column
      null, so the fetch fails. */
  lemma StorableNeedsEveryGroup(response: Json, locationId: nat, now: int)
    ensures var r := MapToWeatherSnapshot(response, locationId, now);
      r.Ok? && Storable(r.value) ==>
        && "main" in response.fields && "wind" in response.fields && "clouds" in response.fields
        && "weather" in response.fields && response.fields["weather"].items != []
  {
  }

  /** The most recent snapshot stored for a location, if any. */
  function LatestSnapshot(history: seq<Snapshot>, locationId: nat): (r: Option<Snapshot>)
    ensures r.Some? ==> r.value in history && r.value.locationId == locationId
    ensures r.None? ==> forall s :: s in history ==> s.locationId != locationId
    ensures r.Some? ==> exists i :: 0 <= i < |history| && history[i] == r.value && NoneAfter(history, i, locationId)
  {
    if history == [] then None
    else if history[|history| - 1].locationId == locationId then
      assert NoneAfter(history, |history| - 1, locationId);
      Some(history[|history| - 1])
    else
      var earlier := history[..|history| - 1];
      var r := LatestSnapshot(earlier, locationId);
      if r.Some? then
        var i :| 0 <= i < |earlier| && earlier[i] == r.value && NoneAfter(earlier, i, locationId);
        assert history[i] == r.value;
        NoneAfterGrows(earlier, history[|history| - 1], i, locationId);
        assert earlier + [history[|history| - 1]] == history;
        r
      else r
  }

  /** No snapshot after position `i` belongs to the location. */
  predicate NoneAfter(history: seq<Snapshot>, i: nat, locationId: nat) {
    forall j :: i < j < |history| ==> history[j].locationId != locationId
  }

  lemma NoneAfterGrows(history: seq<Snapshot>, last: Snapshot, i: nat, locationId: nat)
    requires NoneAfter(history, i, locationId) && last.locationId != locationId && i < |history|
    ensures NoneAfter(history + [last], i, locationId)
  {
    var grown := history + [last];
    forall j | i < j < |grown| ensures grown[j].locationId != locationId {
      if j < |history| {
        assert grown[j] == history[j];
      }
    }
  }

  /** A successful fetch: the store with the new snapshot appended, that
      snapshot, and whether the drift warning was logged. */
  datatype Fetched = Fetched(store: Store, snapshot: Snapshot, driftLogged: bool)

  /** The provider request for a location's current weather. */
  function WeatherRequest(location: Location, units: Unit): ProviderRequest {
    ProviderRequest("/weather", location.latitude, location.longitude, QueryParam(units))
  }

  /** The provider answered with a body that maps to a snapshot the table
      accepts. */
  predicate FetchSucceeds(location: Location, units: Unit, provider: ProviderRequest -> ProviderReply, now: int) {
    var reply := provider(WeatherRequest(location, units));
    reply.Body? && MapToWeatherSnapshot(reply.json, location.id, now).Ok?
    && Storable(MapToWeatherSnapshot(reply.json, location.id, now).value)
  }

  /** The reply maps to a snapshot, but `weatherSnapshotRepository.save`
      rejects it: a reading is null or a text is too long for its column. */
  predicate SaveRejected(location: Location, units: Unit, provider: ProviderRequest -> ProviderReply, now: int) {
    var reply := provider(WeatherRequest(location, units));
    reply.Body? && MapToWeatherSnapshot(reply.json, location.id, now).Ok?
    && !Storable(MapToWeatherSnapshot(reply.json, location.id, now).value)
  }

  /** `fetchAndSaveWeatherData`: every failure, whether the HTTP call, the
      reply's shape, a null reply or the repository refusing the row,
      becomes a WeatherApiException; on success the snapshot is appended
      whether or not it drifts. */
  function FetchAndSaveWeatherData(st: Store, location: Location, units: Unit,
                                   provider: ProviderRequest -> ProviderReply, now: int): (r: Result<Fetched, AppException>)
    ensures r.Err? ==> r.error.WeatherApi?
    ensures r.Ok? ==> r.value.store == st.(snapshots := st.snapshots + [r.value.snapshot])
    ensures r.Ok? ==> r.value.snapshot.locationId == location.id && r.value.snapshot.fetchedAt == now
    ensures r.Ok? <==> FetchSucceeds(location, units, provider, now)
    ensures r.Ok? ==> Storable(r.value.snapshot)
    ensures SaveRejected(location, units, provider, now) ==> r == Err(WeatherApi(FetchFailed))
  {
    match provider(WeatherRequest(location, units))
    case ClientError(text) => Err(WeatherApi(FetchFailed + ": " + text))
    case Failure => Err(WeatherApi(FetchFailed))
    case Body(json) =>
      match MapToWeatherSnapshot(json, location.id, now)
      case Err(_) => Err(WeatherApi(FetchFailed))
      case Ok(snapshot) =>
        if !Storable(snapshot) then Err(WeatherApi(FetchFailed))
        else
        var previous := LatestSnapshot(st.snapshots, location.id);
        var drift := previous.Some? && IsSignificantWeatherDrift(previous.value, snapshot);
        Ok(Fetched(st.(snapshots := st.snapshots + [snapshot]), snapshot, drift))
  }

  /** The saved location and the store after `addLocation`. */
  datatype Added = Added(store: Store, location: Location)

  /** The message of Spring's `UnexpectedRollbackException`. */
  const RolledBack := "Transaction silently rolled back because it has been marked as rollback-only"

  /** The location `addLocation` builds from the request and the normalised
      country, under the next identity value. */
  function NewLocation(st: Store, dto: LocationDto, code: string): Location {
    Location(st.nextId, dto.name, code, dto.latitude, dto.longitude, dto.displayName, dto.isFavorite.GetOr(false))
  }

  /** The store once the new location's row is saved, before the initial
      fetch. */
  function Saved(st: Store, location: Location): (r: Store)
    ensures r.locations.Keys == st.locations.Keys + {location.id} && r.snapshots == st.snapshots
  {
    st.(locations := st.locations[location.id := location], nextId := st.nextId + 1)
  }

  /** The initial fetch of an add that gets that far fails at the snapshot
      save. The repository's own transaction then marks the enclosing
      `@Transactional` add rollback-only, which the catch around the fetch
      cannot undo. */
  predicate InitialSaveRejected(st: Store, dto: LocationDto, countries: seq<CountryEntry>,
                                provider: ProviderRequest -> ProviderReply, now: int) {
    var code := NormalizeCountryCode(dto.country, countries);
    && code.Ok?
    && !NameCountryTaken(st, dto.name, code.value)
    && SaveRejected(NewLocation(st, dto, code.value), Metric, provider, now)
  }

  /** `addLocation`: normalise the country, refuse a duplicate (name,
      country), save with `isFavorite` defaulting to false, then try to
      fetch the initial weather in METRIC and ignore any failure; a failure
      at the snapshot save still rolls the whole add back on commit. */
  function AddLocation(st: Store, dto: LocationDto, countries: seq<CountryEntry>,
                       provider: ProviderRequest -> ProviderReply, now: int): (r: Result<Added, AppException>)
    ensures r.Err? ==> r.error.IllegalArgument? || r.error.DuplicateLocation? || r.error == Unexpected(RolledBack)
    ensures r.Ok? ==> NormalizeCountryCode(dto.country, countries) == Ok(r.value.location.country)
    ensures r.Ok? ==>
      && r.value.location.id == st.nextId
      && r.value.store.locations == st.locations[st.nextId := r.value.location]
      && r.value.store.nextId == st.nextId + 1
    ensures r.Ok? ==> r.value.store == WithInitialWeather(Saved(st, r.value.location), r.value.location, provider, now)
  {
    var code :- NormalizeCountryCode(dto.country, countries);
    if NameCountryTaken(st, dto.name, code) then
      Err(DuplicateLocation("Location " + dto.name + ", " + code + " already exists"))
    else
      var location := NewLocation(st, dto, code);
      if SaveRejected(location, Metric, provider, now) then Err(Unexpected(RolledBack))
      else
        Ok(Added(WithInitialWeather(Saved(st, location), location, provider, now), location))
  }

  /** The store after the initial METRIC fetch: a failure leaves it as saved,
      a success only appends a snapshot. */
  function WithInitialWeather(saved: Store, location: Location,
                              provider: ProviderRequest -> ProviderReply, now: int): (r: Store)
    ensures r.locations == saved.locations && r.nextId == saved.nextId
    ensures !FetchSucceeds(location, Metric, provider, now) ==> r == saved
    ensures FetchSucceeds(location, Metric, provider, now) ==>
      && |r.snapshots| == |saved.snapshots| + 1
      && r == saved.(snapshots := saved.snapshots + [r.snapshots[|saved.snapshots|]])
      && r.snapshots[|saved.snapshots|].locationId == location.id && Storable(r.snapshots[|saved.snapshots|])
  {
    match FetchAndSaveWeatherData(saved, location, Metric, provider, now)
    case Ok(fetched) => fetched.store
    case Err(_) => saved
  }

  /** The outcome of `addLocation`: a duplicate is refused; otherwise the new
      location carries the submitted fields, the normalised country and a
      non-null favourite flag, and every earlier location is kept. */
  lemma AddLocationOutcome(st: Store, dto: LocationDto, countries: seq<CountryEntry>,
                           provider: ProviderRequest -> ProviderReply, now: int)
    requires Valid(st)
    ensures var r := AddLocation(st, dto, countries, provider, now);
      match NormalizeCountryCode(dto.country, countries)
      case Err(e) => r == Err(e)
      case Ok(code) =>
        if NameCountryTaken(st, dto.name, code) then
          r == Err(DuplicateLocation("Location " + dto.name + ", " + code + " already exists"))
        else if SaveRejected(NewLocation(st, dto, code), Metric, provider, now) then
          r == Err(Unexpected(RolledBack))
        else
          && r.Ok?
          && r.value.location == Location(st.nextId, dto.name, code, dto.latitude, dto.longitude,
                                          dto.displayName, dto.isFavorite.GetOr(false))
          && r.value.store.locations == st.locations[st.nextId := r.value.location]
          && st.nextId !in st.locations
  {
  }

  /** A fetch that fails before the save (a client error, any other failed
      call, or a reply that does not map) cannot make `addLocation` fail:
      two such providers give the same outcome and the same location. */
  lemma AddLocationIgnoresFetchFailure(st: Store, dto: LocationDto, countries: seq<CountryEntry>,
                                       p1: ProviderRequest -> ProviderReply, p2: ProviderRequest -> ProviderReply, now: int)
    ensures !InitialSaveRejected(st, dto, countries, p1, now) && !InitialSaveRejected(st, dto, countries, p2, now) ==>
      AddLocation(st, dto, countries, p1, now).Ok? == AddLocation(st, dto, countries, p2, now).Ok?
    ensures (&& !InitialSaveRejected(st, dto, countries, p1, now) && !InitialSaveRejected(st, dto, countries, p2, now)
             && AddLocation(st, dto, countries, p1, now).Ok?) ==>
      AddLocation(st, dto, countries, p1, now).value.location == AddLocation(st, dto, countries, p2, now).value.location
  {
    AddLocationWithoutRollback(st, dto, countries, p1, now);
    AddLocationWithoutRollback(st, dto, countries, p2, now);
  }

  /** Without a rejected save, whether an add succeeds, and the location it
      stores, depend only on the country and the names already taken. */
  lemma AddLocationWithoutRollback(st: Store, dto: LocationDto, countries: seq<CountryEntry>,
                                   provider: ProviderRequest -> ProviderReply, now: int)
    ensures var code := NormalizeCountryCode(dto.country, countries);
      var r := AddLocation(st, dto, countries, provider, now);
      !InitialSaveRejected(st, dto, countries, provider, now) ==>
        && (r.Ok? <==> code.Ok? && !NameCountryTaken(st, dto.name, code.value))
        && (r.Ok? ==> r.value.location == NewLocation(st, dto, code.value))
  {
  }

  /** The one way the initial fetch does sink an add: the add ends with the
      rollback exception exactly when the snapshot save was rejected. */
  lemma AddLocationRollsBackRejectedSave(st: Store, dto: LocationDto, countries: seq<CountryEntry>,
                                         provider: ProviderRequest -> ProviderReply, now: int)
    ensures AddLocation(st, dto, countries, provider, now) == Err(Unexpected(RolledBack)) <==>
      InitialSaveRejected(st, dto, countries, provider, now)
  {
  }

  /** A successful add keeps every snapshot attached to a stored location. */
  lemma AddLocationKeepsSnapshotsAttached(st: Store, dto: LocationDto, countries: seq<CountryEntry>,
                                          provider: ProviderRequest -> ProviderReply, now: int)
    requires SnapshotsAttached(st)
    ensures var r := AddLocation(st, dto, countries, provider, now);
      r.Ok? ==> SnapshotsAttached(r.value.store)
  {
    var r := AddLocation(st, dto, countries, provider, now);
    if r.Ok? {
      var saved := Saved(st, r.value.location);
      AttachedUnderMoreLocations(st, saved);
      InitialWeatherKeepsAttached(saved, r.value.location, provider, now);
    }
  }

  /** The initial fetch appends, if anything, a snapshot of the saved
      location. */
  lemma InitialWeatherKeepsAttached(saved: Store, location: Location,
                                    provider: ProviderRequest -> ProviderReply, now: int)
    requires SnapshotsAttached(saved) && location.id in saved.locations
    ensures SnapshotsAttached(WithInitialWeather(saved, location, provider, now))
  {
    var r := WithInitialWeather(saved, location, provider, now);
    if FetchSucceeds(location, Metric, provider, now) {
      AttachedAfterAppend(saved, r.snapshots[|saved.snapshots|]);
    }
  }

  /** Adding locations never detaches a snapshot. */
  lemma AttachedUnderMoreLocations(st: Store, next: Store)
    requires SnapshotsAttached(st) && next.snapshots == st.snapshots && st.locations.Keys <= next.locations.Keys
    ensures SnapshotsAttached(next)
  {
  }

  /** Appending a snapshot of a stored location keeps the history attached. */
  lemma AttachedAfterAppend(st: Store, s: Snapshot)
    requires SnapshotsAttached(st) && s.locationId in st.locations
    ensures SnapshotsAttached(st.(snapshots := st.snapshots + [s]))
  {
    var grown := st.snapshots + [s];
    forall i | 0 <= i < |grown| ensures grown[i].locationId in st.locations {
      if i < |st.snapshots| {
        assert grown[i] == st.snapshots[i];
      }
    }
  }

  /** Adding keeps the store well formed and keeps (name, country) unique. */
  lemma AddLocationPreservesInvariants(st: Store, dto: LocationDto, countries: seq<CountryEntry>,
                                       provider: ProviderRequest -> ProviderReply, now: int)
    requires Valid(st) && UniqueNameCountry(st)
    ensures var r := AddLocation(st, dto, countries, provider, now);
      r.Ok? ==> Valid(r.value.store) && UniqueNameCountry(r.value.store)
  {
    var r := AddLocation(st, dto, countries, provider, now);
    if r.Ok? {
      var code := NormalizeCountryCode(dto.country, countries).value;
      assert !NameCountryTaken(st, dto.name, code);
      InsertKeepsInvariants(st, r.value.store, r.value.location);
    }
  }

  /** Saving a location under the next id, when its (name, country) is not
      taken, keeps both store invariants. */
  lemma InsertKeepsInvariants(st: Store, next: Store, location: Location)
    requires Valid(st) && UniqueNameCountry(st)
    requires location.id == st.nextId && !NameCountryTaken(st, location.name, location.country)
    requires next.locations == st.locations[st.nextId := location] && next.nextId == st.nextId + 1
    ensures Valid(next) && UniqueNameCountry(next)
  {
    forall a, b | a in next.locations && b in next.locations && a != b
      ensures !(next.locations[a].name == next.locations[b].name && next.locations[a].country == next.locations[b].country)
    {
      if a == st.nextId {
        assert b in st.locations && next.locations[b] == st.locations[b];
      } else if b == st.nextId {
        assert a in st.locations && next.locations[a] == st.locations[a];
      }
    }
  }

  const NotFoundPrefix := "Location not found with id: "

  /** `updateLocation`: only a non-null displayName and a non-null
      isFavorite are written; an unknown id is LocationNotFoundException. */
  function UpdateLocation(st: Store, id: nat, dto: LocationDto): (r: Result<Added, AppException>)
    ensures r.Err? <==> id !in st.locations
    ensures r.Err? ==> r.error == LocationNotFound(NotFoundPrefix + IntToString(id))
  {
    if id !in st.locations then Err(LocationNotFound(NotFoundPrefix + IntToString(id)))
    else
      var prior := st.locations[id];
      var updated := prior.(
        displayName := if dto.displayName.Some? then dto.displayName else prior.displayName,
        isFavorite := dto.isFavorite.GetOr(prior.isFavorite));
      Ok(Added(st.(locations := st.locations[id := updated]), updated))
  }

  /** An update touches one row and, in it, only the display name and the
      favourite flag; an all-null update changes nothing, and applying the
      same update twice is the same as applying it once. */
  lemma UpdateLocationOnlyTouchesTwoFields(st: Store, id: nat, dto: LocationDto)
    requires id in st.locations
    ensures var r := UpdateLocation(st, id, dto).value; var prior := st.locations[id];
      && r.location.id == prior.id && r.location.name == prior.name && r.location.country == prior.country
      && r.location.latitude == prior.latitude && r.location.longitude == prior.longitude
      && r.location.displayName == (if dto.displayName.Some? then dto.displayName else prior.displayName)
      && r.location.isFavorite == (if dto.isFavorite.Some? then dto.isFavorite.value else prior.isFavorite)
      && r.store.snapshots == st.snapshots && r.store.nextId == st.nextId
      && r.store.locations.Keys == st.locations.Keys
      && (forall other :: other in st.locations && other != id ==> r.store.locations[other] == st.locations[other])
    ensures dto.displayName.None? && dto.isFavorite.None? ==> UpdateLocation(st, id, dto).value.store == st
    ensures var once := UpdateLocation(st, id, dto).value.store;
      UpdateLocation(once, id, dto).value.store == once
  {
  }

  /** Updating keeps the store well formed and keeps (name, country) unique. */
  lemma UpdateLocationPreservesInvariants(st: Store, id: nat, dto: LocationDto)
    requires Valid(st) && UniqueNameCountry(st)
    ensures var r := UpdateLocation(st, id, dto); r.Ok? ==> Valid(r.value.store) && UniqueNameCountry(r.value.store)
  {
  }

  /** Stands for the `DataIntegrityViolationException` a delete raises
      while snapshots still reference the row; the handler answers any such
      exception with the same 500 body, so its text is not modelled. */
  const StillReferenced := "weather_snapshots.location_id still references the location"

  /** `deleteLocation`: an unknown id throws LocationNotFoundException and
      deletes nothing. `deleteById` does not cascade to the snapshots, so a
      location with stored weather is refused by the `location_id` foreign
      key; otherwise exactly that row is removed. */
  function DeleteLocation(st: Store, id: nat): (r: Result<Store, AppException>)
    ensures r.Err? <==> id !in st.locations || HasSnapshots(st, id)
    ensures id !in st.locations ==> r == Err(LocationNotFound(NotFoundPrefix + IntToString(id)))
    ensures id in st.locations && HasSnapshots(st, id) ==> r == Err(Unexpected(StillReferenced))
    ensures r.Ok? ==> r.value.locations.Keys == st.locations.Keys - {id}
    ensures r.Ok? ==> forall other :: other in r.value.locations ==> r.value.locations[other] == st.locations[other]
    ensures r.Ok? ==> r.value.snapshots == st.snapshots && r.value.nextId == st.nextId
  {
    if id !in st.locations then Err(LocationNotFound(NotFoundPrefix + IntToString(id)))
    else if HasSnapshots(st, id) then Err(Unexpected(StillReferenced))
    else Ok(st.(locations := st.locations - {id}))
  }

  /** Deleting keeps the store well formed and keeps (name, country) unique;
      a deleted location can be added again. */
  lemma DeleteLocationPreservesInvariants(st: Store, id: nat)
    requires Valid(st) && UniqueNameCountry(st)
    ensures var r := DeleteLocation(st, id);
      r.Ok? ==> Valid(r.value) && UniqueNameCountry(r.value)
    ensures var r := DeleteLocation(st, id);
      r.Ok? ==> !NameCountryTaken(r.value, st.locations[id].name, st.locations[id].country)
  {
  }

  /** A delete that succeeds leaves no snapshot without its location. */
  lemma DeleteKeepsSnapshotsAttached(st: Store, id: nat)
    requires SnapshotsAttached(st)
    ensures var r := DeleteLocation(st, id); r.Ok? ==> SnapshotsAttached(r.value)
  {
    var r := DeleteLocation(st, id);
    if r.Ok? {
      forall i | 0 <= i < |r.value.snapshots| ensures r.value.snapshots[i].locationId in r.value.locations {
        assert st.snapshots[i].locationId != id;
      }
    }
  }

  /** `refreshWeather`: an unknown id is refused before the provider is
      asked; otherwise a new snapshot is fetched in the requested units. */
  function RefreshWeather(st: Store, id: nat, units: Unit,
                          provider: ProviderRequest -> ProviderReply, now: int): (r: Result<Fetched, AppException>)
    ensures id !in st.locations ==> r == Err(LocationNotFound(NotFoundPrefix + IntToString(id)))
    ensures id in st.locations && r.Err? ==> r.error.WeatherApi?
    ensures r.Ok? <==> id in st.locations && FetchSucceeds(st.locations[id], units, provider, now)
    ensures r.Ok? ==> r.value.store == st.(snapshots := st.snapshots + [r.value.snapshot])
    ensures r.Ok? ==> Storable(r.value.snapshot) && r.value.snapshot.locationId == st.locations[id].id
    ensures id in st.locations && SaveRejected(st.locations[id], units, provider, now) ==> r == Err(WeatherApi(FetchFailed))
  {
    if id !in st.locations then Err(LocationNotFound(NotFoundPrefix + IntToString(id)))
    else FetchAndSaveWeatherData(st, st.locations[id], units, provider, now)
  }

  /** A refresh only appends snapshots of stored locations. */
  lemma RefreshKeepsSnapshotsAttached(st: Store, id: nat, units: Unit,
                                      provider: ProviderRequest -> ProviderReply, now: int)
    requires Valid(st) && SnapshotsAttached(st)
    ensures var r := RefreshWeather(st, id, units, provider, now); r.Ok? ==> SnapshotsAttached(r.value.store)
  {
    var r := RefreshWeather(st, id, units, provider, now);
    if r.Ok? {
      AttachedAfterAppend(st, r.value.snapshot);
    }
  }
}

=== FILE: wrappers.dfy ===
/** Optional values (Java null / JavaScript null and undefined) and
    success-or-exception results, shared by every module of the model. */
module Wrappers {

  datatype Option<+T> = None | Some(value: T) {

    /** The contained value, or `default` when absent (Java `x != null ? x : d`). */
    function GetOr(default: T): T {
      match this
      case Some(v) => v
      case None => default
    }
  }

  /** `Err` carries what the source would throw. */
  datatype Result<+T, +E> = Ok(value: T) | Err(error: E) {

    predicate IsFailure() {
      Err?
    }

    function PropagateFailure<U>(): Result<U, E>
      requires Err?
    {
      Err(error)
    }

    function Extract(): T
      requires Ok?
    {
      value
    }
  }
}
